=== FILE: README.md ===
# World One Online School — a Dafny model of its decision logic

World One is an online-school web application. It has a Next.js/React front end, a
FastAPI back end that talks to Supabase over REST, and a handful of Node and
Python maintenance scripts. Most of it is presentation and I/O. This project models
the small pure decisions and client-side state machines that sit between the I/O
calls, and proves what they promise:

- the shopping cart, which behaves as a set of courses keyed by id, and its two
  consumers: the enrol button and the payment-return handler;
- the quiz runner: view selection, bounded navigation, the answer map, the submit
  condition and best-score bookkeeping over the attempt history;
- the two-phase assignment upload (upload a file, then submit its URL);
- access and visibility: lesson unlocking in the curriculum list, the staff-role test
  of the dashboard navbar, and the registration uniqueness pre-check;
- arithmetic and layout: the parent dashboard's progress percentage, and the report
  card's row formatting, title truncation and page-break layout;
- strings: the two slug generators, the back end's query builder and what it sends, its course
  create/update payload rules, key selection and upload file naming, the three
  API base-URL resolvers, and the `.env` parser of the scripts.

Every network, database or storage call is replaced by an abstract outcome
parameter (`DbOutcome`, `UploadOutcome`, `SubmitOutcome`, `StorageOutcome`,
`LessonOutcome`, …). The same holds for the clock (`timestamp`, `now`), the fresh
attempt id, the browser location (`Runtime`) and the environment (`Env`, file
contents as strings). Strings are `seq<char>`, and letter case and "alphanumeric"
are ASCII only.

Files: `optional.dfy` (Option), `strings.dfy` (the JS/Python string primitives the
code relies on), then one module per source file: `cart.dfy`,
`course_actions.dfy`, `checkout.dfy`, `quiz_runner.dfy`, `assignment.dfy`,
`curriculum.dfy`, `navbar.dfy`, `parent_dashboard.dfy`, `report_card.dfy`,
`course_form.dfy`, `slug_fix.dfy`, `supabase_rest.dfy` and `course_api.dfy`
(both backend/main.py), `validate_route.dfy`, `api_url.dfy` (three resolvers and
the lesson modal), `env_file.dfy` (both scripts).

## Model

| member | source | states |
|---|---|---|
| Cart.Find | lib/store/cart.ts:25-27 | `find` returns an item of the cart carrying the id, and nothing exactly when no item carries it |
| Cart.IsInCart | lib/store/cart.ts:33 | true exactly when some item of the cart carries the id |
| Cart.AddItem | lib/store/cart.ts:23-29 | afterwards the id is in the cart; the old items stay in order as a prefix; a present id leaves the cart unchanged, a new one is appended as the last item; distinct ids stay distinct |
| Cart.RemoveItem | lib/store/cart.ts:30-31 | afterwards the id is absent; an item survives exactly when it was there and has another id; the length drops by the number of items with that id; distinct ids stay distinct |
| Cart.ClearCart | lib/store/cart.ts:32-33 | after clearing, no id is in the cart |
| Cart.RemoveAbsent | lib/store/cart.ts:30-31 | removing an id that is not in the cart changes nothing |
| Cart.RemoveAppend | lib/store/cart.ts:30-31 | removal is a filter: removing from a concatenation is removing from each part and keeping their order |
| Cart.AddThenRemove | lib/store/cart.ts:23-31 | removing a freshly added id gives back the cart before the add |
| Cart.AddIdempotent | lib/store/cart.ts:25-27 | adding the same item twice is adding it once |
| Cart.DistinctCount | lib/store/cart.ts:23-33 | in a cart with distinct ids, each id occurs at most once, and once exactly when it is in the cart |
| Cart.RunKeepsDistinct | lib/store/cart.ts:23-32 | any sequence of add, remove and clear keeps the ids pairwise distinct |
| CourseActions.ActionFor | frontend/components/courses/CourseActionButtons.tsx:61-95 | only the status text while loading; "Continue Learning" to `/courses/<slug>/learn` when enrolled; otherwise "Go to Checkout" exactly when the course is in the cart, else the enrol button, "Enroll for Free" exactly when the price is not positive |
| CourseActions.HandleEnroll | frontend/components/courses/CourseActionButtons.tsx:51-59 | the course ends up in the cart, appended as its cart item when new, the cart untouched otherwise, and the page goes to /checkout |
| CourseActions.EnrollTwiceSingleEntry | frontend/components/courses/CourseActionButtons.tsx:51-59 | enrolling twice leaves the same cart as enrolling once, with the course there exactly once |
| CourseActions.EnrollShowsCheckout | frontend/components/courses/CourseActionButtons.tsx:51-86 | after enrolling, a user who is not enrolled sees "Go to Checkout" |
| CourseActions.EnrolledIgnoresCart | frontend/components/courses/CourseActionButtons.tsx:65-73 | an enrolled user's button does not depend on the cart |
| CourseActions.CheckEnrollment | frontend/components/courses/CourseActionButtons.tsx:28-49 | loading ends; the enrolled flag never goes from true to false, becomes true exactly on a found enrollment, and without a user keeps its initial value |
| CourseActions.ViewAfterCheck | frontend/components/courses/CourseActionButtons.tsx:28-73 | after the check, "Continue Learning" is shown exactly when the visitor was enrolled from the start or the lookup found a row |
| Checkout.StatusMessage | components/checkout/CheckoutForm.tsx:32-46 | each of the three known payment statuses gets its own message, and exactly the other or missing statuses get "Something went wrong." |
| Checkout.OnPaymentReturn | components/checkout/CheckoutForm.tsx:18-48 | without Stripe or a client secret nothing changes; otherwise the status message is set; the cart is either kept or emptied, and emptied exactly on 'succeeded' |
| Checkout.HandleSubmit | components/checkout/CheckoutForm.tsx:50-73 | without Stripe or Elements nothing happens; the cart is never touched; the redirect goes to `<origin>/checkout/success`; after a failed confirmation loading ends false and the message is exactly the error's own message for a card or validation error that has a non-empty one, and exactly the generic "An unexpected error occurred." otherwise |
| Checkout.SucceededClearsCart | components/checkout/CheckoutForm.tsx:33-36 | a 'succeeded' return empties the cart, so no course is in it, and sets "Payment succeeded!" |
| Checkout.OtherStatusKeepsCart | components/checkout/CheckoutForm.tsx:37-45 | any status other than 'succeeded' leaves the cart as it was |
| QuizRunner.ReduceBest | frontend/components/courses/QuizRunner.tsx:84-92 | the reduce over the history picks the first attempt with the greatest score ratio |
| QuizRunner.BestAttempt | frontend/components/courses/QuizRunner.tsx:84-92 | the best attempt is in the history and no attempt has a greater ratio |
| QuizRunner.ViewOf | frontend/components/courses/QuizRunner.tsx:180-290 | each early return fires exactly under its own condition in the component's order: spinner while loading, the error, no quiz, the Summary (count, best and newest attempt) when not retaking with history; past those, Results exactly when a result is held; otherwise the question at the current index when it exists, with the last-question mark and submit enabled exactly when as many answers as questions are held, and the render throws (`currentQuestion.id` of undefined) when the index is outside the quiz, as it is for a quiz without questions |
| QuizRunner.Load | frontend/components/courses/QuizRunner.tsx:56-108 | loading ends at question 0 with no answers; a quiz is present exactly when it was fetched; an error exactly when the fetch failed or the signed-in history fetch failed; a signed-in user's loaded history is kept, with its best attempt and retaking on exactly when it is empty; signed out or with the history request rejected, no history, no best and retaking off |
| QuizRunner.LoadViewWithoutHistory | frontend/components/courses/QuizRunner.tsx:74-93 | signed out or with the history request rejected, the quiz opens on its first question with submit disabled, or crashes the render when it has no question |
| QuizRunner.LoadView | frontend/components/courses/QuizRunner.tsx:84-92 | a non-empty history opens on the Summary, with the best attempt as computed; an empty one opens on the first question, submit disabled, or crashes the render when the quiz has no question |
| QuizRunner.SelectOption | frontend/components/courses/QuizRunner.tsx:110-112 | the chosen option is recorded for that question, overwriting any earlier choice, and every other answer and all other state is unchanged |
| QuizRunner.Previous | frontend/components/courses/QuizRunner.tsx:330-331 | moves back one question but never below 0, and changes nothing else |
| QuizRunner.Next | frontend/components/courses/QuizRunner.tsx:348 | moves on one question but never past the last, and changes nothing else |
| QuizRunner.NavigationStaysInRange | frontend/components/courses/QuizRunner.tsx:330-348 | from a valid question index both buttons keep the index valid |
| QuizRunner.NavigationKeepsQuestionShown | frontend/components/courses/QuizRunner.tsx:271-348 | while a question is shown, "Previous" and "Next" lead to a shown question again, never to the crashing render |
| QuizRunner.CanSubmitIffAllAnswered | frontend/components/courses/QuizRunner.tsx:273 | with answers only for questions of the quiz, submitting is enabled exactly when every question has an answer |
| QuizRunner.SelectKeepsAnswersInQuiz | frontend/components/courses/QuizRunner.tsx:110-112 | answering one of the quiz's questions keeps all answers inside the quiz |
| QuizRunner.UpdateBest | frontend/components/courses/QuizRunner.tsx:155-159 | the new attempt becomes the best exactly when its percentage is at least the old best's (0 without one); otherwise the old best stays |
| QuizRunner.Submit | frontend/components/courses/QuizRunner.tsx:114-171 | without a quiz nothing happens; without a user or on a failed request an error is set and history, best and answers are untouched; on success the new attempt is prepended, becomes the result, updates the best and reports score and maximum to the caller; loading ends false |
| QuizRunner.StartRetake | frontend/components/courses/QuizRunner.tsx:173-178 | result and answers are cleared, the index returns to 0 and retaking starts; quiz, history, best, error and loading are kept |
| QuizRunner.AfterSubmitViews | frontend/components/courses/QuizRunner.tsx:197-290 | after a graded retake the Results view shows that result, "View History" goes back to the Summary, and a new retake opens the first question with submit disabled (or crashes the render for a quiz without questions) |
| QuizRunner.ViewHistory | frontend/components/courses/QuizRunner.tsx:263 | "View History" only leaves retake mode; quiz, index, answers, result, history, best, error and loading are kept |
| QuizRunner.SubmitAllBest | frontend/components/courses/QuizRunner.tsx:146-159 | over a run of graded submissions the best becomes the last attempt of greatest percentage, because ties replace the best |
| Assignment.ErrorText | frontend/components/courses/AssignmentUpload.tsx:90-92 | an error always shows a non-empty text, the thrown message when it has one |
| Assignment.Begin | frontend/components/courses/AssignmentUpload.tsx:46-48 | an attempt starts by clearing error and success and setting uploading, keeping the file and comments |
| Assignment.Fail | frontend/components/courses/AssignmentUpload.tsx:90-95 | a failure sets the error, ends uploading and keeps the file and comments |
| Assignment.HandleSubmit | frontend/components/courses/AssignmentUpload.tsx:42-96 | no assignment or no file does nothing; no user gives "You must be logged in." with no request; the submission is sent exactly when the upload succeeded, with the assignment id, user id, returned URL and comments; success clears file and comments; failure keeps them; uploading always ends |
| Assignment.UploadFailureStopsSubmission | frontend/components/courses/AssignmentUpload.tsx:62-67 | a failed upload sends only the upload, with "File upload failed" shown |
| Assignment.RetryResendsSameFile | frontend/components/courses/AssignmentUpload.tsx:86-92 | after a failed submission the same file and comments are sent again |
| Assignment.ViewOf | frontend/components/courses/AssignmentUpload.tsx:98-161 | "No assignment for this lesson." exactly when none was fetched; the success panel exactly after a success; the button is enabled exactly with a file and no upload running |
| Assignment.ViewAfterSubmit | frontend/components/courses/AssignmentUpload.tsx:86-121 | after an upload and a successful submission the success panel shows; after a failed one the form shows again with its button enabled |
| Curriculum.IconFor | frontend/components/courses/CurriculumList.tsx:46-50 | the video icon exactly for 'video', the quiz icon exactly for 'quiz', the document icon otherwise |
| Curriculum.RowFor | frontend/components/courses/CurriculumList.tsx:36-58 | a lesson is locked exactly when the viewer is not admin, not enrolled and it is not a free preview; locked rows show the lock, link to '#' and block the click; unlocked ones link to the lesson; the Preview badge depends only on the free-preview flag |
| Curriculum.HiddenModules | frontend/components/courses/CurriculumList.tsx:71 | the count of further modules is the module count less 2, never negative, and 0 exactly for two modules or fewer |
| Curriculum.BlockFor | frontend/components/courses/CurriculumList.tsx:33-64 | one row per lesson, in order, and "No lessons yet" exactly for a module without lessons |
| Curriculum.Render | frontend/components/courses/CurriculumList.tsx:25-80 | "Curriculum coming soon." exactly when no visible modules are given; otherwise one block per visible module, and the "more modules" note exactly when the full curriculum is not shown |
| Curriculum.AccessOpensEverything | frontend/components/courses/CurriculumList.tsx:36 | for an admin or enrolled viewer every rendered lesson is unlocked |
| Curriculum.VisitorSeesPreviewsOnly | frontend/components/courses/CurriculumList.tsx:36-58 | for a visitor a lesson is locked exactly when it carries no Preview badge |
| Navbar.IsAdmin | components/layout/DashboardNavbar.tsx:39 | staff exactly when the profile role or the metadata role is 'admin' or 'instructor' |
| Navbar.MetadataRoleSuffices | components/layout/DashboardNavbar.tsx:39 | a staff metadata role counts even when the profile says 'student' |
| Navbar.OtherRolesAreNotStaff | components/layout/DashboardNavbar.tsx:39 | no user and no profile, or any other role such as 'teacher', is not staff |
| Navbar.NavLinks | components/layout/DashboardNavbar.tsx:57-71 | the Dashboard link always comes first, and the Admin Panel link is present exactly for staff |
| Navbar.DisplayName | components/layout/DashboardNavbar.tsx:78 | the profile's full name when non-empty, else the user's email |
| Navbar.AvatarInitial | components/layout/DashboardNavbar.tsx:81 | one character: the upper-cased first letter of the full name when there is one, else 'U' |
| ParentDashboard.Progress | app/dashboard/parent/page.tsx:145 | 0 without lessons; otherwise the integer p with 100·completed/total in [p − ½, p + ½), stated without division |
| ParentDashboard.ProgressIsRoundedRatio | app/dashboard/parent/page.tsx:145 | the progress is the exact ratio 100·completed/total rounded half up |
| ParentDashboard.ProgressBounds | app/dashboard/parent/page.tsx:145 | with 0 ≤ completed ≤ total, progress is between 0 and 100 |
| ParentDashboard.ProgressEndpoints | app/dashboard/parent/page.tsx:145 | nothing completed gives 0 and everything completed gives 100 |
| ParentDashboard.ProgressMonotone | app/dashboard/parent/page.tsx:145 | for a fixed total, more completed lessons never give less progress |
| ParentDashboard.ChildName | app/dashboard/parent/page.tsx:54 | the text before the first '@', or 'Student' when that is empty or there is no email; never empty and never containing '@' |
| ParentDashboard.ChildNameOfAddress | app/dashboard/parent/page.tsx:54 | for an address `local@domain` the name is `local` |
| ReportCard.Truncate | backend/reports.py:50-51 | titles of at most 40 characters are kept; longer ones become their first 37 characters and "...", exactly 40 long |
| ReportCard.TruncateIdempotent | backend/reports.py:50-51 | truncating twice is truncating once |
| ReportCard.FormatRow | backend/reports.py:45-55 | missing keys default to 'Unknown Course', 0 and 'N/A'; the title is truncated; the progress cell is the number followed by '%'; the grade cell is the grade's text |
| ReportCard.EmptyEntryDefaults | backend/reports.py:45-47 | an entry without keys prints as "Unknown Course", "0%", "N/A" |
| ReportCard.RowY | backend/reports.py:57-60 | every row is drawn at a height between the bottom margin 50 and the new-page start |
| ReportCard.RowsFollowClosedForm | backend/reports.py:33-60 | the loop's heights and page numbers equal a closed form: 21 rows fit on the first page and 28 on every later one |
| ReportCard.LaterPagesRepeat | backend/reports.py:57-60 | after the first page, the layout repeats every 28 rows, one page further down |
| ReportCard.Layout | backend/reports.py:41-60 | one placed row per entry, in order, each with its formatted cells, page and height from the loop; every row at height ≥ 50; the first at height − 230 on the first page; the number of page breaks |
| ReportCard.PlaceRows | backend/reports.py:44-60 | the loop places the rows exactly as the row recurrences say, and counts the page breaks |
| CourseForm.AutoSlug | frontend/app/admin/courses/create/page.tsx:24-27 | the auto-slug holds only lower-case letters, digits, '_' and '-', and is never longer than the title |
| CourseForm.AutoSlugOfSlug | frontend/app/admin/courses/create/page.tsx:24-27 | text already made of slug characters is its own auto-slug |
| CourseForm.AutoSlugIdempotent | frontend/app/admin/courses/create/page.tsx:24-27 | slugifying a slug changes nothing |
| CourseForm.AutoSlugAppend | frontend/app/admin/courses/create/page.tsx:24-27 | the slug works character by character, so it distributes over concatenation |
| CourseForm.AutoSlugOneChar | frontend/app/admin/courses/create/page.tsx:24-27 | a capital becomes its lower-case letter, a space becomes '-', another letter, digit, '_' or '-' is kept, and every other character is dropped; with the previous row this fixes the slug of every title |
| CourseForm.SpacesBecomeHyphens | frontend/app/admin/courses/create/page.tsx:26 | a run of spaces becomes an equally long run of hyphens, neither collapsed nor trimmed |
| CourseForm.DiffersFromFixSlug | frontend/app/admin/courses/create/page.tsx:27 | the form keeps '_', which the maintenance script drops: "a_" gives "a_" here and "a" there |
| CourseForm.HandleTitleChange | frontend/app/admin/courses/create/page.tsx:29-33 | the title becomes the typed text and nothing else changes except the slug, which becomes the auto-slug exactly when the old slug is empty, equals the auto-slug, or (hyphens read as spaces) starts the new title; otherwise it is kept |
| CourseForm.TypingCapitalFreezesSlug | frontend/app/admin/courses/create/page.tsx:29-33 | typing "A" then "AB" leaves the slug "a" although it was never edited |
| CourseForm.HandleTitleChangeTracking | frontend/app/admin/courses/create/page.tsx:29-33 | corrected rule: a slug that is empty or equals the old title's auto-slug follows the new title, and an edited slug is kept |
| CourseForm.TrackingFollowsTitle | frontend/app/admin/courses/create/page.tsx:29-33 | under the corrected rule an unedited slug follows every title typed |
| CourseForm.TrackingFixesCapitals | frontend/app/admin/courses/create/page.tsx:29-33 | the corrected rule agrees with the original on "A" and gives "ab" for "AB" |
| SlugFix.NonEmpty | backend/scripts/fix_slugs.py:38 | `filter(None, …)` keeps only non-empty parts, all from the input, and keeps an input without empty parts whole |
| SlugFix.Cleaned | backend/scripts/fix_slugs.py:35-37 | after lower-casing, turning spaces into '-' and filtering, only lower-case letters, digits and '-' remain |
| SlugFix.FixSlug | backend/scripts/fix_slugs.py:33-38 | the slug has only lower-case letters, digits and '-', with no leading or trailing '-' and no "--" |
| SlugFix.FixSlugIdempotent | backend/scripts/fix_slugs.py:33-38 | normalising a normalised slug changes nothing |
| SlugFix.NoAlnumGivesEmpty | backend/scripts/fix_slugs.py:37-38 | a title without letters or digits gives the empty slug |
| SlugFix.CleanedSlug | backend/scripts/fix_slugs.py:35-37 | text already made of slug characters passes the cleaning unchanged |
| SlugFix.NonEmptyAppend | backend/scripts/fix_slugs.py:38 | `filter(None, …)` distributes over concatenation, drops a single empty part and keeps a single non-empty one, so it keeps exactly the non-empty parts in order |
| SlugFix.CleanedChar | backend/scripts/fix_slugs.py:35-37 | per character: a letter or digit is kept lower-cased, a space or '-' becomes '-', anything else is dropped |
| SlugFix.CleanedAppend | backend/scripts/fix_slugs.py:35-37 | the cleaning works character by character, so with the previous row it fixes the cleaned text of every title |
| SlugFix.CleanedKeepsAlnum | backend/scripts/fix_slugs.py:35-37 | the cleaned text holds the title's letters and digits, lower-cased, in order |
| SlugFix.FilterJoinNonEmpty | backend/scripts/fix_slugs.py:38 | dropping the empty parts before the hyphen join loses no letter or digit |
| SlugFix.FixSlugKeepsAlnum | backend/scripts/fix_slugs.py:33-38 | the slug's letters and digits are exactly the title's, lower-cased and in their order |
| SlugFix.SplitNormalNonEmpty | backend/scripts/fix_slugs.py:38 | splitting a non-empty slug without edge or doubled hyphens gives no empty part |
| SlugFix.FixSlugFixedPoint | backend/scripts/fix_slugs.py:33-38 | a title that already is a normalised slug is written back unchanged |
| SupabaseRest.Put | backend/main.py:83 | a dict assignment makes the key map to the value, leaves every other key as it was, keeps an existing key's position and appends a new key last |
| SupabaseRest.NewClient | backend/main.py:56-58 | the client keeps its key and its URL is the given URL minus all its trailing '/' characters |
| SupabaseRest.NormaliseIdempotent | backend/main.py:57 | normalising a normalised URL changes nothing |
| SupabaseRest.TrailingSlashesIgnored | backend/main.py:57 | URLs that differ only in trailing slashes give the same client URL |
| SupabaseRest.Table | backend/main.py:66-75 | a fresh GET builder for `<url>/rest/v1/<table>` with no parameters and no body |
| SupabaseRest.Select | backend/main.py:77-80 | the method becomes GET and the 'select' parameter the columns; every other parameter is unchanged |
| SupabaseRest.Eq | backend/main.py:82-84 | the column's parameter becomes "eq.<value>", overwriting an earlier filter on it; everything else is unchanged |
| SupabaseRest.Order | backend/main.py:85-92 | the first ordering sets "col.asc" or "col.desc"; a later one is appended after a comma; nothing else changes |
| SupabaseRest.Insert | backend/main.py:94-97 | the method becomes POST with the data as body; the table URL and the filters already added are kept |
| SupabaseRest.Update | backend/main.py:99-102 | the method becomes PATCH with the data as body; the table URL and the filters already added are kept |
| SupabaseRest.Delete | backend/main.py:105-107 | the method becomes DELETE; table URL, filters and any body are kept |
| SupabaseRest.LastMethodWins | backend/main.py:77-107 | after any chain of calls the method is the one set by the last select, insert, update or delete |
| SupabaseRest.OrdersAccumulate | backend/main.py:85-92 | a chain of orderings yields their texts joined by commas, in call order |
| SupabaseRest.Sent | backend/main.py:109-119 | `execute` sends the builder's method to its table URL; a POST sends the body without query parameters, a PATCH both, a DELETE or GET the parameters without a body |
| SupabaseRest.SentDropsWhatTheMethodIgnores | backend/main.py:109-119 | a filter added before an insert is never sent, and a body an update left in the builder is never sent by a later delete |
| SupabaseRest.SelectKey | backend/main.py:148-156 | the service key when it lacks the placeholder and is longer than 20; else the anon key when longer than 20; else none |
| SupabaseRest.StartupClient | backend/main.py:158-164 | a client exists exactly when the URL is set and a key was selected, built from those two |
| SupabaseRest.PlaceholderNeverUsed | backend/main.py:149 | a service key containing the placeholder text is never selected as the service key |
| CourseApi.CourseDict | backend/main.py:167-173 | the model's six fields, in declaration order, each bound once to its value: title, description and level as text, price as a number, thumbnail_url as text or null, slug as text |
| CourseApi.CreatePayload | backend/main.py:227-228 | the model's fields with the same values, followed by `is_published`, which is always false |
| CourseApi.CreatePayloadIsAssignment | backend/main.py:227-228 | the payload is the model's dictionary after assigning `is_published`, a new key that goes last |
| CourseApi.CreateError | backend/main.py:238-240 | an error mentioning "duplicate key" in any case gives "Course with this slug already exists."; any other keeps its text |
| CourseApi.CreateCourse | backend/main.py:222-240 | no database gives 500; otherwise the payload is inserted into courses; success gives 201 with the first row, or the message and data when none comes back; a failure gives 400 |
| CourseApi.CreateOnTheWire | backend/main.py:231 | the create goes out as a POST of the payload to `<url>/rest/v1/courses` with no query parameters |
| CourseApi.UpdateOnTheWire | backend/main.py:280 | an update with a field goes out as a PATCH of exactly those fields to the courses table with the single query parameter `id=eq.<id>` |
| CourseApi.CreatedAsDraft | backend/main.py:227-231 | every insert is a POST whose body says `is_published` false |
| CourseApi.DuplicateKeyAnyCase | backend/main.py:238-239 | a duplicate-key error is recognised whatever the letter case and the surrounding text |
| CourseApi.DropNone | backend/main.py:274 | the comprehension keeps exactly the fields given with a value, and is empty exactly when none is |
| CourseApi.DropNoneAppend | backend/main.py:274 | the comprehension works field by field, keeping a field exactly when it has a value, so the kept fields stay in order |
| CourseApi.UpdateRequest | backend/main.py:280 | the request is a PATCH of exactly the data to the courses table, with the single filter `id=eq.<course id>` |
| CourseApi.UpdateCourse | backend/main.py:268-289 | no database gives 500; an update without fields gives 400 "No data content to update" with no request; otherwise a PATCH to the courses table of exactly the given fields filtered on the id; success gives 200 with the first returned row, or "Course updated" with the sent fields when none is returned; a failure gives 500 with its text |
| CourseApi.UpdateSendsExactlyGivenFields | backend/main.py:274-280 | a request is made exactly when some field was given, and its body holds exactly the given fields |
| CourseApi.StoredName | backend/main.py:470-473 | "<timestamp>_" followed by the name with spaces turned into '_', so without spaces |
| CourseApi.StoredNameParts | backend/main.py:470-473 | the stored name splits at its first '_' back into the timestamp and the cleaned name |
| CourseApi.ContentType | backend/main.py:476 | the declared content type, or "application/octet-stream" when absent or empty |
| CourseApi.Upload | backend/main.py:457-518 | no database gives 500; a missing file name or a storage failure gives 500 "Server Error: …"; the storage request goes to the stored name with the content type; success, and only success, gives 200 with the public URL |
| CourseApi.StorageUrl | backend/main.py:481 | the upload address lies under the project's `course-content` bucket and ends in the file name |
| CourseApi.PublicUrl | backend/main.py:510 | the returned address lies under the public path of the same bucket, ends in the file name and is the upload address lengthened by exactly "public/" |
| CourseApi.PublicUrlIsStorageUrlMadePublic | backend/main.py:481-510 | the public URL is the storage URL with "public/" put before the bucket |
| ValidateRoute.Count | app/api/auth/validate/route.ts:12-16 | the number of matching profiles, equal to the value's multiplicity in the column and zero exactly when none matches |
| ValidateRoute.SingleMatchIffUnique | app/api/auth/validate/route.ts:12-16 | `.single()` finds a row exactly when one position, and only that one, holds the value |
| ValidateRoute.Validate | app/api/auth/validate/route.ts:5-48 | an unreadable body gives 500; a taken email gives 409 for the email; otherwise a taken username gives 409 for the username; the reply is valid exactly when neither is taken |
| ValidateRoute.EmailCheckedFirst | app/api/auth/validate/route.ts:11-42 | the email verdict does not depend on the username, and absent or empty fields are never reported |
| ValidateRoute.TakenIffPresent | app/api/auth/validate/route.ts:12-18 | with unique emails or usernames, a value reads as taken exactly when a profile has it |
| ValidateRoute.DuplicateReadsAsFree | app/api/auth/validate/route.ts:16-18 | an email held by two profiles makes `.single()` return nothing, so it reads as free |
| ApiUrl.LessonApiUrl | frontend/components/admin/AddLessonModal.tsx:14-27 | unset gives '/api/v1'; in a browser off 'localhost'/'127.0.0.1' an env URL naming a local host gives '/api/v1'; otherwise the env URL |
| ApiUrl.NoLocalApiOffLocalhost | frontend/components/admin/AddLessonModal.tsx:19-26 | a page served from a non-local host never calls a local API through the modal |
| ApiUrl.DeployedOrLocal | lib/api/client.ts:7-8 | "https://<VERCEL_URL>/api/v1" when set, else the local development server |
| ApiUrl.ClientBaseUrl | lib/api/client.ts:4-9 | the env URL wins everywhere; without it a browser uses '/api/v1' and the server the deployment or local fallback |
| ApiUrl.UtilsBaseUrl | lib/utils.ts:8-15 | a browser always uses its origin plus '/api/v1'; the server uses the env URL, then the fallbacks |
| ApiUrl.ServerResolversAgree | lib/utils.ts:12-14 | on the server the two base-URL resolvers give the same URL |
| ApiUrl.BrowserResolversDiffer | lib/api/client.ts:5-6 | in a browser with no env URL they agree exactly when the origin is empty; with one, the client follows it and the utility ignores it |
| ApiUrl.LessonCall | frontend/components/admin/AddLessonModal.tsx:38-46 | the lesson goes to `<api>/lessons` carrying the given module id, title and lesson type, with order 99 |
| ApiUrl.LessonSubmitted | frontend/components/admin/AddLessonModal.tsx:49-59 | the lesson is added exactly when created, with the returned data; any error alerts "Error creating lesson (<api>): <message>" |
| ApiUrl.RejectionIsRethrown | frontend/components/admin/AddLessonModal.tsx:49-53 | a rejected request alerts exactly as the thrown "Failed to create lesson: <status> <text>" error would |
| EnvFile.LineFields | backend/scripts/seed_courses.js:11 | the key is the text before the first '='; the value is the text up to the next '=', absent exactly when the line has no '=' |
| Strings.Trim | backend/scripts/seed_courses.js:13 | JavaScript `trim()`: a slice of the input with only white space before and after it, starting and ending with a non-space, and empty exactly for an all-white-space input |
| Strings.TrimIdempotent | backend/scripts/seed_courses.js:13 | trimming twice is trimming once |
| EnvFile.LineEntry | backend/scripts/seed_courses.js:12-13 | a line records an entry exactly when both untrimmed parts are non-empty, and stores both trimmed |
| EnvFile.LastEntryWins | backend/scripts/seed_courses.js:10-15 | a name is bound exactly when some entry binds it, and then to the value of the last such entry |
| EnvFile.LastLineWins | frontend/scripts/test_connection.js:13-18 | of the lines recording a name, the last one decides its value |
| EnvFile.UnrecordedUnbound | frontend/scripts/test_connection.js:13-18 | a name no line records stays unbound |
| EnvFile.SecondEqualsCutsValue | backend/scripts/seed_courses.js:11 | whatever follows a second '=' on a line is lost |
| EnvFile.SingleLine | backend/scripts/seed_courses.js:10-15 | a single `KEY=VALUE` line binds the trimmed key to the trimmed value |
| EnvFile.Lookup | backend/scripts/seed_courses.js:17-22 | reading a name gives its value exactly when it was bound |
| EnvFile.Override | backend/scripts/seed_courses.js:30-32 | a line offers a key only when it starts with the service-key prefix and the key is neither empty nor the placeholder |
| EnvFile.OverrideOfAssignment | backend/scripts/seed_courses.js:30-32 | a service-key line offers its trimmed value up to any further '=', unless that is empty or the placeholder |
| EnvFile.LastOfferWins | backend/scripts/seed_courses.js:29-37 | with no offers the key is unchanged; otherwise the last offer decides |
| EnvFile.ScanKey | backend/scripts/seed_courses.js:29-37 | after the scan the key is the starting one or a usable offered key, non-empty exactly when the starting key is or some line offers one, and unchanged when no line offers one |
| EnvFile.SeedKey | backend/scripts/seed_courses.js:22-41 | the key is the anon key unless the backend file offers one; it is non-empty exactly when the anon key is or the backend file offers one |
| EnvFile.LastOverrideWins | backend/scripts/seed_courses.js:25-41 | the last line offering a key decides; with none, the anon key stays |
| EnvFile.Credentials | backend/scripts/seed_courses.js:43-46 | the run connects exactly when both URL and key are non-empty, and with those two |
| EnvFile.SeedStartup | backend/scripts/seed_courses.js:7-48 | the run connects exactly when the frontend URL is set and either the anon key is set or the backend file offers a service key, and then with that URL, and with the anon key when the backend file offers none; a connection never uses the placeholder key unless the anon key itself was the placeholder |
| EnvFile.SeedUsesLastOverride | backend/scripts/seed_courses.js:29-48 | with the URL set and a backend file offering a key, the run connects with that URL and the key of the last offering line, whatever the anon key |
| EnvFile.TestStartup | frontend/scripts/test_connection.js:10-29 | the connection test connects exactly when the file binds a non-empty URL and anon key, and then with exactly those two values |
| EnvFile.SeedWithoutOverrideIsTest | backend/scripts/seed_courses.js:25-46 | without a backend file offering a key, the seed script starts exactly as the connection test does |
| EnvFile.BlankUrlAborts | frontend/scripts/test_connection.js:20-26 | a URL line whose value is only blanks binds the empty string, and both scripts abort |

## Left out

- All network, database and storage I/O: the HTTP exchange and reply handling of `SupabaseQueryBuilder.execute` (what it sends is modelled), the streamed storage POST, every `fetch`, Supabase or `httpx` call, and the FastAPI routing. Their results are outcome parameters.
- React effects, `isMounted` cancellation, unmount clean-up, and the zustand `persist` storage of the cart. These are host lifecycle and concurrency.
- JSX rendering and styling beyond the decisions each view makes; the static marketing pages.
- `get_course` in backend/main.py: it calls `.single()`, which the hand-written builder does not define. Every other endpoint outside create, update and upload is also left out.
- Server-side quiz grading: the client only receives score, maximum and percentage, which are inputs here. There is no pass threshold; the 70% colouring is presentation.
- QuizRunner.ViewOf: the render that throws on a missing question is the `RenderCrash` view; what React then shows (an error boundary or a blank page) is not modelled.
- QuizRunner.Load: the attempt history is taken as the server returns it, newest first; the model does not sort it.
- QuizRunner.Submit: the `API_URL` default and the request body are not modelled; only the outcome is.
- Assignment: `handleFileChange` and the effect that fetches the assignment are left out; the fetched assignment is part of the state.
- Navbar: `handleSignOut` is I/O.
- ParentDashboard.Progress: rounds the exact ratio half up. JavaScript computes `Math.round((c / t) * 100)` in binary floating point, which can land on the other side of an exact half (for example 57 of 200). Floating point is not modelled.
- Floating-point money: prices are compared with 0 but never printed or summed; the price label's number formatting is left out.
- Letter case, `\w` and `isalnum` are ASCII only; JavaScript and Python differ on other Unicode characters.
- ReportCard: reportlab drawing, the header and footer, and the page that an empty final page would leave are not modelled. The code reads the keys 'title', 'progress' and 'grade'; the function's docstring names 'course_title' and 'score', and the model follows the code. Python's `str()` of a grade is abstracted as text.
- CourseApi.Upload: the text of Python's `repr(e)` is an input. The non-200 storage error is raised inside the `try` and re-wrapped by the outer `except Exception`, so it reaches the client as 500 "Server Error: " plus its repr; the model states this wrapped form.
- SlugFix: a course whose title is `None`, on which the script would raise, is not modelled; titles are strings.
- EnvFile: failures to read the files, and a JavaScript `__proto__` key in a `.env` file, are not modelled.
- ValidateRoute: the `.single()` lookup is modelled as "exactly one matching profile"; a database error other than "no rows" is not distinguished from it.
- ApiUrl.LessonSubmitted: a failure of `res.json()` on a created lesson is folded into the thrown-error case.
- The diagnostic, seed-data and admin scripts other than the slug fix and the two `.env` readers.

## Findings

| source | as written | input that shows it | evidently intended | confidence | as-written member | corrected member |
|---|---|---|---|---|---|---|
| frontend/app/admin/courses/create/page.tsx:32 | the slug keeps following the title only while the title, case-sensitively, starts with the slug read with spaces; once the title holds a capital letter (or a character the slugifier drops) the unedited slug freezes | typing "A" then "AB" leaves the slug "a", where "ab" is expected | an unedited slug, equal to the previous title's auto-slug, follows the title | high; not executed | CourseForm.TypingCapitalFreezesSlug (on CourseForm.HandleTitleChange) | CourseForm.HandleTitleChangeTracking, with CourseForm.TrackingFollowsTitle |

=== FILE: api_url.dfy ===
/** How the front end finds the backend API: the lesson modal's resolver
    (frontend/components/admin/AddLessonModal.tsx), the axios client's
    (lib/api/client.ts) and the utility one (lib/utils.ts); plus the lesson
    creation request of the modal. Environment variables and the browser's
    location are inputs; an empty variable counts as unset, as in
    JavaScript. */
module ApiUrl {
  import opened Optional
  import opened Strings

  datatype Env = Env(apiUrl: Option<string>, vercelUrl: Option<string>)

  /** Server-side rendering, or a browser page at `hostname` with
      `origin`. */
  datatype Runtime = Server | Browser(hostname: string, origin: string)

  const RelativeApi := "/api/v1"
  const LocalApi := "http://127.0.0.1:8002/api/v1"

  predicate LocalHost(hostname: string) {
    hostname == "localhost" || hostname == "127.0.0.1"
  }

  predicate MentionsLocal(url: string) {
    Contains(url, "localhost") || Contains(url, "127.0.0.1")
  }

  /** The modal's `getApiUrl`: off a local host, a local env URL is
      replaced by the relative path; otherwise the env URL, or the relative
      path when it is unset. */
  function LessonApiUrl(env: Env, rt: Runtime): (u: string)
    ensures !Truthy(env.apiUrl) ==> u == RelativeApi
    ensures rt.Browser? && !LocalHost(rt.hostname) && Truthy(env.apiUrl) && MentionsLocal(env.apiUrl.value) ==>
              u == RelativeApi
    ensures Truthy(env.apiUrl) && !(rt.Browser? && !LocalHost(rt.hostname) && MentionsLocal(env.apiUrl.value)) ==>
              u == env.apiUrl.value
  {
    if rt.Browser? && !LocalHost(rt.hostname) && Truthy(env.apiUrl) && MentionsLocal(env.apiUrl.value) then RelativeApi
    else if Truthy(env.apiUrl) then env.apiUrl.value
    else RelativeApi
  }

  /** The relative path mentions no local host. */
  lemma RelativeIsNotLocal()
    ensures !MentionsLocal(RelativeApi)
  {
    ContainsIff(RelativeApi, "localhost");
    ContainsIff(RelativeApi, "127.0.0.1");
  }

  /** A page served from a non-local host never calls a local API through
      the modal. */
  lemma NoLocalApiOffLocalhost(env: Env, hostname: string, origin: string)
    requires !LocalHost(hostname)
    ensures !MentionsLocal(LessonApiUrl(env, Browser(hostname, origin)))
  {
    RelativeIsNotLocal();
  }

  /** The `VERCEL_URL` fallback, or the local development server. */
  function DeployedOrLocal(env: Env): (u: string)
    ensures Truthy(env.vercelUrl) ==> u == "https://" + env.vercelUrl.value + RelativeApi
    ensures !Truthy(env.vercelUrl) ==> u == LocalApi
  {
    if Truthy(env.vercelUrl) then "https://" + env.vercelUrl.value + RelativeApi else LocalApi
  }

  /** lib/api/client.ts: the env URL wins everywhere; then the relative path
      in a browser; then the fallbacks. */
  function ClientBaseUrl(env: Env, rt: Runtime): (u: string)
    ensures Truthy(env.apiUrl) ==> u == env.apiUrl.value
    ensures !Truthy(env.apiUrl) && rt.Browser? ==> u == RelativeApi
    ensures !Truthy(env.apiUrl) && rt.Server? ==> u == DeployedOrLocal(env)
  {
    if Truthy(env.apiUrl) then env.apiUrl.value
    else if rt.Browser? then RelativeApi
    else DeployedOrLocal(env)
  }

  /** lib/utils.ts: in a browser the page's own origin, whatever the env
      says; on the server the env URL, then the fallbacks. */
  function UtilsBaseUrl(env: Env, rt: Runtime): (u: string)
    ensures rt.Browser? ==> u == rt.origin + RelativeApi
    ensures rt.Server? && Truthy(env.apiUrl) ==> u == env.apiUrl.value
    ensures rt.Server? && !Truthy(env.apiUrl) ==> u == DeployedOrLocal(env)
  {
    if rt.Browser? then rt.origin + RelativeApi
    else if Truthy(env.apiUrl) then env.apiUrl.value
    else DeployedOrLocal(env)
  }

  /** During server rendering the two base-URL resolvers agree. */
  lemma ServerResolversAgree(env: Env)
    ensures ClientBaseUrl(env, Server) == UtilsBaseUrl(env, Server)
  {
  }

  /** In a browser they agree when no env URL is set exactly if the origin
      is empty; with an env URL, the client follows it and the utility
      ignores it. */
  lemma BrowserResolversDiffer(env: Env, hostname: string, origin: string)
    ensures !Truthy(env.apiUrl) ==>
              (ClientBaseUrl(env, Browser(hostname, origin)) == UtilsBaseUrl(env, Browser(hostname, origin)) <==> origin == "")
    ensures Truthy(env.apiUrl) ==>
              ClientBaseUrl(env, Browser(hostname, origin)) == env.apiUrl.value
              && UtilsBaseUrl(env, Browser(hostname, origin)) == origin + RelativeApi
  {
    if !Truthy(env.apiUrl) && origin + RelativeApi == RelativeApi {
      assert |origin| == 0;
    }
  }

  // ---------------------------------------------------------------------
  // Lesson creation
  // ---------------------------------------------------------------------

  const DefaultOrder := 99

  datatype LessonPayload = LessonPayload(moduleId: string, title: string, lessonType: string, order: int)

  datatype LessonRequest = LessonRequest(endpoint: string, payload: LessonPayload)

  /** The response to the POST: a created lesson (as JSON text), a non-OK
      status with its body text, or a thrown error's message. */
  datatype LessonOutcome = LessonCreated(data: string) | LessonRejected(status: int, text: string) | LessonThrew(message: string)

  /** The lesson is handed to the parent and the modal closes, or an alert
      is shown. */
  datatype LessonResult = Added(data: string) | Alerted(text: string)

  function LessonCall(apiUrl: string, moduleId: string, title: string, lessonType: string): (req: LessonRequest)
    ensures req.endpoint == apiUrl + "/lessons"
    ensures req.payload.moduleId == moduleId && req.payload.title == title && req.payload.lessonType == lessonType
    ensures req.payload.order == DefaultOrder
  {
    LessonRequest(apiUrl + "/lessons", LessonPayload(moduleId, title, lessonType, DefaultOrder))
  }

  /** `handleSubmit`'s outcome; a rejection is rethrown with its status
      and text and lands in the same alert as any other error. */
  function LessonSubmitted(apiUrl: string, outcome: LessonOutcome): (r: LessonResult)
    ensures r.Added? <==> outcome.LessonCreated?
    ensures r.Added? ==> r.data == outcome.data
    ensures outcome.LessonThrew? ==> r.text == "Error creating lesson (" + apiUrl + "): " + outcome.message
  {
    var prefix := "Error creating lesson (" + apiUrl + "): ";
    match outcome
    case LessonCreated(data) => Added(data)
    case LessonRejected(status, text) =>
      Alerted(prefix + "Failed to create lesson: " + IntToString(status) + " " + text)
    case LessonThrew(message) => Alerted(prefix + message)
  }

  /** A rejection alerts exactly as a thrown error carrying the status and
      the response text would. */
  lemma RejectionIsRethrown(apiUrl: string, status: int, text: string)
    ensures LessonSubmitted(apiUrl, LessonRejected(status, text))
            == LessonSubmitted(apiUrl, LessonThrew("Failed to create lesson: " + IntToString(status) + " " + text))
  {
  }
}

=== FILE: assignment.dfy ===
/** The assignment hand-in form
    (frontend/components/courses/AssignmentUpload.tsx): a two-phase
    sequence that uploads the file and then records the submission, with
    early exits. The signed-in user and the two network replies are inputs;
    the requests the form sends are part of the result, so that "the
    submission is never sent" can be stated. */
module Assignment {
  import opened Optional

  datatype AssignmentInfo = AssignmentInfo(id: string, title: string)

  /** The selected file, by name. */
  datatype FileRef = FileRef(name: string)

  datatype FormState = FormState(
    assignment: Option<AssignmentInfo>,
    file: Option<FileRef>,
    uploading: bool,
    comments: string,
    success: bool,
    error: Option<string>)

  /** The body of the submission request. */
  datatype Payload = Payload(assignmentId: string, userId: string, fileUrl: string, comments: string)

  datatype Request = UploadRequest(file: FileRef) | SubmitRequest(payload: Payload)

  /** The upload reply: not OK, a thrown error with its message, or the URL
      of the stored file. */
  datatype UploadOutcome = UploadRejected | UploadThrew(message: string) | Uploaded(url: string)

  /** The submission reply. */
  datatype SubmitOutcome = SubmitRejected | SubmitThrew(message: string) | Submitted

  datatype Run = Run(state: FormState, requests: seq<Request>)

  const MsgMustLogIn := "You must be logged in."
  const MsgUploadFailed := "File upload failed"
  const MsgSubmissionFailed := "Submission failed"
  const MsgFallback := "Failed to submit assignment."

  /** `err.message || "Failed to submit assignment."`. */
  function ErrorText(message: string): (t: string)
    ensures t != ""
    ensures message != "" ==> t == message
  {
    if message != "" then message else MsgFallback
  }

  /** The resets every attempt starts with. */
  function Begin(st: FormState): (r: FormState)
    ensures r.uploading && !r.success && r.error.None?
    ensures r.assignment == st.assignment && r.file == st.file && r.comments == st.comments
  {
    st.(uploading := true, error := None, success := false)
  }

  /** The outcome of an attempt that failed with the given message: file
      and comments kept, uploading over. */
  function Fail(st: FormState, message: string): (r: FormState)
    ensures !r.uploading && r.success == st.success && r.error == Some(ErrorText(message))
    ensures r.file == st.file && r.comments == st.comments && r.assignment == st.assignment
  {
    st.(error := Some(ErrorText(message)), uploading := false)
  }

  /** `handleSubmit`, from the click to the `finally`. */
  function HandleSubmit(st: FormState, user: Option<string>, upload: UploadOutcome,
                        submit: SubmitOutcome): (r: Run)
    // early exit: nothing happens at all
    ensures st.assignment.None? || st.file.None? ==> r == Run(st, [])
    // otherwise uploading is over whatever happened
    ensures st.assignment.Some? && st.file.Some? ==> !r.state.uploading
    ensures r.state.assignment == st.assignment
    // no user: no request at all
    ensures st.assignment.Some? && st.file.Some? && user.None? ==>
              r.requests == [] && r.state.error == Some(MsgMustLogIn)
    // the submission is sent only after a successful upload, with its URL
    ensures |r.requests| <= 2
    ensures |r.requests| == 2 <==> st.assignment.Some? && st.file.Some? && user.Some? && upload.Uploaded?
    ensures |r.requests| == 2 ==>
              && r.requests[0] == UploadRequest(st.file.value)
              && r.requests[1] == SubmitRequest(Payload(st.assignment.value.id, user.value, upload.url, st.comments))
    // success exactly when both phases succeed; it clears file and comments
    ensures st.assignment.Some? && st.file.Some? ==>
              (r.state.success <==> |r.requests| == 2 && submit == Submitted)
    ensures |r.requests| == 2 && r.state.success ==> r.state.file.None? && r.state.comments == "" && r.state.error.None?
    // failure keeps what the student entered
    ensures st.assignment.Some? && st.file.Some? && !r.state.success ==>
              r.state.error.Some? && r.state.file == st.file && r.state.comments == st.comments
  {
    if st.assignment.None? || st.file.None? then Run(st, [])
    else
      var busy := Begin(st);
      var file := st.file.value;
      if user.None? then Run(Fail(busy, MsgMustLogIn), [])
      else
        match upload
        case UploadRejected => Run(Fail(busy, MsgUploadFailed), [UploadRequest(file)])
        case UploadThrew(m) => Run(Fail(busy, m), [UploadRequest(file)])
        case Uploaded(url) =>
          var payload := Payload(st.assignment.value.id, user.value, url, st.comments);
          var sent := [UploadRequest(file), SubmitRequest(payload)];
          match submit
          case SubmitRejected => Run(Fail(busy, MsgSubmissionFailed), sent)
          case SubmitThrew(m) => Run(Fail(busy, m), sent)
          case Submitted =>
            Run(busy.(success := true, file := None, comments := "", uploading := false), sent)
  }

  /** A failed upload reports "File upload failed" and never sends the
      submission. */
  lemma UploadFailureStopsSubmission(st: FormState, user: string, submit: SubmitOutcome)
    requires st.assignment.Some? && st.file.Some?
    ensures var r := HandleSubmit(st, Some(user), UploadRejected, submit);
            && r.state.error == Some(MsgUploadFailed)
            && (forall k :: 0 <= k < |r.requests| ==> !r.requests[k].SubmitRequest?)
  {
  }

  /** A failed attempt can be retried as it stands: the second attempt sends
      the same file and comments. */
  lemma RetryResendsSameFile(st: FormState, user: string, url: string, s1: SubmitOutcome, s2: SubmitOutcome)
    requires st.assignment.Some? && st.file.Some? && s1 != Submitted
    ensures var first := HandleSubmit(st, Some(user), Uploaded(url), s1).state;
            HandleSubmit(first, Some(user), Uploaded(url), s2).requests
              == HandleSubmit(st, Some(user), Uploaded(url), s2).requests
  {
  }

  datatype AssignmentView = NoAssignment | SuccessPanel | SubmissionForm(canSubmit: bool)

  /** The render decision: the "no assignment" notice, the success panel in
      place of the form, or the form, whose button is enabled when a file is
      chosen and no upload is under way. */
  function ViewOf(st: FormState): (v: AssignmentView)
    ensures v == NoAssignment <==> st.assignment.None?
    ensures v == SuccessPanel <==> st.assignment.Some? && st.success
    ensures v.SubmissionForm? ==> (v.canSubmit <==> st.file.Some? && !st.uploading)
  {
    if st.assignment.None? then NoAssignment
    else if st.success then SuccessPanel
    else SubmissionForm(st.file.Some? && !st.uploading)
  }

  /** After a successful hand-in the success panel is shown; after a failed
      one the form is shown again with its button enabled. */
  lemma ViewAfterSubmit(st: FormState, user: string, url: string, submit: SubmitOutcome)
    requires st.assignment.Some? && st.file.Some?
    ensures var v := ViewOf(HandleSubmit(st, Some(user), Uploaded(url), submit).state);
            if submit == Submitted then v == SuccessPanel else v == SubmissionForm(true)
  {
  }
}

=== FILE: cart.dfy ===
/** The client-side shopping cart (lib/store/cart.ts): a list of course
    items that behaves as a set keyed by course id. Persistence to browser
    storage is not part of the model; the cart is a value and every action
    maps the old cart to the new one. */
module Cart {
  import opened Optional

  datatype CartItem = CartItem(id: string, title: string, price: real, thumbnailUrl: Option<string>)

  type Items = seq<CartItem>

  /** No two items share an id. */
  predicate DistinctIds(items: Items) {
    forall i, j :: 0 <= i < j < |items| ==> items[i].id != items[j].id
  }

  /** How many items carry the given id. */
  function CountId(items: Items, id: string): nat {
    if |items| == 0 then 0 else (if items[0].id == id then 1 else 0) + CountId(items[1..], id)
  }

  /** Position of the first item with the given id, `|items|` if none. */
  function IdIndex(items: Items, id: string): (k: nat)
    ensures k <= |items|
    ensures k < |items| ==> items[k].id == id
    ensures forall j :: 0 <= j < k ==> items[j].id != id
  {
    if |items| == 0 then 0 else if items[0].id == id then 0 else 1 + IdIndex(items[1..], id)
  }

  /** `items.find(i => i.id === id)`: the first item with that id. */
  function Find(items: Items, id: string): (r: Option<CartItem>)
    ensures r.Some? ==> r.value in items && r.value.id == id
    ensures r.None? <==> forall i :: 0 <= i < |items| ==> items[i].id != id
  {
    var k := IdIndex(items, id);
    if k < |items| then Some(items[k]) else None
  }

  /** `isInCart(id)`. */
  function IsInCart(items: Items, id: string): (b: bool)
    ensures b <==> exists i :: 0 <= i < |items| && items[i].id == id
  {
    Find(items, id).Some?
  }

  /** `addItem`: a no-op when an item with the same id is present, otherwise
      the item is appended. */
  function AddItem(items: Items, item: CartItem): (r: Items)
    ensures IsInCart(r, item.id)
    ensures |r| >= |items|
    ensures r[..|items|] == items
    ensures IsInCart(items, item.id) ==> r == items
    ensures !IsInCart(items, item.id) ==> |r| == |items| + 1 && r[|items|] == item
    ensures DistinctIds(items) ==> DistinctIds(r)
  {
    if IsInCart(items, item.id) then items
    else
      var r := items + [item];
      assert r[|items|] == item;
      r
  }

  /** `removeItem`: every item with the id is dropped, the others stay in
      order. */
  function RemoveItem(items: Items, id: string): (r: Items)
    ensures !IsInCart(r, id)
    ensures forall x :: x in r <==> x in items && x.id != id
    ensures |r| == |items| - CountId(items, id)
    ensures DistinctIds(items) ==> DistinctIds(r)
  {
    if |items| == 0 then []
    else
      var rest := RemoveItem(items[1..], id);
      if items[0].id == id then rest
      else
        var r := [items[0]] + rest;
        if DistinctIds(items) then FreshHead(items, rest); r else r
  }

  /** Putting back the head of a cart with distinct ids in front of items
      taken from its tail keeps the ids distinct. */
  lemma FreshHead(items: Items, rest: Items)
    requires |items| > 0 && DistinctIds(items) && DistinctIds(rest)
    requires forall y :: y in rest ==> y in items[1..]
    ensures DistinctIds([items[0]] + rest)
  {
    var r := [items[0]] + rest;
    forall j | 0 < j < |r| ensures r[j].id != items[0].id {
      assert r[j] == rest[j - 1];
      assert rest[j - 1] in items[1..];
      var m :| 0 <= m < |items| - 1 && items[1..][m] == rest[j - 1];
      assert items[m + 1] == rest[j - 1];
    }
    forall i, j | 0 < i < j < |r| ensures r[i].id != r[j].id {
      assert r[i] == rest[i - 1] && r[j] == rest[j - 1];
    }
  }

  /** `clearCart`. */
  function ClearCart(): (r: Items)
    ensures forall id :: !IsInCart(r, id)
  {
    []
  }

  /** Removing an id that is not in the cart changes nothing. */
  lemma {:induction false} RemoveAbsent(items: Items, id: string)
    requires !IsInCart(items, id)
    ensures RemoveItem(items, id) == items
    decreases |items|
  {
    if |items| > 0 {
      var rest := items[1..];
      assert items[0].id != id;
      assert forall i :: 0 <= i < |rest| ==> rest[i] == items[i + 1];
      RemoveAbsent(rest, id);
      assert RemoveItem(items, id) == [items[0]] + rest;
      assert [items[0]] + rest == items;
    }
  }

  /** Removing keeps the relative order of the surviving items: what remains
      of a concatenation is what remains of each part. */
  lemma {:induction false} RemoveAppend(a: Items, b: Items, id: string)
    ensures RemoveItem(a + b, id) == RemoveItem(a, id) + RemoveItem(b, id)
    decreases |a|
  {
    if |a| == 0 {
      assert a + b == b;
    } else {
      var tail := a[1..];
      assert (a + b)[0] == a[0];
      assert (a + b)[1..] == tail + b;
      RemoveAppend(tail, b, id);
      if a[0].id == id {
        calc {
          RemoveItem(a + b, id);
          RemoveItem(tail + b, id);
          RemoveItem(tail, id) + RemoveItem(b, id);
          RemoveItem(a, id) + RemoveItem(b, id);
        }
      } else {
        calc {
          RemoveItem(a + b, id);
          [a[0]] + RemoveItem(tail + b, id);
          [a[0]] + (RemoveItem(tail, id) + RemoveItem(b, id));
          ([a[0]] + RemoveItem(tail, id)) + RemoveItem(b, id);
          RemoveItem(a, id) + RemoveItem(b, id);
        }
      }
    }
  }

  /** Adding a new course and then removing it restores the cart. */
  lemma AddThenRemove(items: Items, item: CartItem)
    requires !IsInCart(items, item.id)
    ensures RemoveItem(AddItem(items, item), item.id) == items
  {
    RemoveAppend(items, [item], item.id);
    RemoveAbsent(items, item.id);
    assert RemoveItem([item], item.id) == [];
  }

  /** Adding twice is adding once. */
  lemma AddIdempotent(items: Items, item: CartItem)
    ensures AddItem(AddItem(items, item), item) == AddItem(items, item)
  {
  }

  /** In a cart with distinct ids an id occurs at most once. */
  lemma {:induction false} DistinctCount(items: Items, id: string)
    requires DistinctIds(items)
    ensures CountId(items, id) <= 1
    ensures CountId(items, id) == 1 <==> IsInCart(items, id)
    decreases |items|
  {
    if |items| > 0 {
      DistinctCount(items[1..], id);
      if items[0].id == id {
        assert !IsInCart(items[1..], id);
      }
    }
  }

  // ---------------------------------------------------------------------
  // The cart as a state machine
  // ---------------------------------------------------------------------

  datatype CartAction = Add(item: CartItem) | Remove(id: string) | Clear

  function Step(items: Items, a: CartAction): Items {
    match a
    case Add(item) => AddItem(items, item)
    case Remove(id) => RemoveItem(items, id)
    case Clear => ClearCart()
  }

  /** The cart after a sequence of actions, starting from `items`. */
  function Run(items: Items, actions: seq<CartAction>): Items
    decreases |actions|
  {
    if |actions| == 0 then items else Run(Step(items, actions[0]), actions[1..])
  }

  /** Starting from the empty cart, ids stay pairwise distinct whatever the
      sequence of add, remove and clear actions. */
  lemma {:induction false} RunKeepsDistinct(items: Items, actions: seq<CartAction>)
    requires DistinctIds(items)
    ensures DistinctIds(Run(items, actions))
    decreases |actions|
  {
    if |actions| > 0 {
      RunKeepsDistinct(Step(items, actions[0]), actions[1..]);
    }
  }
}

=== FILE: checkout.dfy ===
/** The payment form (components/checkout/CheckoutForm.tsx): the status
    message shown when the payment provider sends the buyer back, the cart
    clearing on success, and the message shown when confirming fails. The
    payment provider's answers are inputs. */
module Checkout {
  import opened Optional
  import opened Cart

  const MsgSucceeded := "Payment succeeded!"
  const MsgProcessing := "Your payment is processing."
  const MsgRetry := "Your payment was not successful, please try again."
  const MsgWentWrong := "Something went wrong."
  const MsgUnexpected := "An unexpected error occurred."

  datatype FormState = FormState(message: Option<string>, loading: bool, cart: Items)

  /** The message for a retrieved payment-intent status (`None` when the
      intent or its status is missing). */
  function StatusMessage(status: Option<string>): (m: string)
    ensures m == MsgSucceeded <==> status == Some("succeeded")
    ensures m == MsgProcessing <==> status == Some("processing")
    ensures m == MsgRetry <==> status == Some("requires_payment_method")
    ensures (status !in {Some("succeeded"), Some("processing"), Some("requires_payment_method")})
              ==> (m == MsgWentWrong)
  {
    match status
    case Some("succeeded") => MsgSucceeded
    case Some("processing") => MsgProcessing
    case Some("requires_payment_method") => MsgRetry
    case _ => MsgWentWrong
  }

  /** The mount effect: with the provider loaded and a client secret in the
      query string, show the status message; clear the cart only when the
      payment succeeded. */
  function OnPaymentReturn(st: FormState, stripeLoaded: bool, clientSecret: Option<string>,
                           status: Option<string>): (r: FormState)
    ensures !stripeLoaded || !Truthy(clientSecret) ==> r == st
    ensures stripeLoaded && Truthy(clientSecret) ==> r.message == Some(StatusMessage(status))
    ensures r.cart == [] || r.cart == st.cart
    ensures r.cart != st.cart ==> status == Some("succeeded")
    ensures (stripeLoaded && Truthy(clientSecret) && status == Some("succeeded"))
              ==> (forall id :: !IsInCart(r.cart, id))
    ensures r.loading == st.loading
  {
    if !stripeLoaded || !Truthy(clientSecret) then st
    else
      var st' := st.(message := Some(StatusMessage(status)));
      if status == Some("succeeded") then st'.(cart := ClearCart()) else st'
  }

  /** What `confirmPayment` does: either the browser is redirected to the
      return URL, or it resolves with an error of some type. */
  datatype ConfirmOutcome = Redirected | ConfirmError(errorType: string, message: Option<string>)

  datatype SubmitResult = SubmitResult(state: FormState, redirectTo: Option<string>)

  /** `handleSubmit`. */
  function HandleSubmit(st: FormState, origin: string, stripeLoaded: bool, elementsLoaded: bool,
                        outcome: ConfirmOutcome): (r: SubmitResult)
    ensures !stripeLoaded || !elementsLoaded ==> r == SubmitResult(st, None)
    ensures r.state.cart == st.cart
    ensures r.redirectTo.Some? <==> stripeLoaded && elementsLoaded && outcome == Redirected
    ensures r.redirectTo.Some? ==> r.redirectTo.value == origin + "/checkout/success"
    ensures stripeLoaded && elementsLoaded && outcome.ConfirmError? ==>
              && !r.state.loading
              && r.state.message.Some?
              && (r.state.message.value != MsgUnexpected ==>
                    outcome.errorType in {"card_error", "validation_error"}
                    && r.state.message == outcome.message)
              && ((outcome.errorType in {"card_error", "validation_error"} && Truthy(outcome.message))
                    ==> (r.state.message == outcome.message))
    ensures stripeLoaded && elementsLoaded && outcome.ConfirmError?
            && !(outcome.errorType in {"card_error", "validation_error"} && Truthy(outcome.message)) ==>
              r.state.message == Some(MsgUnexpected)
  {
    if !stripeLoaded || !elementsLoaded then SubmitResult(st, None)
    else
      var busy := st.(loading := true);
      match outcome
      case Redirected => SubmitResult(busy, Some(origin + "/checkout/success"))
      case ConfirmError(t, m) =>
        var text := if (t == "card_error" || t == "validation_error") && Truthy(m) then m.value
                    else MsgUnexpected;
        SubmitResult(busy.(message := Some(text), loading := false), None)
  }

  /** A successful return empties the cart, so every course page offers its
      enrol button again. */
  lemma SucceededClearsCart(st: FormState, secret: string, id: string)
    requires secret != ""
    ensures !IsInCart(OnPaymentReturn(st, true, Some(secret), Some("succeeded")).cart, id)
    ensures OnPaymentReturn(st, true, Some(secret), Some("succeeded")).message == Some(MsgSucceeded)
  {
  }

  /** Any status other than success leaves the cart as it was. */
  lemma OtherStatusKeepsCart(st: FormState, stripeLoaded: bool, secret: Option<string>, status: Option<string>)
    requires status != Some("succeeded")
    ensures OnPaymentReturn(st, stripeLoaded, secret, status).cart == st.cart
  {
  }
}

=== FILE: course_actions.dfy ===
/** The call-to-action on a course page
    (frontend/components/courses/CourseActionButtons.tsx): which button the
    visitor sees, what "enrol" does to the cart, and how the enrolment check
    settles the `isEnrolled` flag. The enrolment lookup itself is an input. */
module CourseActions {
  import opened Optional
  import opened Cart

  datatype Course = Course(id: string, title: string, price: real, slug: string, thumbnailUrl: string)

  /** The enrol button's caption: "Enroll for $<price>" or "Enroll for Free".
      The printing of the price number is left to the host. */
  datatype EnrollLabel = EnrollForPrice(price: real) | EnrollForFree

  /** What the component renders. */
  datatype ActionView =
    | CheckingStatus                 // "Checking status..." and no button
    | ContinueLearning(href: string) // link into the course player
    | GoToCheckout                   // the course is already in the cart
    | EnrollButton(caption: EnrollLabel)

  const CheckoutPath := "/checkout"

  function LearnPath(slug: string): string {
    "/courses/" + slug + "/learn"
  }

  /** The render decision: loading first, then enrolment, then the cart. */
  function ActionFor(loading: bool, enrolled: bool, cart: Items, course: Course): (v: ActionView)
    ensures v == CheckingStatus <==> loading
    ensures !loading && enrolled ==> v == ContinueLearning(LearnPath(course.slug))
    ensures !loading && !enrolled ==> (v == GoToCheckout <==> IsInCart(cart, course.id))
    ensures v.EnrollButton? <==> !loading && !enrolled && !IsInCart(cart, course.id)
    ensures v.EnrollButton? ==> (v.caption == EnrollForFree <==> course.price <= 0.0)
    ensures v.EnrollButton? && course.price > 0.0 ==> v.caption == EnrollForPrice(course.price)
  {
    if loading then CheckingStatus
    else if enrolled then ContinueLearning(LearnPath(course.slug))
    else if IsInCart(cart, course.id) then GoToCheckout
    else EnrollButton(if course.price > 0.0 then EnrollForPrice(course.price) else EnrollForFree)
  }

  /** The cart entry `handleEnroll` builds from the course. */
  function ItemOf(course: Course): CartItem {
    CartItem(course.id, course.title, course.price, Some(course.thumbnailUrl))
  }

  datatype EnrollEffect = EnrollEffect(cart: Items, navigateTo: string)

  /** `handleEnroll`: put the course in the cart, then go to checkout. */
  function HandleEnroll(cart: Items, course: Course): (r: EnrollEffect)
    ensures r.navigateTo == CheckoutPath
    ensures IsInCart(r.cart, course.id)
    ensures |r.cart| >= |cart| && r.cart[..|cart|] == cart
    ensures !IsInCart(cart, course.id) ==> r.cart == cart + [ItemOf(course)]
    ensures IsInCart(cart, course.id) ==> r.cart == cart
  {
    EnrollEffect(AddItem(cart, ItemOf(course)), CheckoutPath)
  }

  /** Enrolling twice leaves a single cart entry for the course. */
  lemma EnrollTwiceSingleEntry(cart: Items, course: Course)
    requires DistinctIds(cart)
    ensures var once := HandleEnroll(cart, course).cart;
            HandleEnroll(once, course).cart == once && CountId(once, course.id) == 1
  {
    var once := HandleEnroll(cart, course).cart;
    DistinctCount(once, course.id);
  }

  /** After enrolling, a visitor who is not enrolled sees "Go to Checkout". */
  lemma EnrollShowsCheckout(cart: Items, course: Course)
    ensures ActionFor(false, false, HandleEnroll(cart, course).cart, course) == GoToCheckout
  {
  }

  /** An enrolled visitor's view does not depend on the cart. */
  lemma EnrolledIgnoresCart(cart1: Items, cart2: Items, course: Course)
    ensures ActionFor(false, true, cart1, course) == ActionFor(false, true, cart2, course)
  {
  }

  // ---------------------------------------------------------------------
  // The enrolment check effect
  // ---------------------------------------------------------------------

  /** What the check learns: no signed-in user, or whether the enrolment
      lookup for (user, course) returned a row. */
  datatype EnrollmentLookup = NoUser | Found | NotFound

  datatype EnrollmentStatus = EnrollmentStatus(enrolled: bool, loading: bool)

  /** `checkEnrollment`: loading always ends; the flag only ever turns on,
      and only when a row was found. */
  function CheckEnrollment(initial: bool, lookup: EnrollmentLookup): (r: EnrollmentStatus)
    ensures !r.loading
    ensures initial ==> r.enrolled
    ensures r.enrolled <==> initial || lookup == Found
    ensures lookup == NoUser ==> r.enrolled == initial
  {
    match lookup
    case NoUser => EnrollmentStatus(initial, false)
    case Found => EnrollmentStatus(true, false)
    case NotFound => EnrollmentStatus(initial, false)
  }

  /** After the check, the view is "Continue Learning" exactly when the
      visitor was enrolled from the start or the lookup found a row. */
  lemma ViewAfterCheck(initial: bool, lookup: EnrollmentLookup, cart: Items, course: Course)
    ensures var s := CheckEnrollment(initial, lookup);
            (ActionFor(s.loading, s.enrolled, cart, course).ContinueLearning? <==> initial || lookup == Found)
  {
  }
}

=== FILE: course_api.dfy ===
/** Three backend endpoints (backend/main.py): course creation, partial
    course update and file upload. The database and storage replies are
    inputs; each handler returns its HTTP response and the request it would
    send, if any. */
module CourseApi {
  import opened Optional
  import opened Strings
  import opened SupabaseRest

  datatype Body =
    | Detail(detail: string)
    | RowBody(row: Dict<Value>)
    | MessageBody(message: string, data: Dict<Value>)
    | UrlBody(url: string)

  datatype Response = Response(status: int, body: Body)

  /** The database reply: the returned rows, or an error with `str(e)`. */
  datatype DbOutcome = Rows(rows: seq<Dict<Value>>) | DbError(message: string)

  datatype Handled = Handled(response: Response, request: Option<QueryBuilder>)

  const MsgNoDatabase := "Database connection not configured"
  const MsgDuplicateSlug := "Course with this slug already exists."
  const MsgNothingToUpdate := "No data content to update"

  function StrOrNull(s: Option<string>): Value {
    if s.Some? then VStr(s.value) else VNull
  }

  // ---------------------------------------------------------------------
  // create_course
  // ---------------------------------------------------------------------

  datatype CourseCreate = CourseCreate(
    title: string, description: string, price: real, level: string,
    thumbnailUrl: Option<string>, slug: string)

  /** `course.dict()`: the model's fields in declaration order. */
  function CourseDict(c: CourseCreate): (d: Dict<Value>)
    ensures DistinctKeys(d)
    ensures Keys(d) == ["title", "description", "price", "level", "thumbnail_url", "slug"]
    ensures Get(d, "title") == Some(VStr(c.title)) && Get(d, "slug") == Some(VStr(c.slug))
    ensures Get(d, "description") == Some(VStr(c.description)) && Get(d, "price") == Some(VNum(c.price))
    ensures Get(d, "level") == Some(VStr(c.level)) && Get(d, "thumbnail_url") == Some(StrOrNull(c.thumbnailUrl))
  {
    var d := [("title", VStr(c.title)), ("description", VStr(c.description)), ("price", VNum(c.price)),
              ("level", VStr(c.level)), ("thumbnail_url", StrOrNull(c.thumbnailUrl)), ("slug", VStr(c.slug))];
    KeyIndexDistinct(d, 0);
    KeyIndexDistinct(d, 1);
    KeyIndexDistinct(d, 2);
    KeyIndexDistinct(d, 3);
    KeyIndexDistinct(d, 4);
    KeyIndexDistinct(d, 5);
    d
  }

  /** `course.dict()` followed by `data['is_published'] = False`. */
  function CreatePayload(c: CourseCreate): (d: Dict<Value>)
    ensures DistinctKeys(d)
    ensures Keys(d) == ["title", "description", "price", "level", "thumbnail_url", "slug", "is_published"]
    ensures Get(d, "is_published") == Some(VBool(false))
    ensures Get(d, "title") == Some(VStr(c.title)) && Get(d, "slug") == Some(VStr(c.slug))
    ensures Get(d, "description") == Some(VStr(c.description)) && Get(d, "price") == Some(VNum(c.price))
    ensures Get(d, "level") == Some(VStr(c.level)) && Get(d, "thumbnail_url") == Some(StrOrNull(c.thumbnailUrl))
  {
    var d := [("title", VStr(c.title)), ("description", VStr(c.description)), ("price", VNum(c.price)),
              ("level", VStr(c.level)), ("thumbnail_url", StrOrNull(c.thumbnailUrl)), ("slug", VStr(c.slug)),
              ("is_published", VBool(false))];
    KeyIndexDistinct(d, 0);
    KeyIndexDistinct(d, 1);
    KeyIndexDistinct(d, 2);
    KeyIndexDistinct(d, 3);
    KeyIndexDistinct(d, 4);
    KeyIndexDistinct(d, 5);
    KeyIndexDistinct(d, 6);
    d
  }

  /** The payload is the model's dictionary with `is_published` assigned:
      the new key goes last. */
  lemma CreatePayloadIsAssignment(c: CourseCreate)
    ensures CreatePayload(c) == Put(CourseDict(c), "is_published", VBool(false))
  {
    CourseDictLacksFlag(c);
    PayloadExtendsDict(c);
  }

  lemma CourseDictLacksFlag(c: CourseCreate)
    ensures Get(CourseDict(c), "is_published").None?
  {
    var fields := CourseDict(c);
    assert forall i :: 0 <= i < |fields| ==> fields[i].0 == Keys(fields)[i];
  }

  lemma PayloadExtendsDict(c: CourseCreate)
    ensures CreatePayload(c) == CourseDict(c) + [("is_published", VBool(false))]
  {
  }

  /** The error text for a failed insert: a duplicate-key error, in any
      letter case, becomes the slug message; anything else is passed on. */
  function CreateError(message: string): (detail: string)
    ensures Contains(ToLower(message), "duplicate key") ==> detail == MsgDuplicateSlug
    ensures !Contains(ToLower(message), "duplicate key") ==> detail == message
  {
    if Contains(ToLower(message), "duplicate key") then MsgDuplicateSlug else message
  }

  function CreateCourse(client: Option<Client>, c: CourseCreate, outcome: DbOutcome): (h: Handled)
    ensures client.None? ==> h == Handled(Response(500, Detail(MsgNoDatabase)), None)
    ensures client.Some? ==> h.request == Some(Insert(Table(client.value, "courses"), CreatePayload(c)))
    ensures client.Some? && outcome.Rows? ==> h.response.status == 201
    ensures client.Some? && outcome.Rows? && |outcome.rows| > 0 ==> h.response.body == RowBody(outcome.rows[0])
    ensures client.Some? && outcome.Rows? && |outcome.rows| == 0 ==>
              h.response.body == MessageBody("Course created", CreatePayload(c))
    ensures client.Some? && outcome.DbError? ==> h.response == Response(400, Detail(CreateError(outcome.message)))
  {
    if client.None? then Handled(Response(500, Detail(MsgNoDatabase)), None)
    else
      var data := CreatePayload(c);
      var request := Insert(Table(client.value, "courses"), data);
      match outcome
      case Rows(rows) =>
        if |rows| > 0 then Handled(Response(201, RowBody(rows[0])), Some(request))
        else Handled(Response(201, MessageBody("Course created", data)), Some(request))
      case DbError(m) => Handled(Response(400, Detail(CreateError(m))), Some(request))
  }

  /** Every course is created as a draft, whatever the request said. */
  lemma CreatedAsDraft(client: Client, c: CourseCreate, outcome: DbOutcome)
    ensures var req := CreateCourse(Some(client), c, outcome).request.value;
            req.verb == POST && Get(req.body.value, "is_published") == Some(VBool(false))
  {
  }

  /** A duplicate-key error is recognised in any letter case of those
      words. */
  lemma DuplicateKeyAnyCase(prefix: string, words: string, suffix: string)
    requires ToLower(words) == "duplicate key"
    ensures CreateError(prefix + words + suffix) == MsgDuplicateSlug
  {
    var m := prefix + words + suffix;
    var lm := ToLower(m);
    assert lm == ToLower(prefix) + ToLower(words) + ToLower(suffix);
    ContainsSlice(lm, |prefix|, |prefix| + |words|);
    assert lm[|prefix|..|prefix| + |words|] == "duplicate key";
  }

  // ---------------------------------------------------------------------
  // update_course
  // ---------------------------------------------------------------------

  datatype CourseUpdate = CourseUpdate(
    title: Option<string>, description: Option<string>, price: Option<real>,
    level: Option<string>, isPublished: Option<bool>, thumbnailUrl: Option<string>)

  /** `course_update.dict()`: every field, `None` when not given. */
  function UpdateFields(u: CourseUpdate): seq<(string, Option<Value>)> {
    [("title", if u.title.Some? then Some(VStr(u.title.value)) else None),
     ("description", if u.description.Some? then Some(VStr(u.description.value)) else None),
     ("price", if u.price.Some? then Some(VNum(u.price.value)) else None),
     ("level", if u.level.Some? then Some(VStr(u.level.value)) else None),
     ("is_published", if u.isPublished.Some? then Some(VBool(u.isPublished.value)) else None),
     ("thumbnail_url", if u.thumbnailUrl.Some? then Some(VStr(u.thumbnailUrl.value)) else None)]
  }

  /** The dict comprehension dropping `None` values, order kept (see
      `DropNoneAppend`). */
  function DropNone(fields: seq<(string, Option<Value>)>): (d: Dict<Value>)
    ensures forall k, v :: (k, v) in d <==> (k, Some(v)) in fields
    ensures |d| <= |fields|
    ensures d == [] <==> forall i :: 0 <= i < |fields| ==> fields[i].1.None?
    decreases |fields|
  {
    if |fields| == 0 then []
    else
      var rest := DropNone(fields[1..]);
      assert forall x :: x in fields <==> x == fields[0] || x in fields[1..];
      if fields[0].1.Some? then [(fields[0].0, fields[0].1.value)] + rest else rest
  }

  /** Dropping works field by field: it distributes over concatenation and
      keeps a single field exactly when it carries a value, so the kept
      fields stay in their order. */
  lemma {:induction false} DropNoneAppend(a: seq<(string, Option<Value>)>, b: seq<(string, Option<Value>)>)
    ensures DropNone(a + b) == DropNone(a) + DropNone(b)
    ensures forall k, o :: DropNone([(k, o)]) == if o.Some? then [(k, o.value)] else []
    decreases |a|
  {
    if |a| > 0 {
      assert (a + b)[0] == a[0] && (a + b)[1..] == a[1..] + b;
      DropNoneAppend(a[1..], b);
    } else {
      assert a + b == b;
    }
  }

  /** The PATCH `update_course` sends: the data, to the courses table,
      filtered on the course id. */
  function UpdateRequest(c: Client, courseId: string, data: Dict<Value>): (b: QueryBuilder)
    ensures b.verb == PATCH && b.body == Some(data) && b.params == [("id", "eq." + courseId)]
    ensures b.tableUrl == c.url + "/rest/v1/courses"
  {
    Eq(Update(Table(c, "courses"), data), "id", courseId)
  }

  function UpdateCourse(client: Option<Client>, courseId: string, u: CourseUpdate, outcome: DbOutcome): (h: Handled)
    ensures client.None? ==> h == Handled(Response(500, Detail(MsgNoDatabase)), None)
    ensures client.Some? && DropNone(UpdateFields(u)) == [] ==>
              h == Handled(Response(400, Detail(MsgNothingToUpdate)), None)
    ensures h.request.Some? ==>
              && client.Some?
              && h.request.value.verb == PATCH
              && h.request.value.body == Some(DropNone(UpdateFields(u)))
              && h.request.value.params == [("id", "eq." + courseId)]
    ensures h.request.Some? ==> h.request.value.tableUrl == client.value.url + "/rest/v1/courses"
    ensures h.request.Some? && outcome.Rows? ==> h.response.status == 200
    ensures h.request.Some? && outcome.Rows? && |outcome.rows| > 0 ==> h.response.body == RowBody(outcome.rows[0])
    ensures h.request.Some? && outcome.Rows? && |outcome.rows| == 0 ==>
              h.response.body == MessageBody("Course updated", DropNone(UpdateFields(u)))
    ensures h.request.Some? && outcome.DbError? ==> h.response == Response(500, Detail(outcome.message))
  {
    if client.None? then Handled(Response(500, Detail(MsgNoDatabase)), None)
    else
      var data := DropNone(UpdateFields(u));
      if data == [] then Handled(Response(400, Detail(MsgNothingToUpdate)), None)
      else
        var request := UpdateRequest(client.value, courseId, data);
        match outcome
        case Rows(rows) =>
          if |rows| > 0 then Handled(Response(200, RowBody(rows[0])), Some(request))
          else Handled(Response(200, MessageBody("Course updated", data)), Some(request))
        case DbError(m) => Handled(Response(500, Detail(m)), Some(request))
  }

  lemma CoursesUrl(c: Client)
    ensures Table(c, "courses").tableUrl == c.url + "/rest/v1/courses"
  {
    assert "/rest/v1/" + "courses" == "/rest/v1/courses";
    assert c.url + "/rest/v1/" + "courses" == c.url + ("/rest/v1/" + "courses");
  }

  /** On the wire a create is a POST of the payload to the courses table,
      with no query parameters. */
  lemma CreateOnTheWire(client: Client, c: CourseCreate, outcome: DbOutcome)
    ensures Sent(CreateCourse(Some(client), c, outcome).request.value) ==
              Wire(POST, client.url + "/rest/v1/courses", [], Some(CreatePayload(c)))
  {
    var d := CreatePayload(c);
    var t := Table(client, "courses");
    CoursesUrl(client);
    var b := Insert(t, d);
    assert CreateCourse(Some(client), c, outcome).request == Some(b);
    assert Sent(b) == Wire(POST, t.tableUrl, [], Some(d));
  }

  /** On the wire an update carrying a field is a PATCH of exactly those
      fields to the courses table, with the single `id` filter. */
  lemma UpdateOnTheWire(client: Client, courseId: string, u: CourseUpdate, outcome: DbOutcome)
    requires DropNone(UpdateFields(u)) != []
    ensures Sent(UpdateCourse(Some(client), courseId, u, outcome).request.value) ==
              Wire(PATCH, client.url + "/rest/v1/courses", [("id", "eq." + courseId)], Some(DropNone(UpdateFields(u))))
  {
    var b := UpdateCourse(Some(client), courseId, u, outcome).request.value;
    assert b == UpdateRequest(client, courseId, DropNone(UpdateFields(u)));
    assert b.verb == PATCH;
  }

  /** An update carrying no field is rejected before any request, and one
      carrying a field always reaches the database with exactly the given
      fields. */
  lemma UpdateSendsExactlyGivenFields(client: Client, courseId: string, u: CourseUpdate, outcome: DbOutcome)
    ensures var h := UpdateCourse(Some(client), courseId, u, outcome);
            && (h.request.None? <==> u == CourseUpdate(None, None, None, None, None, None))
            && (h.request.Some? ==> forall k, v :: (k, v) in h.request.value.body.value <==> (k, Some(v)) in UpdateFields(u))
  {
    NothingGivenIffEmpty(u);
  }

  /** The comprehension leaves nothing exactly when no field was given. */
  lemma NothingGivenIffEmpty(u: CourseUpdate)
    ensures DropNone(UpdateFields(u)) == [] <==> u == CourseUpdate(None, None, None, None, None, None)
  {
    var fields := UpdateFields(u);
    if u.title.Some? { assert fields[0].1.Some?; }
    else if u.description.Some? { assert fields[1].1.Some?; }
    else if u.price.Some? { assert fields[2].1.Some?; }
    else if u.level.Some? { assert fields[3].1.Some?; }
    else if u.isPublished.Some? { assert fields[4].1.Some?; }
    else if u.thumbnailUrl.Some? { assert fields[5].1.Some?; }
    else { assert forall i :: 0 <= i < |fields| ==> fields[i].1.None?; }
  }

  // ---------------------------------------------------------------------
  // upload_file
  // ---------------------------------------------------------------------

  datatype UploadFile = UploadFile(filename: Option<string>, contentType: Option<string>)

  /** The storage request: where, with which content type and key. */
  datatype StorageRequest = StorageRequest(url: string, contentType: string, bearer: string)

  /** The storage reply: status 200, or a failure; `repr` stands for
      Python's `repr` of the exception that ends the handler. */
  datatype StorageOutcome = Stored | StorageFailed(repr: string)

  datatype UploadHandled = UploadHandled(response: Response, request: Option<StorageRequest>)

  /** `f"{timestamp}_{original_name}"` with spaces of the name turned into
      underscores. */
  function StoredName(timestamp: int, name: string): (f: string)
    ensures ' ' !in f
    ensures f == IntToString(timestamp) + "_" + ReplaceChar(name, ' ', '_')
  {
    var cleaned := ReplaceChar(name, ' ', '_');
    var stamp := IntToString(timestamp);
    assert ' ' !in stamp by {
      var digits := NatToString(if timestamp < 0 then -timestamp else timestamp);
      assert forall i :: 0 <= i < |digits| ==> digits[i] != ' ';
      assert stamp == digits || stamp == "-" + digits;
    }
    stamp + "_" + cleaned
  }

  /** The stored name can be taken apart again: up to the first underscore
      it is the timestamp, after it the cleaned original name. */
  lemma StoredNameParts(timestamp: nat, name: string)
    ensures var f := StoredName(timestamp, name);
            var i := IndexOf(f, '_');
            && i == |NatToString(timestamp)|
            && DigitsValue(f[..i]) == timestamp
            && f[i + 1..] == ReplaceChar(name, ' ', '_')
  {
    var stamp := NatToString(timestamp);
    var f := StoredName(timestamp, name);
    assert f == stamp + "_" + ReplaceChar(name, ' ', '_');
    assert forall j :: 0 <= j < |stamp| ==> f[j] == stamp[j] && IsDigit(stamp[j]);
    assert f[|stamp|] == '_';
    assert IndexOf(f, '_') == |stamp|;
    assert f[..|stamp|] == stamp;
    NatToStringRoundTrip(timestamp);
  }

  const Bucket := "course-content"

  /** The object's address in the bucket: under the project URL, ending in
      the file name. */
  function StorageUrl(c: Client, filename: string): (u: string)
    ensures StartsWith(u, c.url + "/storage/v1/object/" + Bucket + "/")
    ensures EndsWith(u, "/" + filename)
  {
    c.url + "/storage/v1/object/" + Bucket + "/" + filename
  }

  /** The object's public address: the same place, under "public/". */
  function PublicUrl(c: Client, filename: string): (u: string)
    ensures StartsWith(u, c.url + "/storage/v1/object/public/" + Bucket + "/")
    ensures EndsWith(u, "/" + filename)
    ensures |u| == |StorageUrl(c, filename)| + |"public/"|
  {
    c.url + "/storage/v1/object/public/" + Bucket + "/" + filename
  }

  function ContentType(ct: Option<string>): (t: string)
    ensures Truthy(ct) ==> t == ct.value
    ensures !Truthy(ct) ==> t == "application/octet-stream"
  {
    if Truthy(ct) then ct.value else "application/octet-stream"
  }

  const ServerErrorPrefix := "Server Error: "

  /** `upload_file`, with `timestamp` standing for `int(time.time())` and
      `missingNameRepr` for the `repr` of the error raised when the upload
      has no file name. */
  function Upload(client: Option<Client>, file: UploadFile, timestamp: int, outcome: StorageOutcome,
                  missingNameRepr: string): (h: UploadHandled)
    ensures client.None? ==> h == UploadHandled(Response(500, Detail(MsgNoDatabase)), None)
    ensures client.Some? && file.filename.None? ==>
              h == UploadHandled(Response(500, Detail(ServerErrorPrefix + missingNameRepr)), None)
    ensures h.request.Some? ==>
              && client.Some? && file.filename.Some?
              && var f := StoredName(timestamp, file.filename.value);
                 h.request.value == StorageRequest(StorageUrl(client.value, f), ContentType(file.contentType), client.value.key)
    ensures h.response.status == 200 <==> client.Some? && file.filename.Some? && outcome == Stored
    ensures h.response.status == 200 ==>
              h.response.body == UrlBody(PublicUrl(client.value, StoredName(timestamp, file.filename.value)))
    ensures h.response.status != 200 ==> h.response.status == 500
    ensures client.Some? && file.filename.Some? && outcome.StorageFailed? ==>
              h.response.body == Detail(ServerErrorPrefix + outcome.repr)
  {
    if client.None? then UploadHandled(Response(500, Detail(MsgNoDatabase)), None)
    else if file.filename.None? then UploadHandled(Response(500, Detail(ServerErrorPrefix + missingNameRepr)), None)
    else
      var c := client.value;
      var f := StoredName(timestamp, file.filename.value);
      var request := StorageRequest(StorageUrl(c, f), ContentType(file.contentType), c.key);
      match outcome
      case Stored => UploadHandled(Response(200, UrlBody(PublicUrl(c, f))), Some(request))
      case StorageFailed(r) => UploadHandled(Response(500, Detail(ServerErrorPrefix + r)), Some(request))
  }

  /** The public URL handed back is the storage URL with "public/" inserted
      before the bucket name. */
  lemma PublicUrlIsStorageUrlMadePublic(c: Client, filename: string)
    ensures var prefix := c.url + "/storage/v1/object/";
            && StorageUrl(c, filename) == prefix + Bucket + "/" + filename
            && PublicUrl(c, filename) == prefix + "public/" + Bucket + "/" + filename
  {
  }
}

=== FILE: course_form.dfy ===
/** The course-creation form's title handler
    (frontend/app/admin/courses/create/page.tsx): the automatic slug and the
    rule deciding when a typed title replaces the slug. Case mapping and the
    word-character class are ASCII. */
module CourseForm {
  import opened Strings
  import SlugFix

  datatype FormData = FormData(
    title: string,
    slug: string,
    description: string,
    price: string,
    level: string,
    thumbnailUrl: string)

  const EmptyForm := FormData("", "", "", "0.00", "Primary School", "")

  /** `\w` or `-`. */
  predicate WordOrHyphen(c: char) {
    IsAlnum(c) || c == '_' || c == '-'
  }

  /** The characters an automatic slug is made of. */
  predicate AutoSlugChar(c: char) {
    IsLower(c) || IsDigit(c) || c == '_' || c == '-'
  }

  /** Lower-case, every space to '-', then drop everything outside
      `[A-Za-z0-9_-]`. */
  function AutoSlug(title: string): (slug: string)
    ensures forall c :: c in slug ==> AutoSlugChar(c)
    ensures |slug| <= |title|
  {
    var lowered := ReplaceChar(ToLower(title), ' ', '-');
    assert forall c :: c in lowered ==> !IsUpper(c);
    Filter(lowered, WordOrHyphen)
  }

  /** The automatic slug of a string of slug characters is itself. */
  lemma AutoSlugOfSlug(s: string)
    requires forall c :: c in s ==> AutoSlugChar(c)
    ensures AutoSlug(s) == s
  {
    assert forall i :: 0 <= i < |s| ==> AutoSlugChar(s[i]);
    assert ToLower(s) == s;
    assert ReplaceChar(s, ' ', '-') == s;
    FilterKeepsAll(s, WordOrHyphen);
  }

  /** Applying the slugifier to its own output changes nothing. */
  lemma AutoSlugIdempotent(title: string)
    ensures AutoSlug(AutoSlug(title)) == AutoSlug(title)
  {
    AutoSlugOfSlug(AutoSlug(title));
  }

  /** The slugifier works character by character: the slug of a
      concatenation is the concatenation of the slugs. */
  lemma AutoSlugAppend(a: string, b: string)
    ensures AutoSlug(a + b) == AutoSlug(a) + AutoSlug(b)
  {
    var la := ReplaceChar(ToLower(a), ' ', '-');
    var lb := ReplaceChar(ToLower(b), ' ', '-');
    assert ReplaceChar(ToLower(a + b), ' ', '-') == la + lb;
    FilterAppend(la, lb, WordOrHyphen);
  }

  /** One character: a capital is lower-cased, a space becomes a hyphen,
      another letter, digit, underscore or hyphen is kept, and anything else
      is dropped. With `AutoSlugAppend` this determines every slug. */
  lemma AutoSlugOneChar(c: char)
    ensures AutoSlug([c]) ==
              if IsUpper(c) then [LowerChar(c)]
              else if c == ' ' then "-"
              else if WordOrHyphen(c) then [c]
              else ""
  {
    var lowered := ReplaceChar(ToLower([c]), ' ', '-');
    assert lowered == [if c == ' ' then '-' else LowerChar(c)];
  }

  /** A run of spaces becomes a run of as many hyphens: hyphens are neither
      collapsed nor trimmed. */
  lemma SpacesBecomeHyphens(n: nat)
    ensures AutoSlug(seq(n, _ => ' ')) == seq(n, _ => '-')
  {
    var spaces: string := seq(n, _ => ' ');
    var hyphens: string := seq(n, _ => '-');
    assert ReplaceChar(ToLower(spaces), ' ', '-') == hyphens;
    FilterKeepsAll(hyphens, WordOrHyphen);
  }

  /** Unlike the normalisation of the maintenance script, the form keeps
      underscores (and, by `SpacesBecomeHyphens`, repeated hyphens, which
      the script's slugs never contain). */
  lemma DiffersFromFixSlug()
    ensures AutoSlug("a_") == "a_"
    ensures SlugFix.FixSlug("a_") == "a"
  {
    AutoSlugOfSlug("a_");
    FixSlugExample();
  }

  lemma FixSlugExample()
    ensures SlugFix.FixSlug("a_") == "a"
  {
    CleanedExample();
    SplitExample();
    assert SlugFix.NonEmpty(["a"]) == ["a"];
  }

  lemma SplitExample()
    ensures Split("a", '-') == ["a"] && Join(["a"], '-') == "a"
  {
    assert IndexOf("a", '-') == 1;
  }

  lemma CleanedExample()
    ensures SlugFix.Cleaned("a_") == "a"
  {
    var lowered := ReplaceChar(ToLower("a_"), ' ', '-');
    assert lowered == "a" + "_";
    FilterAppend("a", "_", SlugFix.KeepChar);
    FilterKeepsAll("a", SlugFix.KeepChar);
    assert !SlugFix.KeepChar('_');
    assert "_"[1..] == "";
  }

  /** `handleTitleChange` as written: the title always becomes the typed
      value; the slug becomes the automatic one unless the previous slug is
      non-empty, differs from it, and the title does not start with the
      previous slug read with spaces for hyphens. */
  function HandleTitleChange(prev: FormData, title: string): (r: FormData)
    ensures r == prev.(title := title, slug := r.slug)
    ensures r.slug == AutoSlug(title) || r.slug == prev.slug
    ensures r.slug == AutoSlug(title) <==>
              (|| prev.slug == ""
               || prev.slug == AutoSlug(title)
               || StartsWith(title, ReplaceChar(prev.slug, '-', ' ')))
  {
    var auto := AutoSlug(title);
    var keep := prev.slug != "" && prev.slug != auto && !StartsWith(title, ReplaceChar(prev.slug, '-', ' '));
    prev.(title := title, slug := if keep then prev.slug else auto)
  }

  /** Typing "A" and then "AB" into a fresh form leaves the slug at "a": the
      slug was never edited by hand, yet it stops following the title as
      soon as the title contains a capital letter. */
  lemma TypingCapitalFreezesSlug()
    ensures var s1 := HandleTitleChange(EmptyForm, "A");
            var s2 := HandleTitleChange(s1, "AB");
            s1.slug == "a" && s2.slug == "a" && AutoSlug("AB") == "ab"
  {
    assert ReplaceChar(ToLower("A"), ' ', '-') == "a";
    FilterKeepsAll("a", WordOrHyphen);
    assert ReplaceChar(ToLower("AB"), ' ', '-') == "ab";
    FilterKeepsAll("ab", WordOrHyphen);
    assert ReplaceChar("a", '-', ' ') == "a";
    assert !StartsWith("AB", "a");
  }

  /** The title handler with the evident intent: the slug follows the title
      until it has been edited by hand, which shows as a non-empty slug that
      is not the automatic slug of the current title. */
  function HandleTitleChangeTracking(prev: FormData, title: string): (r: FormData)
    ensures r == prev.(title := title, slug := r.slug)
    ensures prev.slug == "" || prev.slug == AutoSlug(prev.title) ==> r.slug == AutoSlug(title)
    ensures prev.slug != "" && prev.slug != AutoSlug(prev.title) ==> r.slug == prev.slug
  {
    var edited := prev.slug != "" && prev.slug != AutoSlug(prev.title);
    prev.(title := title, slug := if edited then prev.slug else AutoSlug(title))
  }

  /** The form after typing a sequence of title values. */
  function TypeTitles(form: FormData, titles: seq<string>): FormData
    decreases |titles|
  {
    if |titles| == 0 then form
    else TypeTitles(HandleTitleChangeTracking(form, titles[0]), titles[1..])
  }

  /** With the corrected handler, a slug that was never edited by hand is
      always the automatic slug of the current title. */
  lemma {:induction false} TrackingFollowsTitle(form: FormData, titles: seq<string>)
    requires form.slug == AutoSlug(form.title)
    ensures TypeTitles(form, titles).slug == AutoSlug(TypeTitles(form, titles).title)
    decreases |titles|
  {
    if |titles| > 0 {
      TrackingFollowsTitle(HandleTitleChangeTracking(form, titles[0]), titles[1..]);
    }
  }

  /** The corrected handler keeps the fresh-form case of the original, and
      on the input above it follows the title. */
  lemma TrackingFixesCapitals()
    ensures HandleTitleChangeTracking(EmptyForm, "A") == HandleTitleChange(EmptyForm, "A")
    ensures HandleTitleChangeTracking(HandleTitleChangeTracking(EmptyForm, "A"), "AB").slug == "ab"
  {
    assert ReplaceChar(ToLower("A"), ' ', '-') == "a";
    FilterKeepsAll("a", WordOrHyphen);
    assert ReplaceChar(ToLower("AB"), ' ', '-') == "ab";
    FilterKeepsAll("ab", WordOrHyphen);
  }
}

=== FILE: curriculum.dfy ===
/** The course-page curriculum (frontend/components/courses/CurriculumList.tsx):
    which lessons a visitor may open, where each row links, the lock and
    preview markers, and the "more modules" teaser. */
module Curriculum {
  import opened Optional

  datatype Lesson = Lesson(id: string, title: string, lessonType: string, isFreePreview: bool)
  datatype CourseModule = CourseModule(id: string, title: string, lessons: seq<Lesson>)

  datatype LessonIcon = VideoIcon | QuizIcon | DocumentIcon

  /** One rendered lesson row. */
  datatype LessonRow = LessonRow(
    href: string,
    clickPrevented: bool,
    lockIcon: bool,
    previewBadge: bool,
    icon: LessonIcon)

  /** One rendered module: its rows, and the "No lessons yet" note. */
  datatype ModuleBlock = ModuleBlock(title: string, rows: seq<LessonRow>, noLessons: bool)

  datatype CurriculumView =
    | ComingSoon
    | Listing(blocks: seq<ModuleBlock>, moreModules: Option<nat>)

  /** Staff and enrolled students open every lesson; anyone opens a free
      preview. */
  predicate Unlocked(isAdmin: bool, isEnrolled: bool, lesson: Lesson) {
    (isAdmin || isEnrolled) || lesson.isFreePreview
  }

  function LessonPath(slug: string, lessonId: string): string {
    "/courses/" + slug + "/learn?lesson=" + lessonId
  }

  function IconFor(lessonType: string): (i: LessonIcon)
    ensures i == VideoIcon <==> lessonType == "video"
    ensures i == QuizIcon <==> lessonType == "quiz"
  {
    if lessonType == "video" then VideoIcon
    else if lessonType == "quiz" then QuizIcon
    else DocumentIcon
  }

  /** A lesson row: unlocked rows link into the player, locked ones link to
      "#", show a lock and swallow the click; the preview badge depends on
      the lesson alone. */
  function RowFor(slug: string, isAdmin: bool, isEnrolled: bool, lesson: Lesson): (row: LessonRow)
    ensures row.lockIcon <==> !Unlocked(isAdmin, isEnrolled, lesson)
    ensures row.clickPrevented == row.lockIcon
    ensures row.href == (if row.lockIcon then "#" else LessonPath(slug, lesson.id))
    ensures row.previewBadge == lesson.isFreePreview
    ensures row.icon == IconFor(lesson.lessonType)
  {
    var open := Unlocked(isAdmin, isEnrolled, lesson);
    LessonRow(if open then LessonPath(slug, lesson.id) else "#", !open, !open,
              lesson.isFreePreview, IconFor(lesson.lessonType))
  }

  /** The number in "+ N more modules available". */
  function HiddenModules(moduleCount: nat): (n: nat)
    ensures n >= moduleCount - 2
    ensures n == 0 <==> moduleCount <= 2
    ensures moduleCount > 2 ==> n + 2 == moduleCount
  {
    if moduleCount - 2 > 0 then moduleCount - 2 else 0
  }

  function BlockFor(slug: string, isAdmin: bool, isEnrolled: bool, m: CourseModule): (b: ModuleBlock)
    ensures |b.rows| == |m.lessons|
    ensures forall i :: 0 <= i < |m.lessons| ==> b.rows[i] == RowFor(slug, isAdmin, isEnrolled, m.lessons[i])
    ensures b.noLessons <==> |m.lessons| == 0
  {
    ModuleBlock(m.title, seq(|m.lessons|, i requires 0 <= i < |m.lessons| => RowFor(slug, isAdmin, isEnrolled, m.lessons[i])),
                |m.lessons| == 0)
  }

  /** The whole component. `visible` is absent when the page passes no list. */
  function Render(modules: seq<CourseModule>, visible: Option<seq<CourseModule>>, showFull: bool,
                  isAdmin: bool, isEnrolled: bool, slug: string): (v: CurriculumView)
    ensures v == ComingSoon <==> visible.None? || |visible.value| == 0
    ensures v.Listing? ==> |v.blocks| == |visible.value|
    ensures v.Listing? ==> forall i :: 0 <= i < |v.blocks| ==>
              v.blocks[i] == BlockFor(slug, isAdmin, isEnrolled, visible.value[i])
    ensures v.Listing? ==> (v.moreModules.Some? <==> !showFull)
    ensures v.Listing? && !showFull ==> v.moreModules.value == HiddenModules(|modules|)
  {
    if visible.None? || |visible.value| == 0 then ComingSoon
    else
      var vs := visible.value;
      Listing(seq(|vs|, i requires 0 <= i < |vs| => BlockFor(slug, isAdmin, isEnrolled, vs[i])),
              if showFull then None else Some(HiddenModules(|modules|)))
  }

  /** Staff and enrolled students see no lock anywhere, and every row links
      into the course player. */
  lemma AccessOpensEverything(modules: seq<CourseModule>, visible: seq<CourseModule>, showFull: bool,
                              isAdmin: bool, isEnrolled: bool, slug: string, i: nat, j: nat)
    requires isAdmin || isEnrolled
    requires i < |visible| && j < |visible[i].lessons|
    ensures var v := Render(modules, Some(visible), showFull, isAdmin, isEnrolled, slug);
            && !v.blocks[i].rows[j].lockIcon
            && v.blocks[i].rows[j].href == LessonPath(slug, visible[i].lessons[j].id)
  {
  }

  /** For a visitor without access, the locked rows are exactly the lessons
      that are not free previews, and the preview badge marks the others. */
  lemma VisitorSeesPreviewsOnly(slug: string, lesson: Lesson)
    ensures RowFor(slug, false, false, lesson).lockIcon == !RowFor(slug, false, false, lesson).previewBadge
  {
  }
}

=== FILE: env_file.dfy ===
/** The `.env` handling of the seed script (backend/scripts/seed_courses.js)
    and the connection test (frontend/scripts/test_connection.js): the line
    parser shared by both, the service-key override scan of the seed script,
    and the credential check that aborts a run. File contents are inputs;
    the file reads, the exit and the database calls are not modelled. */
module EnvFile {
  import opened Optional
  import opened Strings

  const UrlVar := "NEXT_PUBLIC_SUPABASE_URL"
  const AnonKeyVar := "NEXT_PUBLIC_SUPABASE_ANON_KEY"
  const ServiceKeyPrefix := "SUPABASE_SERVICE_ROLE_KEY="
  const ServiceKeyPlaceholder := "YOUR_SERVICE_ROLE_KEY"

  /** `const [key, value] = line.split('=')`: the text before the first '='
      and, when there is one, the text between the first and the second. */
  function LineFields(line: string): (kv: (string, Option<string>))
    ensures kv.0 == line[..IndexOf(line, '=')]
    ensures kv.1.None? <==> '=' !in line
    ensures kv.1.Some? ==>
              var rest := line[IndexOf(line, '=') + 1..];
              kv.1.value == rest[..IndexOf(rest, '=')]
    ensures kv.1.Some? ==> '=' !in kv.1.value
  {
    var parts := Split(line, '=');
    if '=' in line then
      SplitSecond(line, '=');
      (parts[0], Some(parts[1]))
    else (parts[0], None)
  }

  /** The entry a line records: both untrimmed parts non-empty, stored
      trimmed. */
  function LineEntry(line: string): (e: Option<(string, string)>)
    ensures e.Some? <==> LineFields(line).0 != "" && Truthy(LineFields(line).1)
    ensures e.Some? ==> e.value == (Trim(LineFields(line).0), Trim(LineFields(line).1.value))
  {
    var (key, value) := LineFields(line);
    if key != "" && Truthy(value) then Some((Trim(key), Trim(value.value))) else None
  }

  /** The entries the lines record, one per line. */
  function Entries(lines: seq<string>): (es: seq<Option<(string, string)>>)
    ensures |es| == |lines| && forall i :: 0 <= i < |lines| ==> es[i] == LineEntry(lines[i])
  {
    seq(|lines|, i requires 0 <= i < |lines| => LineEntry(lines[i]))
  }

  /** The `env` object after assigning the entries in order. */
  function Bind(es: seq<Option<(string, string)>>): map<string, string> {
    BindFirst(es, |es|)
  }

  /** The `env` object after assigning the first `n` entries. */
  function BindFirst(es: seq<Option<(string, string)>>, n: nat): map<string, string>
    requires n <= |es|
    decreases n
  {
    if n == 0 then map[]
    else
      var env := BindFirst(es, n - 1);
      match es[n - 1]
      case Some(kv) => env[kv.0 := kv.1]
      case None => env
  }

  /** The `env` object after the lines, in order, have been read. */
  function ParseLines(lines: seq<string>): map<string, string> {
    Bind(Entries(lines))
  }

  function ParseEnv(content: string): map<string, string> {
    ParseLines(Split(content, '\n'))
  }

  /** Entry `i` binds `k`. */
  predicate Binds(es: seq<Option<(string, string)>>, k: string, i: int) {
    0 <= i < |es| && es[i].Some? && es[i].value.0 == k
  }

  /** Entry `i` is the last one binding `k`. */
  predicate LastFor(es: seq<Option<(string, string)>>, k: string, i: int) {
    Binds(es, k, i) && forall j :: i < j < |es| ==> !Binds(es, k, j)
  }

  /** A key is bound exactly when some entry binds it, and then to the
      value of the last such entry. */
  lemma LastEntryWins(es: seq<Option<(string, string)>>, k: string)
    ensures k in Bind(es) <==> exists i :: Binds(es, k, i)
    ensures forall i :: LastFor(es, k, i) ==> k in Bind(es) && Bind(es)[k] == es[i].value.1
  {
    if exists i :: Binds(es, k, i) {
      var i :| Binds(es, k, i);
      BoundOnceBinding(es, k, |es|, i);
    } else {
      UnboundWithoutBinding(es, k, |es|);
    }
    forall i | LastFor(es, k, i)
      ensures k in Bind(es) && Bind(es)[k] == es[i].value.1
    {
      LastBindingDecides(es, k, |es|, i);
    }
  }

  lemma {:induction false} UnboundWithoutBinding(es: seq<Option<(string, string)>>, k: string, n: nat)
    requires n <= |es| && forall i :: 0 <= i < n ==> !Binds(es, k, i)
    ensures k !in BindFirst(es, n)
    decreases n
  {
    if n > 0 {
      UnboundWithoutBinding(es, k, n - 1);
      assert !Binds(es, k, n - 1);
    }
  }

  lemma {:induction false} BoundOnceBinding(es: seq<Option<(string, string)>>, k: string, n: nat, i: nat)
    requires i < n <= |es| && Binds(es, k, i)
    ensures k in BindFirst(es, n)
    decreases n
  {
    if i < n - 1 {
      BoundOnceBinding(es, k, n - 1, i);
    }
  }

  lemma {:induction false} LastBindingDecides(es: seq<Option<(string, string)>>, k: string, n: nat, i: nat)
    requires i < n <= |es| && Binds(es, k, i)
    requires forall j :: i < j < n ==> !Binds(es, k, j)
    ensures k in BindFirst(es, n) && BindFirst(es, n)[k] == es[i].value.1
    decreases n
  {
    if i < n - 1 {
      LastBindingDecides(es, k, n - 1, i);
      assert !Binds(es, k, n - 1);
    }
  }

  /** For the lines of a file: a name is bound exactly when some line
      records it, and then to the trimmed value of the last such line. */
  lemma LastLineWins(lines: seq<string>, k: string, i: nat)
    requires i < |lines| && LineEntry(lines[i]).Some? && LineEntry(lines[i]).value.0 == k
    requires forall j :: i < j < |lines| ==> LineEntry(lines[j]).None? || LineEntry(lines[j]).value.0 != k
    ensures k in ParseLines(lines) && ParseLines(lines)[k] == LineEntry(lines[i]).value.1
  {
    LastEntryWins(Entries(lines), k);
    assert LastFor(Entries(lines), k, i);
  }

  /** A name no line records stays unbound. */
  lemma UnrecordedUnbound(lines: seq<string>, k: string)
    requires forall j :: 0 <= j < |lines| ==> LineEntry(lines[j]).None? || LineEntry(lines[j]).value.0 != k
    ensures k !in ParseLines(lines)
  {
    LastEntryWins(Entries(lines), k);
  }

  /** Whatever follows a second '=' on a line is lost. */
  lemma SecondEqualsCutsValue(key: string, value: string, rest: string)
    requires '=' !in key && '=' !in value
    ensures LineFields(key + "=" + value + "=" + rest) == (key, Some(value))
  {
    var tail := value + ("=" + rest);
    var line := key + ("=" + tail);
    assert key + "=" + value + "=" + rest == line;
    ValueBeforeSeparator(key, "=" + tail);
    ValueBeforeSeparator(value, "=" + rest);
    assert line[|key| + 1..] == tail;
    FieldsFromCuts(line, key, value);
  }

  /** The fields of a line are read off the first and second '='. */
  lemma FieldsFromCuts(line: string, key: string, value: string)
    requires '=' in line && line[..IndexOf(line, '=')] == key
    requires var rest := line[IndexOf(line, '=') + 1..]; rest[..IndexOf(rest, '=')] == value
    ensures LineFields(line) == (key, Some(value))
  {
  }

  /** A line with a single '=' splits into the text around it. */
  lemma SingleEqualsFields(key: string, value: string)
    requires '=' !in key && '=' !in value
    ensures LineFields(key + "=" + value) == (key, Some(value))
  {
    var line := key + "=" + value;
    assert line == key + ("=" + value);
    ValueBeforeSeparator(key, "=" + value);
    assert line[|key| + 1..] == value;
    assert value + "" == value;
    ValueBeforeSeparator(value, "");
    assert line[|key|] == '=';
    FieldsFromCuts(line, key, value);
  }

  /** A single `KEY=VALUE` line binds the trimmed key to the trimmed value. */
  lemma SingleLine(key: string, value: string)
    requires key != "" && value != ""
    requires '=' !in key && '=' !in value && '\n' !in key && '\n' !in value
    ensures ParseEnv(key + "=" + value) == map[Trim(key) := Trim(value)]
  {
    var line := key + "=" + value;
    SingleEqualsFields(key, value);
    var e := Some((Trim(key), Trim(value)));
    assert LineEntry(line) == e;
    NoNewline(key, value);
    assert Entries([line]) == [e];
    BindOne(Trim(key), Trim(value));
  }

  lemma NoNewline(key: string, value: string)
    requires '\n' !in key && '\n' !in value
    ensures Split(key + "=" + value, '\n') == [key + "=" + value]
  {
    var line := key + "=" + value;
    assert forall c :: c in line ==> c in key || c == '=' || c in value;
    assert IndexOf(line, '\n') == |line|;
  }

  lemma BindOne(k: string, v: string)
    ensures Bind([Some((k, v))]) == map[k := v]
  {
    var es := [Some((k, v))];
    assert BindFirst(es, 0) == map[];
  }

  /** `env[name]`, `undefined` when the name was never bound. */
  function Lookup(env: map<string, string>, name: string): (v: Option<string>)
    ensures v.Some? <==> name in env
    ensures v.Some? ==> v.value == env[name]
  {
    if name in env then Some(env[name]) else None
  }

  // ---------------------------------------------------------------------
  // The service-key override
  // ---------------------------------------------------------------------

  /** The key a backend line offers: it starts with the service-key
      assignment and its value, trimmed, is neither empty nor the
      placeholder. */
  function Override(line: string): (o: Option<string>)
    ensures o.Some? ==> StartsWith(line, ServiceKeyPrefix) && o.value != "" && o.value != ServiceKeyPlaceholder
  {
    if StartsWith(line, ServiceKeyPrefix) then
      PrefixSeparator(line);
      SplitSecond(line, '=');
      var v := Trim(Split(line, '=')[1]);
      if v != "" && v != ServiceKeyPlaceholder then Some(v) else None
    else None
  }

  /** A service-key line offers its value, up to any further '=', trimmed,
      unless that is empty or the placeholder. */
  lemma OverrideOfAssignment(value: string, rest: string)
    requires '=' !in value && (rest == "" || rest[0] == '=')
    ensures var v := Trim(value);
            Override(ServiceKeyPrefix + value + rest) == if v != "" && v != ServiceKeyPlaceholder then Some(v) else None
  {
    var line := ServiceKeyPrefix + value + rest;
    var n := |ServiceKeyPrefix|;
    assert line[..n] == ServiceKeyPrefix;
    PrefixSeparator(line);
    assert line[n..] == value + rest;
    ValueBeforeSeparator(value, rest);
    SplitSecond(line, '=');
  }

  lemma PrefixSeparator(line: string)
    requires StartsWith(line, ServiceKeyPrefix)
    ensures '=' in line && IndexOf(line, '=') == |ServiceKeyPrefix| - 1
  {
    var n := |ServiceKeyPrefix|;
    assert line[..n] == ServiceKeyPrefix;
    assert forall j :: 0 <= j < n ==> line[j] == ServiceKeyPrefix[j];
    assert forall j :: 0 <= j < n - 1 ==> ServiceKeyPrefix[j] != '=';
    assert line[n - 1] == '=';
    assert line[n - 1] in line;
  }

  lemma ValueBeforeSeparator(value: string, rest: string)
    requires '=' !in value && (rest == "" || rest[0] == '=')
    ensures IndexOf(value + rest, '=') == |value| && (value + rest)[..|value|] == value
  {
    var t := value + rest;
    assert forall j :: 0 <= j < |value| ==> t[j] == value[j];
    if rest == "" {
      assert t == value;
    } else {
      assert t[|value|] == '=';
    }
  }

  /** The key after assigning, in order, the first `n` offered keys,
      starting from `key`. */
  function Latest(offers: seq<Option<string>>, key: Option<string>, n: nat): (r: Option<string>)
    requires n <= |offers|
    ensures r == key || (r.Some? && exists i :: 0 <= i < n && offers[i] == r)
    ensures (exists i :: 0 <= i < n && offers[i].Some?) ==> r.Some? && exists i :: 0 <= i < n && offers[i] == r
    decreases n
  {
    if n == 0 then key
    else if offers[n - 1].Some? then offers[n - 1]
    else Latest(offers, key, n - 1)
  }

  /** The last offer decides; with none, the key is unchanged. */
  lemma LastOfferWins(offers: seq<Option<string>>, key: Option<string>, n: nat)
    requires n <= |offers|
    ensures (forall i :: 0 <= i < n ==> offers[i].None?) ==> Latest(offers, key, n) == key
    ensures forall i :: 0 <= i < n && offers[i].Some? && (forall j :: i < j < n ==> offers[j].None?)
                        ==> Latest(offers, key, n) == offers[i]
  {
    if forall i :: 0 <= i < n ==> offers[i].None? {
      NoOfferKeeps(offers, key, n);
    }
    forall i | 0 <= i < n && offers[i].Some? && (forall j :: i < j < n ==> offers[j].None?)
      ensures Latest(offers, key, n) == offers[i]
    {
      LastOfferDecides(offers, key, n, i);
    }
  }

  lemma {:induction false} NoOfferKeeps(offers: seq<Option<string>>, key: Option<string>, n: nat)
    requires n <= |offers|
    requires forall i :: 0 <= i < n ==> offers[i].None?
    ensures Latest(offers, key, n) == key
    decreases n
  {
    if n > 0 {
      NoOfferKeeps(offers, key, n - 1);
    }
  }

  lemma {:induction false} LastOfferDecides(offers: seq<Option<string>>, key: Option<string>, n: nat, i: nat)
    requires i < n <= |offers|
    requires offers[i].Some? && forall j :: i < j < n ==> offers[j].None?
    ensures Latest(offers, key, n) == offers[i]
    decreases n
  {
    if i < n - 1 {
      LastOfferDecides(offers, key, n - 1, i);
    }
  }

  /** The keys the lines offer, one per line. */
  function Offers(lines: seq<string>): (os: seq<Option<string>>)
    ensures |os| == |lines| && forall i :: 0 <= i < |lines| ==> os[i] == Override(lines[i])
  {
    seq(|lines|, i requires 0 <= i < |lines| => Override(lines[i]))
  }

  /** Some line offers a usable service key. */
  predicate OffersKey(lines: seq<string>) {
    exists i :: 0 <= i < |lines| && Override(lines[i]).Some?
  }

  /** The backend file exists and offers a usable service key. */
  predicate BackendOffers(backend: Option<string>) {
    backend.Some? && OffersKey(Split(backend.value, '\n'))
  }

  /** The key after the backend lines have been scanned, starting from
      `key`. */
  function ScanKey(lines: seq<string>, key: Option<string>): (r: Option<string>)
    ensures r == key || (r.Some? && r.value != "" && r.value != ServiceKeyPlaceholder)
    ensures OffersKey(lines) ==> Truthy(r)
    ensures !OffersKey(lines) ==> r == key
    ensures Truthy(r) <==> Truthy(key) || OffersKey(lines)
  {
    var offers := Offers(lines);
    var r := Latest(offers, key, |lines|);
    assert r != key ==> exists i :: 0 <= i < |lines| && Override(lines[i]) == r;
    OfferMakesTruthy(lines, key);
    r
  }

  lemma OfferMakesTruthy(lines: seq<string>, key: Option<string>)
    ensures (exists i :: 0 <= i < |lines| && Override(lines[i]).Some?) ==> Truthy(Latest(Offers(lines), key, |lines|))
  {
    var offers := Offers(lines);
    if i :| 0 <= i < |lines| && Override(lines[i]).Some? {
      assert offers[i].Some?;
      var r := Latest(offers, key, |lines|);
      var k :| 0 <= k < |lines| && offers[k] == r;
      assert Override(lines[k]) == r;
    }
  }

  /** The last offering line decides; with none, the key is unchanged. */
  lemma LastOverrideWins(lines: seq<string>, key: Option<string>)
    ensures (forall i :: 0 <= i < |lines| ==> Override(lines[i]).None?) ==> ScanKey(lines, key) == key
    ensures forall i :: 0 <= i < |lines| && Override(lines[i]).Some?
                        && (forall j :: i < j < |lines| ==> Override(lines[j]).None?)
                        ==> ScanKey(lines, key) == Override(lines[i])
  {
    if forall i :: 0 <= i < |lines| ==> Override(lines[i]).None? {
      NoOverrideKeepsKey(lines, key);
    }
    forall i | 0 <= i < |lines| && Override(lines[i]).Some? && (forall j :: i < j < |lines| ==> Override(lines[j]).None?)
      ensures ScanKey(lines, key) == Override(lines[i])
    {
      LastOverrideDecides(lines, key, i);
    }
  }

  lemma NoOverrideKeepsKey(lines: seq<string>, key: Option<string>)
    requires forall i :: 0 <= i < |lines| ==> Override(lines[i]).None?
    ensures ScanKey(lines, key) == key
  {
    var offers := Offers(lines);
    NoOfferKeeps(offers, key, |lines|);
  }

  lemma LastOverrideDecides(lines: seq<string>, key: Option<string>, i: nat)
    requires i < |lines| && Override(lines[i]).Some?
    requires forall j :: i < j < |lines| ==> Override(lines[j]).None?
    ensures ScanKey(lines, key) == Override(lines[i])
  {
    var offers := Offers(lines);
    LastOfferDecides(offers, key, |lines|, i);
  }

  // ---------------------------------------------------------------------
  // Credentials
  // ---------------------------------------------------------------------

  datatype Startup = Abort | Connect(url: string, key: string)

  /** `if (!url || !key)` aborts. */
  function Credentials(url: Option<string>, key: Option<string>): (s: Startup)
    ensures s.Connect? <==> Truthy(url) && Truthy(key)
    ensures s.Connect? ==> s == Connect(url.value, key.value)
  {
    if Truthy(url) && Truthy(key) then Connect(url.value, key.value) else Abort
  }

  /** The seed script's key: the anon key, replaced by the last usable
      service key the backend file offers when that file exists. */
  function SeedKey(anon: Option<string>, backend: Option<string>): (k: Option<string>)
    ensures k == anon || (k.Some? && k.value != "" && k.value != ServiceKeyPlaceholder)
    ensures Truthy(k) <==> Truthy(anon) || BackendOffers(backend)
    ensures !BackendOffers(backend) ==> k == anon
  {
    if backend.Some? then ScanKey(Split(backend.value, '\n'), anon) else anon
  }

  /** The seed script: URL and anon key from the frontend file, then the
      override scan over the backend file when it exists. */
  function SeedStartup(frontend: string, backend: Option<string>): (s: Startup)
    ensures s.Connect? ==> s.key != ServiceKeyPlaceholder || Lookup(ParseEnv(frontend), AnonKeyVar) == Some(ServiceKeyPlaceholder)
    ensures s.Connect? <==> Truthy(Lookup(ParseEnv(frontend), UrlVar))
                            && (Truthy(Lookup(ParseEnv(frontend), AnonKeyVar)) || BackendOffers(backend))
    ensures s.Connect? ==> s.url == Lookup(ParseEnv(frontend), UrlVar).value
    ensures s.Connect? && !BackendOffers(backend) ==> s.key == Lookup(ParseEnv(frontend), AnonKeyVar).value
  {
    var env := ParseEnv(frontend);
    var anon := Lookup(env, AnonKeyVar);
    Credentials(Lookup(env, UrlVar), SeedKey(anon, backend))
  }

  /** The connection test: URL and anon key from the frontend file. */
  function TestStartup(frontend: string): (s: Startup)
    ensures s.Connect? <==> Truthy(Lookup(ParseEnv(frontend), UrlVar)) && Truthy(Lookup(ParseEnv(frontend), AnonKeyVar))
    ensures s.Connect? ==> s == Connect(Lookup(ParseEnv(frontend), UrlVar).value, Lookup(ParseEnv(frontend), AnonKeyVar).value)
  {
    var env := ParseEnv(frontend);
    Credentials(Lookup(env, UrlVar), Lookup(env, AnonKeyVar))
  }

  /** Without a backend file, or one offering no key, the seed script starts
      exactly as the connection test does. */
  lemma SeedWithoutOverrideIsTest(frontend: string, backend: Option<string>)
    requires backend.Some? ==> forall i :: 0 <= i < |Split(backend.value, '\n')| ==> Override(Split(backend.value, '\n')[i]).None?
    ensures SeedStartup(frontend, backend) == TestStartup(frontend)
  {
    if backend.Some? {
      LastOverrideWins(Split(backend.value, '\n'), Lookup(ParseEnv(frontend), AnonKeyVar));
    }
  }

  /** With a backend file offering a service key, the seed script connects
      with the frontend URL and the key of the last offering line, whatever
      the anon key. */
  lemma SeedUsesLastOverride(frontend: string, backendText: string, i: nat)
    requires i < |Split(backendText, '\n')| && Override(Split(backendText, '\n')[i]).Some?
    requires forall j :: i < j < |Split(backendText, '\n')| ==> Override(Split(backendText, '\n')[j]).None?
    requires Truthy(Lookup(ParseEnv(frontend), UrlVar))
    ensures SeedStartup(frontend, Some(backendText)) ==
              Connect(Lookup(ParseEnv(frontend), UrlVar).value, Override(Split(backendText, '\n')[i]).value)
  {
    LastOverrideWins(Split(backendText, '\n'), Lookup(ParseEnv(frontend), AnonKeyVar));
  }

  /** A frontend line whose value is only blanks binds the name to the empty
      string, which then aborts the run. */
  lemma BlankUrlAborts(frontend: string, backend: Option<string>)
    requires Lookup(ParseEnv(frontend), UrlVar) == Some("")
    ensures SeedStartup(frontend, backend) == Abort && TestStartup(frontend) == Abort
  {
  }
}

=== FILE: navbar.dfy ===
/** The dashboard navigation bar (components/layout/DashboardNavbar.tsx):
    who counts as staff, whether the Admin Panel link is shown, and the name
    and avatar initial displayed. The signed-in user and the profile row are
    inputs; either may be missing. */
module Navbar {
  import opened Optional
  import opened Strings

  datatype User = User(email: Option<string>, metadataRole: Option<string>)
  datatype Profile = Profile(role: Option<string>, fullName: Option<string>)

  const StaffRoles: set<string> := {"admin", "instructor"}

  /** `profile?.role`. */
  function ProfileRole(profile: Option<Profile>): Option<string> {
    if profile.Some? then profile.value.role else None
  }

  /** `user?.user_metadata?.role`. */
  function MetadataRole(user: Option<User>): Option<string> {
    if user.Some? then user.value.metadataRole else None
  }

  /** `isAdmin`: either source of the role may grant staff access. */
  function IsAdmin(user: Option<User>, profile: Option<Profile>): (b: bool)
    ensures b <==> (exists r :: r in StaffRoles && (ProfileRole(profile) == Some(r) || MetadataRole(user) == Some(r)))
  {
    var p := ProfileRole(profile);
    var m := MetadataRole(user);
    assert p.Some? && p.value in StaffRoles ==> p == Some(p.value);
    assert m.Some? && m.value in StaffRoles ==> m == Some(m.value);
    p == Some("admin") || p == Some("instructor") || m == Some("admin") || m == Some("instructor")
  }

  /** A staff role in the user's metadata is enough even when the profile
      says "student". */
  lemma MetadataRoleSuffices(email: Option<string>, fullName: Option<string>, role: string)
    requires role in StaffRoles
    ensures IsAdmin(Some(User(email, Some(role))), Some(Profile(Some("student"), fullName)))
  {
  }

  /** Nobody signed in, or only roles outside the two staff roles: no staff
      access. */
  lemma OtherRolesAreNotStaff(user: Option<User>, profile: Option<Profile>)
    requires ProfileRole(profile) !in {Some("admin"), Some("instructor")}
    requires MetadataRole(user) !in {Some("admin"), Some("instructor")}
    ensures !IsAdmin(user, profile)
    ensures !IsAdmin(None, None)
    ensures !IsAdmin(Some(User(None, Some("teacher"))), Some(Profile(Some("teacher"), None)))
  {
  }

  /** The links of the desktop menu. */
  function NavLinks(isAdmin: bool): (links: seq<string>)
    ensures |links| >= 1 && links[0] == "/dashboard"
    ensures "/admin" in links <==> isAdmin
  {
    if isAdmin then ["/dashboard", "/admin"] else ["/dashboard"]
  }

  /** `profile?.full_name || user?.email`; `None` renders nothing. */
  function DisplayName(user: Option<User>, profile: Option<Profile>): (name: Option<string>)
    ensures profile.Some? && Truthy(profile.value.fullName) ==> name == profile.value.fullName
    ensures !(profile.Some? && Truthy(profile.value.fullName)) ==>
              name == (if user.Some? then user.value.email else None)
  {
    if profile.Some? && Truthy(profile.value.fullName) then profile.value.fullName
    else if user.Some? then user.value.email
    else None
  }

  /** `profile?.full_name?.[0]?.toUpperCase() || 'U'`. */
  function AvatarInitial(profile: Option<Profile>): (s: string)
    ensures |s| == 1 && !IsLower(s[0])
    ensures profile.Some? && Truthy(profile.value.fullName) ==> s[0] == UpperChar(profile.value.fullName.value[0])
    ensures !(profile.Some? && Truthy(profile.value.fullName)) ==> s == "U"
  {
    if profile.Some? && Truthy(profile.value.fullName) then [UpperChar(profile.value.fullName.value[0])]
    else "U"
  }
}

=== FILE: optional.dfy ===
/** The absent-or-present value used wherever the source has `null`,
    `undefined`, `None` or an optional field. */
module Optional {

  datatype Option<+T> = None | Some(value: T) {

    /** The value when present, otherwise the given fallback. */
    function GetOr(default: T): T {
      match this
      case Some(v) => v
      case None => default
    }
  }

  /** A JavaScript string value is truthy when it is present and non-empty. */
  predicate Truthy(s: Option<string>) {
    s.Some? && s.value != ""
  }
}

=== FILE: parent_dashboard.dfy ===
/** The parent dashboard (app/dashboard/parent/page.tsx): the per-course
    progress percentage and the child's display name derived from an email
    address. */
module ParentDashboard {
  import opened Optional
  import opened Strings

  /** `total > 0 ? Math.round(completed / total * 100) : 0`, computed
      exactly: `Math.round` rounds halves up, so for a positive total the
      result is the floor of `100 * completed / total + 1/2`, that is
      `(200 * completed + total) / (2 * total)`. */
  function Progress(completed: int, total: int): (p: int)
    ensures total <= 0 ==> p == 0
    ensures total > 0 ==> 2 * total * p <= 200 * completed + total < 2 * total * p + 2 * total
  {
    if total > 0 then (200 * completed + total) / (2 * total) else 0
  }

  /** The result is the ratio, as a percentage, rounded to the nearest
      integer with halves rounded up. */
  lemma ProgressIsRoundedRatio(completed: int, total: int)
    requires total > 0
    ensures var x := 100.0 * completed as real / total as real;
            var p := Progress(completed, total) as real;
            p - 0.5 <= x < p + 0.5
  {
    var p := Progress(completed, total);
    var t := total as real;
    var x := 100.0 * completed as real / t;
    assert x * t == 100.0 * completed as real;
    IntRealMul(2 * total, p);
    assert (2 * total * p) as real == 2.0 * t * (p as real);
    assert 2.0 * t * (p as real) <= 200.0 * (completed as real) + t < 2.0 * t * (p as real) + 2.0 * t;
    RoundedQuotient(t, p as real, x, completed as real);
  }

  /** `2tp <= 200c + t < 2tp + 2t` with `xt = 100c`, divided by `2t`. */
  lemma RoundedQuotient(t: real, p: real, x: real, c: real)
    requires t > 0.0 && x * t == 100.0 * c
    requires 2.0 * t * p <= 200.0 * c + t < 2.0 * t * p + 2.0 * t
    ensures p - 0.5 <= x < p + 0.5
  {
    RealSign(t, 2.0 * p - 2.0 * x - 1.0);
    RealSignStrict(t, 2.0 * x + 1.0 - 2.0 * p - 2.0);
  }

  lemma IntRealMul(a: int, b: int)
    ensures (a * b) as real == (a as real) * (b as real)
  {
  }

  lemma RealSign(t: real, y: real)
    requires t > 0.0 && t * y <= 0.0
    ensures y <= 0.0
  {
  }

  lemma RealSignStrict(t: real, y: real)
    requires t > 0.0 && t * y < 0.0
    ensures y < 0.0
  {
  }

  /** Multiplying by a positive factor keeps a strict order. */
  lemma MulCancel(d: int, a: int, b: int)
    requires d > 0 && d * a < d * b
    ensures a < b
  {
    assert d * b - d * a == d * (b - a);
  }

  /** A completed count between 0 and the total gives a percentage between
      0 and 100. */
  lemma ProgressBounds(completed: int, total: int)
    requires 0 <= completed <= total
    ensures 0 <= Progress(completed, total) <= 100
  {
    if total > 0 {
      var p := Progress(completed, total);
      var d := 2 * total;
      MulCancel(d, -1, p);
      MulCancel(d, p, 101);
    }
  }

  /** Nothing done is 0%; everything done is 100%. */
  lemma ProgressEndpoints(total: int)
    requires total > 0
    ensures Progress(0, total) == 0
    ensures Progress(total, total) == 100
  {
    var d := 2 * total;
    MulCancel(d, -1, Progress(0, total));
    MulCancel(d, Progress(0, total), 1);
    MulCancel(d, 99, Progress(total, total));
    MulCancel(d, Progress(total, total), 101);
  }

  /** For a fixed total, completing more lessons never lowers the
      percentage. */
  lemma ProgressMonotone(c1: int, c2: int, total: int)
    requires c1 <= c2
    ensures Progress(c1, total) <= Progress(c2, total)
  {
    if total > 0 {
      MulCancel(2 * total, Progress(c1, total), Progress(c2, total) + 1);
    }
  }

  /** `user.email?.split('@')[0] || 'Student'`. */
  function ChildName(email: Option<string>): (name: string)
    ensures name != ""
    ensures '@' !in name
    ensures email.Some? && email.value[..IndexOf(email.value, '@')] != "" ==>
              name == email.value[..IndexOf(email.value, '@')]
    ensures email.None? || email.value[..IndexOf(email.value, '@')] == "" ==> name == "Student"
  {
    if email.None? then "Student"
    else
      var local := Split(email.value, '@')[0];
      if local != "" then local else "Student"
  }

  /** The name of an address `local@domain` is its local part, when that is
      non-empty. */
  lemma ChildNameOfAddress(local: string, domain: string)
    requires local != "" && '@' !in local
    ensures ChildName(Some(local + "@" + domain)) == local
  {
    var e := local + "@" + domain;
    assert e[|local|] == '@';
    assert forall j :: 0 <= j < |local| ==> e[j] == local[j];
    assert IndexOf(e, '@') == |local|;
    assert e[..|local|] == local;
  }
}

=== FILE: quiz_runner.dfy ===
/** The quiz player (frontend/components/courses/QuizRunner.tsx) as a state
    machine: the initial load, best-score bookkeeping over the attempt
    history, the choice of view, answer selection, bounded navigation,
    submission and retake. Grading happens on the server; its answer, like
    every other network reply, is an input here. Score ratios are exact
    `real`s. */
module QuizRunner {
  import opened Optional

  datatype Question = Question(id: string, points: int, optionIds: seq<string>)
  datatype Quiz = Quiz(id: string, title: string, questions: seq<Question>)
  datatype Attempt = Attempt(id: string, score: int, maxScore: int, completedAt: string)

  /** The grading reply: points scored, points available, percentage. */
  datatype QuizResult = QuizResult(score: int, maxScore: int, percentage: real)

  datatype State = State(
    quiz: Option<Quiz>,
    loading: bool,
    index: int,                    // current question
    answers: map<string, string>,  // question id -> option id
    result: Option<QuizResult>,
    error: Option<string>,
    attempts: seq<Attempt>,        // history, newest first
    retaking: bool,
    best: Option<Attempt>)

  const Initial := State(None, true, 0, map[], None, None, [], false, None)

  const MsgLoadFailed := "Failed to load quiz content."
  const MsgMustLogIn := "You must be logged in to submit."
  const MsgSubmitFailed := "Failed to submit quiz."

  // ---------------------------------------------------------------------
  // Score ratios
  // ---------------------------------------------------------------------

  predicate AllValid(atts: seq<Attempt>) {
    forall i :: 0 <= i < |atts| ==> atts[i].maxScore > 0
  }

  /** Every ratio the state refers to is defined. */
  predicate Inv(st: State) {
    AllValid(st.attempts) && (st.best.Some? ==> st.best.value.maxScore > 0)
  }

  function Ratio(a: Attempt): real
    requires a.maxScore > 0
  {
    a.score as real / a.maxScore as real
  }

  function Percentage(a: Attempt): real
    requires a.maxScore > 0
  {
    Ratio(a) * 100.0
  }

  // ---------------------------------------------------------------------
  // Best attempt of a fetched history: `reduce` keeping `prev` unless
  // `current` is strictly better, so ties go to the earlier element
  // ---------------------------------------------------------------------

  /** `atts[k]` has the greatest ratio among `atts[..n]` and every element
      before it is strictly worse. */
  predicate IsFirstMax(atts: seq<Attempt>, k: nat, n: nat)
    requires AllValid(atts) && n <= |atts|
  {
    && k < n
    && (forall j :: 0 <= j < n ==> Ratio(atts[j]) <= Ratio(atts[k]))
    && (forall j :: 0 <= j < k ==> Ratio(atts[j]) < Ratio(atts[k]))
  }

  /** The `reduce` from position `i` on, with `atts[prev]` as accumulator. */
  function ReduceBest(atts: seq<Attempt>, prev: nat, i: nat): (k: nat)
    requires AllValid(atts) && i <= |atts| && IsFirstMax(atts, prev, i)
    ensures IsFirstMax(atts, k, |atts|)
    decreases |atts| - i
  {
    if i == |atts| then prev
    else ReduceBest(atts, if Ratio(atts[i]) > Ratio(atts[prev]) then i else prev, i + 1)
  }

  /** The best attempt of a non-empty history: the first one with the
      highest ratio. */
  function BestAttempt(atts: seq<Attempt>): (best: Attempt)
    requires |atts| > 0 && AllValid(atts)
    ensures best in atts && best.maxScore > 0
    ensures forall j :: 0 <= j < |atts| ==> Ratio(atts[j]) <= Ratio(best)
    ensures exists k :: 0 <= k < |atts| && atts[k] == best
                        && forall j :: 0 <= j < k ==> Ratio(atts[j]) < Ratio(best)
  {
    var k := ReduceBest(atts, 0, 1);
    atts[k]
  }

  // ---------------------------------------------------------------------
  // Views
  // ---------------------------------------------------------------------

  datatype View =
    | Spinner
    | ErrorView(message: string)
    | NoQuiz
    | Summary(attemptCount: nat, best: Option<Attempt>, last: Attempt)
    | Results(result: QuizResult)
    | Active(questionIndex: int, isLast: bool, canSubmit: bool)
    | RenderCrash  // `quiz.questions[currentQuestionIndex]` is undefined and `.id` throws

  /** Submission is enabled when as many questions are answered as the quiz
      has. */
  predicate CanSubmit(quiz: Quiz, answers: map<string, string>) {
    |answers.Keys| == |quiz.questions|
  }

  /** The early returns for loading, error, missing quiz and history are all
      passed: what remains is the results or the question body. */
  predicate PastGates(st: State) {
    !st.loading && st.error.None? && st.quiz.Some? && (st.retaking || |st.attempts| == 0)
  }

  /** The render decision, in the component's order. */
  function ViewOf(st: State): (v: View)
    ensures v.Spinner? <==> st.loading
    ensures v.ErrorView? <==> !st.loading && st.error.Some?
    ensures v.ErrorView? ==> v.message == st.error.value
    ensures v.NoQuiz? <==> !st.loading && st.error.None? && st.quiz.None?
    ensures v.Summary? <==> !st.loading && st.error.None? && st.quiz.Some? && !st.retaking && |st.attempts| > 0
    ensures v.Summary? ==> v.attemptCount == |st.attempts| && v.best == st.best && v.last == st.attempts[0]
    ensures v.Results? <==> PastGates(st) && st.result.Some?
    ensures v.Results? ==> v.result == st.result.value
    ensures v.Active? <==> PastGates(st) && st.result.None? && 0 <= st.index < |st.quiz.value.questions|
    ensures v.RenderCrash? <==> PastGates(st) && st.result.None? && !(0 <= st.index < |st.quiz.value.questions|)
    ensures v.Active? ==> v.questionIndex == st.index
    ensures v.Active? ==> (v.isLast <==> st.index == |st.quiz.value.questions| - 1)
    ensures v.Active? ==> (v.canSubmit <==> |st.answers.Keys| == |st.quiz.value.questions|)
  {
    if st.loading then Spinner
    else if st.error.Some? then ErrorView(st.error.value)
    else if st.quiz.None? then NoQuiz
    else if !st.retaking && |st.attempts| > 0 then Summary(|st.attempts|, st.best, st.attempts[0])
    else if st.result.Some? then Results(st.result.value)
    else
      var q := st.quiz.value;
      if 0 <= st.index < |q.questions| then Active(st.index, st.index == |q.questions| - 1, CanSubmit(q, st.answers))
      else RenderCrash
  }

  // ---------------------------------------------------------------------
  // Loading
  // ---------------------------------------------------------------------

  /** The quiz request: 404 or 500, a thrown error, or a quiz. */
  datatype QuizFetch = QuizUnavailable | QuizFetchFailed | QuizFetched(quiz: Quiz)

  /** The history request for a signed-in user. */
  datatype AttemptsFetch = AttemptsLoaded(attempts: seq<Attempt>) | AttemptsRejected | AttemptsFetchFailed

  /** The mount effect `fetchData`. */
  function Load(fetch: QuizFetch, signedIn: bool, history: AttemptsFetch): (st: State)
    requires history.AttemptsLoaded? ==> AllValid(history.attempts)
    ensures Inv(st) && !st.loading && st.index == 0 && st.answers == map[] && st.result.None?
    ensures st.quiz.Some? <==> fetch.QuizFetched?
    ensures st.error.Some? <==> fetch.QuizFetchFailed? || (fetch.QuizFetched? && signedIn && history.AttemptsFetchFailed?)
    ensures !(signedIn && history.AttemptsLoaded? && fetch.QuizFetched?) ==> st.attempts == [] && st.best.None? && !st.retaking
    ensures fetch.QuizFetched? && signedIn && history.AttemptsLoaded? ==>
              st.attempts == history.attempts && (st.retaking <==> |history.attempts| == 0)
              && st.best == (if |history.attempts| > 0 then Some(BestAttempt(history.attempts)) else None)
  {
    match fetch
    case QuizUnavailable => Initial.(loading := false)
    case QuizFetchFailed => Initial.(error := Some(MsgLoadFailed), loading := false)
    case QuizFetched(q) =>
      var st := Initial.(quiz := Some(q), loading := false);
      if !signedIn then st
      else
        match history
        case AttemptsLoaded(atts) =>
          if |atts| > 0 then st.(attempts := atts, best := Some(BestAttempt(atts)), retaking := false)
          else st.(attempts := atts, retaking := true)
        case AttemptsRejected => st
        case AttemptsFetchFailed => st.(error := Some(MsgLoadFailed))
  }

  /** A user with history first sees the summary with the best attempt; a
      user without history goes straight to the first question. */
  lemma LoadView(q: Quiz, atts: seq<Attempt>)
    requires AllValid(atts)
    ensures var v := ViewOf(Load(QuizFetched(q), true, AttemptsLoaded(atts)));
            if |atts| > 0 then v == Summary(|atts|, Some(BestAttempt(atts)), atts[0])
            else if |q.questions| > 0 then v == Active(0, |q.questions| == 1, false)
            else v == RenderCrash
  {
  }

  /** Signed out, or with the history request rejected, no history is kept:
      the quiz opens on its first question with submit disabled, or crashes
      the render when it has no question. */
  lemma LoadViewWithoutHistory(q: Quiz, signedIn: bool, history: AttemptsFetch)
    requires history.AttemptsLoaded? ==> AllValid(history.attempts)
    requires !signedIn || history.AttemptsRejected?
    ensures var v := ViewOf(Load(QuizFetched(q), signedIn, history));
            if |q.questions| > 0 then v == Active(0, |q.questions| == 1, false)
            else v == RenderCrash
  {
  }

  // ---------------------------------------------------------------------
  // Answering and navigating
  // ---------------------------------------------------------------------

  /** `handleOptionSelect`: record the option for that question only. */
  function SelectOption(st: State, questionId: string, optionId: string): (r: State)
    ensures questionId in r.answers && r.answers[questionId] == optionId
    ensures forall q :: q != questionId ==> (q in r.answers <==> q in st.answers)
    ensures forall q :: q != questionId && q in st.answers ==> r.answers[q] == st.answers[q]
    ensures r.answers.Keys == st.answers.Keys + {questionId}
    ensures r == st.(answers := r.answers)
  {
    st.(answers := st.answers[questionId := optionId])
  }

  /** The "Previous" button. */
  function Previous(st: State): (r: State)
    ensures r == st.(index := r.index)
    ensures r.index >= 0
    ensures st.index > 0 ==> r.index == st.index - 1
    ensures st.index <= 0 ==> r.index == 0
  {
    st.(index := if st.index - 1 > 0 then st.index - 1 else 0)
  }

  /** The "Next Question" button. */
  function Next(st: State, questionCount: nat): (r: State)
    ensures r == st.(index := r.index)
    ensures r.index <= questionCount - 1
    ensures st.index + 1 <= questionCount - 1 ==> r.index == st.index + 1
    ensures st.index + 1 > questionCount - 1 ==> r.index == questionCount - 1
  {
    st.(index := if questionCount - 1 < st.index + 1 then questionCount - 1 else st.index + 1)
  }

  /** Navigation keeps a valid question index valid. */
  lemma NavigationStaysInRange(st: State, n: nat)
    requires 0 <= st.index < n
    ensures 0 <= Previous(st).index < n
    ensures 0 <= Next(st, n).index < n
  {
  }

  /** While a question is shown, the navigation buttons lead to another
      question of the same quiz and never to the crashing render. */
  lemma NavigationKeepsQuestionShown(st: State)
    requires ViewOf(st).Active?
    ensures ViewOf(Previous(st)).Active?
    ensures ViewOf(Next(st, |st.quiz.value.questions|)).Active?
  {
    NavigationStaysInRange(st, |st.quiz.value.questions|);
  }

  function QuestionIds(qs: seq<Question>): set<string> {
    set i | 0 <= i < |qs| :: qs[i].id
  }

  predicate DistinctQuestionIds(qs: seq<Question>) {
    forall i, j :: 0 <= i < j < |qs| ==> qs[i].id != qs[j].id
  }

  lemma {:induction false} QuestionIdsCount(qs: seq<Question>)
    requires DistinctQuestionIds(qs)
    ensures |QuestionIds(qs)| == |qs|
    decreases |qs|
  {
    if |qs| > 0 {
      var last := qs[|qs| - 1];
      var init := qs[..|qs| - 1];
      QuestionIdsCount(init);
      assert QuestionIds(qs) == QuestionIds(init) + {last.id};
      assert last.id !in QuestionIds(init);
    }
  }

  lemma SubsetSameSize(a: set<string>, b: set<string>)
    requires a <= b && |a| == |b|
    ensures a == b
  {
    // |b| == |a| + |b - a| leaves nothing in b - a
    assert b == a + (b - a) && a * (b - a) == {};
    assert |b - a| == 0;
  }

  /** With distinct question ids and answers only for questions of the quiz,
      submission is enabled exactly when every question has an answer. */
  lemma CanSubmitIffAllAnswered(quiz: Quiz, answers: map<string, string>)
    requires DistinctQuestionIds(quiz.questions)
    requires answers.Keys <= QuestionIds(quiz.questions)
    ensures CanSubmit(quiz, answers) <==>
              forall i :: 0 <= i < |quiz.questions| ==> quiz.questions[i].id in answers
  {
    var ids := QuestionIds(quiz.questions);
    QuestionIdsCount(quiz.questions);
    if CanSubmit(quiz, answers) {
      SubsetSameSize(answers.Keys, ids);
    }
    if forall i :: 0 <= i < |quiz.questions| ==> quiz.questions[i].id in answers {
      assert ids <= answers.Keys;
      assert answers.Keys == ids;
    }
  }

  /** Answering questions of the quiz never records an answer for anything
      else. */
  lemma SelectKeepsAnswersInQuiz(st: State, quiz: Quiz, i: nat, optionId: string)
    requires st.answers.Keys <= QuestionIds(quiz.questions)
    requires i < |quiz.questions|
    ensures SelectOption(st, quiz.questions[i].id, optionId).answers.Keys <= QuestionIds(quiz.questions)
  {
  }

  // ---------------------------------------------------------------------
  // Submitting
  // ---------------------------------------------------------------------

  /** The grading request: a reply, a non-OK status, or a thrown error. */
  datatype SubmitOutcome = Graded(score: int, maxScore: int, percentage: real) | SubmitRejected | SubmitFailed

  /** The new state and the `onComplete(score, maxScore)` call, if any. */
  datatype SubmitEffect = SubmitEffect(state: State, completed: Option<(int, int)>)

  /** The best-score update: the new attempt becomes best when its
      percentage is at least the best one's, taken as 0 without a best. */
  function UpdateBest(best: Option<Attempt>, a: Attempt, pct: real): (r: Option<Attempt>)
    requires best.Some? ==> best.value.maxScore > 0
    ensures r == Some(a) || r == best
    ensures r == Some(a) <==> pct >= (if best.Some? then Percentage(best.value) else 0.0) || Some(a) == best
  {
    var bestPct := if best.Some? then Percentage(best.value) else 0.0;
    if pct >= bestPct then Some(a) else best
  }

  /** `handleSubmit`. `attemptId` and `now` stand for the temporary id and
      the timestamp the client stamps on the new attempt. */
  function Submit(st: State, signedIn: bool, outcome: SubmitOutcome, attemptId: string, now: string): (r: SubmitEffect)
    requires Inv(st)
    requires outcome.Graded? ==> outcome.maxScore > 0
    ensures Inv(r.state)
    ensures st.quiz.None? ==> r == SubmitEffect(st, None)
    ensures r.state.quiz == st.quiz && r.state.index == st.index && r.state.retaking == st.retaking
    ensures st.quiz.Some? ==> !r.state.loading
    ensures st.quiz.Some? && (!signedIn || !outcome.Graded?) ==>
              && r.state == st.(loading := false, error := r.state.error)
              && r.state.error == Some(if signedIn then MsgSubmitFailed else MsgMustLogIn)
              && r.completed.None?
    ensures st.quiz.Some? && signedIn && outcome.Graded? ==>
              && r.state.attempts == [Attempt(attemptId, outcome.score, outcome.maxScore, now)] + st.attempts
              && r.state.result == Some(QuizResult(outcome.score, outcome.maxScore, outcome.percentage))
              && r.state.best == UpdateBest(st.best, r.state.attempts[0], outcome.percentage)
              && r.state.answers == st.answers && r.state.error == st.error
              && r.completed == Some((outcome.score, outcome.maxScore))
  {
    if st.quiz.None? then SubmitEffect(st, None)
    else if !signedIn then SubmitEffect(st.(error := Some(MsgMustLogIn), loading := false), None)
    else
      match outcome
      case Graded(score, maxScore, pct) =>
        var a := Attempt(attemptId, score, maxScore, now);
        SubmitEffect(st.(result := Some(QuizResult(score, maxScore, pct)),
                         attempts := [a] + st.attempts,
                         best := UpdateBest(st.best, a, pct),
                         loading := false),
                     Some((score, maxScore)))
      case _ => SubmitEffect(st.(error := Some(MsgSubmitFailed), loading := false), None)
  }

  /** `startRetake`: back to the first question with no answers and no result. */
  function StartRetake(st: State): (r: State)
    ensures r.retaking && r.result.None? && r.answers == map[] && r.index == 0
    ensures r.quiz == st.quiz && r.attempts == st.attempts && r.best == st.best
    ensures r.error == st.error && r.loading == st.loading
  {
    st.(retaking := true, result := None, answers := map[], index := 0)
  }

  /** "View History": leave retake mode and touch nothing else. */
  function ViewHistory(st: State): (r: State)
    ensures !r.retaking
    ensures r.quiz == st.quiz && r.loading == st.loading && r.error == st.error
    ensures r.index == st.index && r.answers == st.answers && r.result == st.result
    ensures r.attempts == st.attempts && r.best == st.best
  {
    st.(retaking := false)
  }

  /** After a successful submission in retake mode the results are shown;
      "View History" then returns to the summary, and a retake shows the
      first question again. */
  lemma AfterSubmitViews(st: State, score: int, maxScore: int, pct: real, id: string, now: string)
    requires Inv(st) && st.quiz.Some? && st.retaking && st.error.None? && maxScore > 0
    ensures var r := Submit(st, true, Graded(score, maxScore, pct), id, now).state;
            && ViewOf(r) == Results(QuizResult(score, maxScore, pct))
            && ViewOf(ViewHistory(r)).Summary?
            && (|st.quiz.value.questions| > 0 ==>
                  ViewOf(StartRetake(r)) == Active(0, |st.quiz.value.questions| == 1, false))
            && (|st.quiz.value.questions| == 0 ==> ViewOf(StartRetake(r)) == RenderCrash)
  {
  }

  /** Applying graded submissions one after another, `atts` in order. */
  function SubmitAll(st: State, atts: seq<Attempt>): (r: State)
    requires Inv(st) && AllValid(atts)
    ensures Inv(r) && r.quiz == st.quiz
    decreases |atts|
  {
    if |atts| == 0 then st
    else
      var prev := SubmitAll(st, atts[..|atts| - 1]);
      var a := atts[|atts| - 1];
      Submit(prev, true, Graded(a.score, a.maxScore, Percentage(a)), a.id, a.completedAt).state
  }

  /** `atts[m]` has the greatest percentage among `atts[..n]` and every later
      element is strictly worse. */
  predicate IsLastMax(atts: seq<Attempt>, m: nat, n: nat)
    requires AllValid(atts) && n <= |atts|
  {
    && m < n
    && (forall j :: 0 <= j < n ==> Percentage(atts[j]) <= Percentage(atts[m]))
    && (forall j :: m < j < n ==> Percentage(atts[j]) < Percentage(atts[m]))
  }

  lemma PercentageNonNegative(a: Attempt)
    requires a.maxScore > 0 && a.score >= 0
    ensures Percentage(a) >= 0.0
  {
    assert a.score as real / a.maxScore as real >= 0.0;
  }

  /** Starting without a best attempt, after any non-empty sequence of graded
      submissions the best attempt is the one with the highest percentage,
      ties going to the most recent. */
  lemma {:induction false} SubmitAllBest(st: State, atts: seq<Attempt>) returns (m: nat)
    requires Inv(st) && st.quiz.Some? && st.best.None?
    requires AllValid(atts) && |atts| > 0
    requires forall i :: 0 <= i < |atts| ==> atts[i].score >= 0
    ensures m < |atts| && IsLastMax(atts, m, |atts|)
    ensures SubmitAll(st, atts).best == Some(atts[m])
    decreases |atts|
  {
    var n := |atts|;
    var a := atts[n - 1];
    var init := atts[..n - 1];
    var prev := SubmitAll(st, init);
    assert init == atts[..|atts| - 1];
    var next := Submit(prev, true, Graded(a.score, a.maxScore, Percentage(a)), a.id, a.completedAt).state;
    assert SubmitAll(st, atts) == next;
    assert next.attempts[0] == a;
    assert next.best == UpdateBest(prev.best, a, Percentage(a));
    PercentageNonNegative(a);
    if n == 1 {
      assert prev == st;
      m := 0;
    } else {
      var k := SubmitAllBest(st, init);
      assert forall j :: 0 <= j < n - 1 ==> init[j] == atts[j];
      assert IsLastMax(atts, k, n - 1);
      if Percentage(a) >= Percentage(atts[k]) {
        m := n - 1;
      } else {
        m := k;
      }
    }
  }
}

=== FILE: report_card.dfy ===
/** The report-card rows of `generate_student_report_pdf` (backend/reports.py):
    the defaults for missing fields, the title truncation, the cell texts,
    and where each row lands on which page. Drawing is not modelled; the
    layout is the sequence of (page, y) positions the rows are drawn at, on
    the US-letter page of 792 points height. */
module ReportCard {
  import opened Optional
  import opened Strings

  const PageHeight := 792
  const FirstRowY := PageHeight - 200 - 30
  const NewPageY := PageHeight - 50
  const RowStep := 25
  const BottomMargin := 50
  const MaxTitle := 40

  /** A grade is whatever the caller stored: text or a number. */
  datatype Grade = GradeText(text: string) | GradeNumber(n: int)

  /** One course dictionary; a missing key is `None`. */
  datatype Entry = Entry(title: Option<string>, progress: Option<int>, grade: Option<Grade>)

  /** The three texts drawn for a row. */
  datatype Cells = Cells(title: string, progress: string, grade: string)

  /** Titles longer than 40 characters keep their first 37 and gain "...". */
  function Truncate(title: string): (t: string)
    ensures |t| <= |title|
    ensures |title| <= MaxTitle ==> t == title
    ensures |title| > MaxTitle ==> |t| == MaxTitle && t[..37] == title[..37] && t[37..] == "..."
  {
    if |title| > MaxTitle then title[..37] + "..." else title
  }

  /** Truncating a truncated title changes nothing. */
  lemma TruncateIdempotent(title: string)
    ensures Truncate(Truncate(title)) == Truncate(title)
  {
  }

  /** `str(grade)`. */
  function GradeCell(g: Grade): string {
    match g
    case GradeText(s) => s
    case GradeNumber(n) => IntToString(n)
  }

  /** The cells of one row, with the defaults 'Unknown Course', 0 and 'N/A'. */
  function FormatRow(e: Entry): (c: Cells)
    ensures c.title == Truncate(e.title.GetOr("Unknown Course"))
    ensures c.progress == IntToString(e.progress.GetOr(0)) + "%"
    ensures e.grade.None? ==> c.grade == "N/A"
    ensures e.grade.Some? ==> c.grade == GradeCell(e.grade.value)
  {
    var title := e.title.GetOr("Unknown Course");
    var progress := e.progress.GetOr(0);
    var grade := if e.grade.Some? then GradeCell(e.grade.value) else "N/A";
    Cells(Truncate(title), IntToString(progress) + "%", grade)
  }

  /** An empty dictionary prints as "Unknown Course", "0%", "N/A". */
  lemma EmptyEntryDefaults()
    ensures FormatRow(Entry(None, None, None)) == Cells("Unknown Course", "0%", "N/A")
  {
    assert IntToString(0) == "0";
  }

  // ---------------------------------------------------------------------
  // Layout
  // ---------------------------------------------------------------------

  /** One step of the loop: down one row, or to the top of a new page when
      that would go below the bottom margin. */
  function NextY(y: int): int {
    if y - RowStep < BottomMargin then NewPageY else y - RowStep
  }

  /** Where row `k` is drawn: the first row at `FirstRowY`, every later one
      a loop step below its predecessor. */
  function RowY(k: nat): (y: int)
    ensures BottomMargin <= y <= NewPageY
  {
    if k == 0 then FirstRowY else NextY(RowY(k - 1))
  }

  /** The page (0 for the first) row `k` is drawn on: one more than its
      predecessor's exactly when the step from it breaks the page. */
  function RowPage(k: nat): (p: nat) {
    if k == 0 then 0
    else RowPage(k - 1) + (if RowY(k - 1) - RowStep < BottomMargin then 1 else 0)
  }

  /** Rows on the first page (562 down to 62) and on every later page (742
      down to 67). */
  const FirstPageRows := 21
  const PageRows := 28

  /** Row `k`'s position in closed form. */
  function ClosedRowY(k: nat): int {
    if k < FirstPageRows then FirstRowY - RowStep * k
    else NewPageY - RowStep * ((k - FirstPageRows) % PageRows)
  }

  /** Row `k`'s page in closed form. */
  function ClosedRowPage(k: nat): nat {
    if k < FirstPageRows then 0 else 1 + (k - FirstPageRows) / PageRows
  }

  /** The stepping and the closed form agree: 21 rows on the first page,
      28 on every later one. */
  lemma {:induction false} RowsFollowClosedForm(k: nat)
    ensures RowY(k) == ClosedRowY(k) && RowPage(k) == ClosedRowPage(k)
    ensures RowPage(k) == 0 <==> k < FirstPageRows
  {
    if k > 0 {
      RowsFollowClosedForm(k - 1);
      ClosedStep(k - 1);
    }
  }

  /** One loop step in closed form, starting a page exactly when the page
      number changes. */
  lemma ClosedStep(k: nat)
    ensures NextY(ClosedRowY(k)) == ClosedRowY(k + 1)
    ensures ClosedRowPage(k + 1) == ClosedRowPage(k) + (if ClosedRowY(k) - RowStep < BottomMargin then 1 else 0)
  {
    if k >= FirstPageRows {
      var j := k - FirstPageRows;
      if j % PageRows == PageRows - 1 {
        assert (j + 1) % PageRows == 0 && (j + 1) / PageRows == j / PageRows + 1;
      } else {
        assert (j + 1) % PageRows == j % PageRows + 1 && (j + 1) / PageRows == j / PageRows;
      }
    }
  }

  datatype PlacedRow = PlacedRow(page: nat, y: int, cells: Cells)

  /** The cells of every entry, in order. */
  function AllCells(entries: seq<Entry>): (cs: seq<Cells>)
    ensures |cs| == |entries| && forall k :: 0 <= k < |entries| ==> cs[k] == FormatRow(entries[k])
  {
    seq(|entries|, k requires 0 <= k < |entries| => FormatRow(entries[k]))
  }

  /** The first `n` rows placed: row `k` at row `k`'s position on row
      `k`'s page. */
  function PlacedPrefix(cells: seq<Cells>, n: nat): (rows: seq<PlacedRow>)
    requires n <= |cells|
    ensures |rows| == n
    decreases n
  {
    if n == 0 then [] else PlacedPrefix(cells, n - 1) + [PlacedRow(RowPage(n - 1), RowY(n - 1), cells[n - 1])]
  }

  lemma {:induction false} PlacedPrefixIndex(cells: seq<Cells>, n: nat)
    requires n <= |cells|
    ensures forall k {:trigger PlacedPrefix(cells, n)[k]} :: 0 <= k < n ==>
              PlacedPrefix(cells, n)[k] == PlacedRow(RowPage(k), RowY(k), cells[k])
    decreases n
  {
    if n > 0 {
      PlacedPrefixIndex(cells, n - 1);
    }
  }

  /** The row loop: draw at `y`, step down, break the page when below the
      margin. Returns the rows as drawn and the number of page breaks. */
  method Layout(entries: seq<Entry>) returns (rows: seq<PlacedRow>, breaks: nat)
    ensures |rows| == |entries|
    ensures forall k {:trigger rows[k]} :: 0 <= k < |rows| ==> rows[k] == PlacedRow(RowPage(k), RowY(k), FormatRow(entries[k]))
    ensures forall k {:trigger rows[k]} :: 0 <= k < |rows| ==> rows[k].y >= BottomMargin
    ensures |rows| > 0 ==> rows[0].page == 0 && rows[0].y == FirstRowY
    ensures breaks == RowPage(|entries|)
  {
    var cells := AllCells(entries);
    rows, breaks := PlaceRows(cells);
    PlacedPrefixIndex(cells, |cells|);
  }

  /** The loop itself, over the rows' cells. */
  method PlaceRows(cells: seq<Cells>) returns (rows: seq<PlacedRow>, breaks: nat)
    ensures rows == PlacedPrefix(cells, |cells|)
    ensures breaks == RowPage(|cells|)
  {
    var y := FirstRowY;
    var page := 0;
    rows := [];
    breaks := 0;
    var i := 0;
    while i < |cells|
      invariant 0 <= i <= |cells|
      invariant y == RowY(i) && page == RowPage(i) && breaks == page
      invariant rows == PlacedPrefix(cells, i)
    {
      rows := rows + [PlacedRow(page, y, cells[i])];
      y := y - RowStep;
      if y < BottomMargin {
        page := page + 1;
        breaks := breaks + 1;
        y := NewPageY;
      }
      i := i + 1;
    }
  }

  /** The row positions repeat page after page. */
  lemma LaterPagesRepeat(k: nat)
    requires k >= FirstPageRows
    ensures RowY(k + PageRows) == RowY(k) && RowPage(k + PageRows) == RowPage(k) + 1
  {
    RowsFollowClosedForm(k);
    RowsFollowClosedForm(k + PageRows);
    ClosedRepeat(k);
  }

  lemma ClosedRepeat(k: nat)
    requires k >= FirstPageRows
    ensures ClosedRowY(k + PageRows) == ClosedRowY(k) && ClosedRowPage(k + PageRows) == ClosedRowPage(k) + 1
  {
    var j := k - FirstPageRows;
    assert (j + PageRows) % PageRows == j % PageRows;
    assert (j + PageRows) / PageRows == j / PageRows + 1;
  }
}

=== FILE: slug_fix.dfy ===
/** The slug normalisation of `fix_course_slugs`
    (backend/scripts/fix_slugs.py): lower-case the title, turn spaces into
    hyphens, keep only alphanumerics and hyphens, then split on hyphens,
    drop the empty pieces and join again. The database reads and writes
    around it are not modelled. Case mapping and `isalnum` are ASCII. */
module SlugFix {
  import opened Strings

  predicate KeepChar(c: char) {
    IsAlnum(c) || c == '-'
  }

  /** The characters a normalised slug is made of. */
  predicate SlugChar(c: char) {
    IsLower(c) || IsDigit(c) || c == '-'
  }

  /** No hyphen at either end and no two hyphens in a row. */
  predicate HyphenNormal(s: string) {
    && (|s| > 0 ==> s[0] != '-' && s[|s| - 1] != '-')
    && (forall i :: 0 <= i < |s| - 1 ==> s[i] != '-' || s[i + 1] != '-')
  }

  /** `filter(None, parts)`: the non-empty pieces, in order. */
  function NonEmpty(parts: seq<string>): (r: seq<string>)
    ensures forall k :: 0 <= k < |r| ==> r[k] != "" && r[k] in parts
    ensures (forall k :: 0 <= k < |parts| ==> parts[k] != "") ==> r == parts
    decreases |parts|
  {
    if |parts| == 0 then []
    else
      var rest := NonEmpty(parts[1..]);
      if parts[0] == "" then rest
      else
        assert parts == [parts[0]] + parts[1..];
        [parts[0]] + rest
  }

  /** The first three steps, up to the character filter. */
  function Cleaned(title: string): (s: string)
    ensures forall c :: c in s ==> SlugChar(c)
  {
    var lowered := ReplaceChar(ToLower(title), ' ', '-');
    assert forall c :: c in lowered ==> !IsUpper(c);
    Filter(lowered, KeepChar)
  }

  /** The slug `fix_course_slugs` writes for a title. */
  function FixSlug(title: string): (slug: string)
    ensures forall c :: c in slug ==> SlugChar(c)
    ensures HyphenNormal(slug)
  {
    var parts := NonEmpty(Split(Cleaned(title), '-'));
    JoinNormal(parts);
    Join(parts, '-')
  }

  /** Joining non-empty, hyphen-free pieces with hyphens gives a
      hyphen-normal string. */
  lemma {:induction false} JoinNormal(parts: seq<string>)
    requires forall k :: 0 <= k < |parts| ==> parts[k] != "" && '-' !in parts[k]
    ensures HyphenNormal(Join(parts, '-'))
    ensures |parts| > 0 ==> Join(parts, '-') != ""
    decreases |parts|
  {
    if |parts| > 1 {
      var p := parts[0];
      var rest := parts[1..];
      JoinNormal(rest);
      JoinCons(p, rest, '-');
      var s := Join(parts, '-');
      var t := Join(rest, '-');
      assert s == p + "-" + t;
      assert p[0] != '-' && p[|p| - 1] != '-' && t[0] != '-';
      forall i | 0 <= i < |s| - 1
        ensures s[i] != '-' || s[i + 1] != '-'
      {
        if i < |p| - 1 {
          assert s[i] == p[i];
        } else if i == |p| - 1 {
          assert s[i] == p[|p| - 1];
        } else if i == |p| {
          assert s[i + 1] == t[0];
        } else {
          assert s[i] == t[i - |p| - 1] && s[i + 1] == t[i - |p|];
        }
      }
    } else if |parts| == 1 {
      assert parts[0][0] in parts[0];
      assert parts[0][|parts[0]| - 1] in parts[0];
    }
  }

  /** A slug made of slug characters passes the first three steps
      unchanged. */
  lemma CleanedSlug(s: string)
    requires forall c :: c in s ==> SlugChar(c)
    ensures Cleaned(s) == s
  {
    assert forall i :: 0 <= i < |s| ==> SlugChar(s[i]);
    assert ToLower(s) == s;
    assert ReplaceChar(s, ' ', '-') == s;
    FilterKeepsAll(s, KeepChar);
  }

  /** Running the normalisation on its own output changes nothing. */
  lemma FixSlugIdempotent(title: string)
    ensures FixSlug(FixSlug(title)) == FixSlug(title)
  {
    var slug := FixSlug(title);
    var parts := NonEmpty(Split(Cleaned(title), '-'));
    CleanedSlug(slug);
    if |parts| == 0 {
      assert slug == "";
      assert Split(slug, '-') == [""];
    } else {
      SplitJoin(parts, '-');
    }
  }

  /** A title without letters or digits gives the empty slug. */
  lemma NoAlnumGivesEmpty(title: string)
    requires forall i :: 0 <= i < |title| ==> !IsAlnum(title[i])
    ensures FixSlug(title) == ""
  {
    var s := Cleaned(title);
    assert forall c :: c in s ==> c == '-' by {
      var lower := ToLower(title);
      var lowered := ReplaceChar(lower, ' ', '-');
      assert forall i :: 0 <= i < |lower| ==> lower[i] == title[i];
      assert forall i :: 0 <= i < |lowered| ==> !IsAlnum(lowered[i]);
      assert forall c :: c in lowered ==> !IsAlnum(c);
    }
    AllHyphensSplitEmpty(s);
  }

  /** Splitting a string of hyphens gives only empty pieces. */
  lemma {:induction false} AllHyphensSplitEmpty(s: string)
    requires forall c :: c in s ==> c == '-'
    ensures NonEmpty(Split(s, '-')) == []
    decreases |s|
  {
    if |s| > 0 {
      assert s[0] in s;
      assert IndexOf(s, '-') == 0;
      assert forall c :: c in s[1..] ==> c in s;
      assert Split(s, '-') == [""] + Split(s[1..], '-');
      AllHyphensSplitEmpty(s[1..]);
    } else {
      assert Split(s, '-') == [""];
    }
  }

  // ---------------------------------------------------------------------
  // What the normalisation means
  // ---------------------------------------------------------------------

  /** `filter(None, …)` distributes over concatenation and keeps a single
      piece exactly when it is non-empty. */
  lemma {:induction false} NonEmptyAppend(a: seq<string>, b: seq<string>)
    ensures NonEmpty(a + b) == NonEmpty(a) + NonEmpty(b)
    ensures NonEmpty([]) == [] && (forall p :: NonEmpty([p]) == if p == "" then [] else [p])
    decreases |a|
  {
    if |a| > 0 {
      assert (a + b)[0] == a[0] && (a + b)[1..] == a[1..] + b;
      NonEmptyAppend(a[1..], b);
    } else {
      assert a + b == b;
    }
  }

  /** The first three steps character by character: a letter or digit is
      kept lower-cased, a space or hyphen becomes a hyphen, anything else is
      dropped. */
  lemma CleanedChar(c: char)
    ensures Cleaned([c]) == if IsAlnum(c) then [LowerChar(c)] else if c == ' ' || c == '-' then "-" else ""
  {
    var lowered := ReplaceChar(ToLower([c]), ' ', '-');
    assert lowered == [if c == ' ' then '-' else LowerChar(c)];
  }

  lemma CleanedAppend(a: string, b: string)
    ensures Cleaned(a + b) == Cleaned(a) + Cleaned(b)
  {
    ToLowerAppend(a, b);
    ReplaceCharAppend(ToLower(a), ToLower(b), ' ', '-');
    FilterAppend(ReplaceChar(ToLower(a), ' ', '-'), ReplaceChar(ToLower(b), ' ', '-'), KeepChar);
  }

  /** The first three steps keep every letter and digit, lower-cased and in
      order. */
  lemma CleanedKeepsAlnum(title: string)
    ensures Filter(Cleaned(title), IsAlnum) == Filter(ToLower(title), IsAlnum)
  {
    var lowered := ReplaceChar(ToLower(title), ' ', '-');
    FilterFilter(lowered, KeepChar, IsAlnum);
    FilterReplace(ToLower(title), ' ', '-', IsAlnum);
  }

  /** Joining pieces with a character the filter drops filters each piece. */
  lemma FilterJoinCons(p: string, rest: seq<string>, sep: char, q: char -> bool)
    requires !q(sep)
    ensures Filter(Join([p] + rest, sep), q) == Filter(p, q) + Filter(Join(rest, sep), q)
  {
    if |rest| == 0 {
      assert [p] + rest == [p];
    } else {
      JoinCons(p, rest, sep);
      FilterAppend(p + [sep], Join(rest, sep), q);
      FilterAppend(p, [sep], q);
    }
  }

  /** Dropping the empty pieces before a hyphen join loses no letter or
      digit. */
  lemma {:induction false} FilterJoinNonEmpty(parts: seq<string>)
    ensures Filter(Join(NonEmpty(parts), '-'), IsAlnum) == Filter(Join(parts, '-'), IsAlnum)
    decreases |parts|
  {
    if |parts| > 0 {
      var p := parts[0];
      var rest := parts[1..];
      assert parts == [p] + rest;
      FilterJoinNonEmpty(rest);
      FilterJoinCons(p, rest, '-', IsAlnum);
      if p != "" {
        FilterJoinCons(p, NonEmpty(rest), '-', IsAlnum);
      }
    }
  }

  /** The slug holds exactly the letters and digits of the title,
      lower-cased and in their original order. */
  lemma FixSlugKeepsAlnum(title: string)
    ensures Filter(FixSlug(title), IsAlnum) == Filter(ToLower(title), IsAlnum)
  {
    var c := Cleaned(title);
    FilterJoinNonEmpty(Split(c, '-'));
    JoinSplit(c, '-');
    CleanedKeepsAlnum(title);
  }

  /** What follows an inner hyphen of a hyphen-normal string is again
      non-empty and hyphen-normal. */
  lemma HyphenNormalAfter(s: string, i: nat)
    requires HyphenNormal(s) && i < |s| && s[i] == '-'
    ensures i + 1 < |s| && HyphenNormal(s[i + 1..])
  {
    var tail := s[i + 1..];
    assert i + 1 < |s|;
    assert tail[0] == s[i + 1] != '-';
    assert tail[|tail| - 1] == s[|s| - 1];
    forall j | 0 <= j < |tail| - 1
      ensures tail[j] != '-' || tail[j + 1] != '-'
    {
      assert tail[j] == s[i + 1 + j] && tail[j + 1] == s[i + 1 + j + 1];
    }
  }

  /** Splitting a non-empty hyphen-normal string on hyphens gives no empty
      piece. */
  lemma {:induction false} SplitNormalNonEmpty(s: string)
    requires s != "" && HyphenNormal(s)
    ensures forall k :: 0 <= k < |Split(s, '-')| ==> Split(s, '-')[k] != ""
    decreases |s|
  {
    var i := IndexOf(s, '-');
    if i < |s| {
      var tail := s[i + 1..];
      HyphenNormalAfter(s, i);
      SplitNormalNonEmpty(tail);
      assert s[0] != '-';
      SplitCons(s, '-');
      NonEmptyCons(s[..i], Split(tail, '-'));
    } else {
      assert Split(s, '-') == [s];
    }
  }

  /** A split at a present separator is the first piece followed by the
      split of what comes after it. */
  lemma SplitCons(s: string, sep: char)
    requires sep in s
    ensures Split(s, sep) == [s[..IndexOf(s, sep)]] + Split(s[IndexOf(s, sep) + 1..], sep)
  {
  }

  lemma NonEmptyCons(head: string, rest: seq<string>)
    requires head != "" && forall k :: 0 <= k < |rest| ==> rest[k] != ""
    ensures forall k :: 0 <= k < |[head] + rest| ==> ([head] + rest)[k] != ""
  {
  }

  /** A title that already is a normalised slug is left as it is. */
  lemma FixSlugFixedPoint(s: string)
    requires forall c :: c in s ==> SlugChar(c)
    requires HyphenNormal(s)
    ensures FixSlug(s) == s
  {
    CleanedSlug(s);
    if s == "" {
      assert Split(s, '-') == [""];
    } else {
      SplitNormalNonEmpty(s);
      JoinSplit(s, '-');
    }
  }
}

=== FILE: strings.dfy ===
/** The handful of JavaScript and Python string primitives the application
    leans on, each written out so that its edge cases are explicit:
    `split` on one separator character, `join`, JavaScript `trim`, Python
    `rstrip` of one character, `startsWith`, substring containment, ASCII
    case mapping and the decimal printing of integers. Case mapping and the
    character classes are ASCII only. */
module Strings {

  // ---------------------------------------------------------------------
  // Character classes (ASCII)
  // ---------------------------------------------------------------------

  predicate IsUpper(c: char) { 'A' <= c <= 'Z' }
  predicate IsLower(c: char) { 'a' <= c <= 'z' }
  predicate IsDigit(c: char) { '0' <= c <= '9' }
  predicate IsAlnum(c: char) { IsUpper(c) || IsLower(c) || IsDigit(c) }

  /** The characters JavaScript's `String.prototype.trim` removes: the
      white-space and line-terminator code points of ECMA-262. */
  predicate IsJsSpace(c: char) {
    || c == '\t' || c == '\n' || c == '\U{000B}' || c == '\U{000C}' || c == '\r'
    || c == ' ' || c == '\U{00A0}' || c == '\U{1680}'
    || ('\U{2000}' <= c <= '\U{200A}')
    || c == '\U{2028}' || c == '\U{2029}' || c == '\U{202F}' || c == '\U{205F}'
    || c == '\U{3000}' || c == '\U{FEFF}'
  }

  function LowerChar(c: char): char {
    if IsUpper(c) then (c as int + 32) as char else c
  }

  function UpperChar(c: char): char {
    if IsLower(c) then (c as int - 32) as char else c
  }

  /** `toLowerCase()` / `str.lower()` restricted to ASCII letters. */
  function ToLower(s: string): (r: string)
    ensures |r| == |s|
    ensures forall i :: 0 <= i < |s| ==> !IsUpper(r[i])
    ensures forall i :: 0 <= i < |s| && !IsUpper(s[i]) ==> r[i] == s[i]
  {
    seq(|s|, i requires 0 <= i < |s| => LowerChar(s[i]))
  }

  /** Every occurrence of `a` replaced by `b` (JavaScript `replace(/a/g, b)`,
      Python `replace(a, b)` for single characters). */
  function ReplaceChar(s: string, a: char, b: char): (r: string)
    ensures |r| == |s|
    ensures a != b ==> a !in r
    ensures forall i :: 0 <= i < |s| && s[i] != a ==> r[i] == s[i]
    ensures forall i :: 0 <= i < |s| && s[i] == a ==> r[i] == b
  {
    seq(|s|, i requires 0 <= i < |s| => if s[i] == a then b else s[i])
  }

  /** The characters of `s` that satisfy `keep`, in order. */
  function Filter(s: string, keep: char -> bool): (r: string)
    ensures |r| <= |s|
    ensures forall i :: 0 <= i < |r| ==> keep(r[i])
    ensures forall c :: c in r ==> c in s
  {
    if |s| == 0 then "" else (if keep(s[0]) then [s[0]] else "") + Filter(s[1..], keep)
  }

  lemma {:induction false} FilterAppend(a: string, b: string, keep: char -> bool)
    ensures Filter(a + b, keep) == Filter(a, keep) + Filter(b, keep)
    decreases |a|
  {
    if |a| == 0 {
      assert a + b == b;
    } else {
      assert (a + b)[1..] == a[1..] + b;
      FilterAppend(a[1..], b, keep);
    }
  }

  /** Filtering a string whose characters all pass changes nothing. */
  lemma {:induction false} FilterKeepsAll(s: string, keep: char -> bool)
    requires forall i :: 0 <= i < |s| ==> keep(s[i])
    ensures Filter(s, keep) == s
    decreases |s|
  {
    if |s| > 0 {
      FilterKeepsAll(s[1..], keep);
      assert [s[0]] + s[1..] == s;
    }
  }

  /** Filtering by a weaker test first and a stronger one after is
      filtering by the stronger one. */
  lemma {:induction false} FilterFilter(s: string, p: char -> bool, q: char -> bool)
    requires forall c :: q(c) ==> p(c)
    ensures Filter(Filter(s, p), q) == Filter(s, q)
    decreases |s|
  {
    if |s| > 0 {
      var head: string := if p(s[0]) then [s[0]] else "";
      FilterAppend(head, Filter(s[1..], p), q);
      FilterFilter(s[1..], p, q);
    }
  }

  /** Replacing one dropped character by another leaves the filtered string
      unchanged. */
  lemma {:induction false} FilterReplace(s: string, a: char, b: char, q: char -> bool)
    requires !q(a) && !q(b)
    ensures Filter(ReplaceChar(s, a, b), q) == Filter(s, q)
    decreases |s|
  {
    if |s| > 0 {
      var r := ReplaceChar(s, a, b);
      assert r[1..] == ReplaceChar(s[1..], a, b);
      FilterReplace(s[1..], a, b, q);
    }
  }

  /** Case mapping works character by character. */
  lemma ToLowerAppend(a: string, b: string)
    ensures ToLower(a + b) == ToLower(a) + ToLower(b)
  {
  }

  lemma ReplaceCharAppend(s: string, t: string, a: char, b: char)
    ensures ReplaceChar(s + t, a, b) == ReplaceChar(s, a, b) + ReplaceChar(t, a, b)
  {
  }

  // ---------------------------------------------------------------------
  // Prefixes, substrings, positions
  // ---------------------------------------------------------------------

  predicate StartsWith(s: string, prefix: string) {
    |prefix| <= |s| && s[..|prefix|] == prefix
  }

  predicate EndsWith(s: string, suffix: string) {
    |suffix| <= |s| && s[|s| - |suffix|..] == suffix
  }

  /** `sub` occurs in `s` starting at position `i`. */
  predicate SliceAt(s: string, sub: string, i: int) {
    0 <= i && i + |sub| <= |s| && s[i..i + |sub|] == sub
  }

  /** Substring containment (JavaScript `includes`, Python `in`). */
  predicate Contains(s: string, sub: string)
    decreases |s|
  {
    StartsWith(s, sub) || (|s| > 0 && Contains(s[1..], sub))
  }

  /** `Contains` holds exactly when `sub` occurs at some position of `s`. */
  lemma {:induction false} ContainsIff(s: string, sub: string)
    ensures Contains(s, sub) <==> exists i :: SliceAt(s, sub, i)
    decreases |s|
  {
    if StartsWith(s, sub) {
      assert SliceAt(s, sub, 0);
    } else if |s| > 0 {
      ContainsIff(s[1..], sub);
      if exists i :: SliceAt(s, sub, i) {
        var i :| SliceAt(s, sub, i);
        assert i != 0;
        assert SliceAt(s[1..], sub, i - 1);
      }
      if Contains(s[1..], sub) {
        var i :| SliceAt(s[1..], sub, i);
        assert SliceAt(s, sub, i + 1);
      }
    }
  }

  /** A string contains every one of its slices. */
  lemma ContainsSlice(s: string, i: nat, j: nat)
    requires i <= j <= |s|
    ensures Contains(s, s[i..j])
  {
    ContainsIff(s, s[i..j]);
    assert SliceAt(s, s[i..j], i);
  }

  /** Position of the first `c` in `s`, or `|s|` when there is none. */
  function IndexOf(s: string, c: char): (i: nat)
    ensures i <= |s|
    ensures i < |s| ==> s[i] == c
    ensures forall j :: 0 <= j < i ==> s[j] != c
    ensures i == |s| <==> c !in s
    decreases |s|
  {
    if |s| == 0 then 0 else if s[0] == c then 0 else 1 + IndexOf(s[1..], c)
  }

  // ---------------------------------------------------------------------
  // split / join
  // ---------------------------------------------------------------------

  /** `s.split(sep)` for a one-character separator. JavaScript and Python
      agree here: the pieces between separators, empty pieces included, and
      `[""]` for the empty string. */
  function Split(s: string, sep: char): (parts: seq<string>)
    ensures |parts| >= 1
    ensures forall k :: 0 <= k < |parts| ==> sep !in parts[k]
    ensures forall k, c :: 0 <= k < |parts| && c in parts[k] ==> c in s
    ensures parts[0] == s[..IndexOf(s, sep)]
    decreases |s|
  {
    var i := IndexOf(s, sep);
    if i == |s| then [s]
    else
      assert forall c :: c in s[..i] || c in s[i + 1..] ==> c in s;
      [s[..i]] + Split(s[i + 1..], sep)
  }

  /** `sep.join(parts)`. */
  function Join(parts: seq<string>, sep: char): (s: string)
    ensures forall c :: c in s ==> c == sep || exists k :: 0 <= k < |parts| && c in parts[k]
    decreases |parts|
  {
    if |parts| == 0 then ""
    else if |parts| == 1 then parts[0]
    else parts[0] + [sep] + Join(parts[1..], sep)
  }

  lemma JoinCons(a: string, rest: seq<string>, sep: char)
    requires |rest| >= 1
    ensures Join([a] + rest, sep) == a + [sep] + Join(rest, sep)
  {
    assert ([a] + rest)[1..] == rest;
  }

  /** Joining the pieces of a split with the same separator gives back the
      original string. */
  lemma {:induction false} JoinSplit(s: string, sep: char)
    ensures Join(Split(s, sep), sep) == s
    decreases |s|
  {
    var i := IndexOf(s, sep);
    if i < |s| {
      var tail := s[i + 1..];
      var rest := Split(tail, sep);
      assert Split(s, sep) == [s[..i]] + rest;
      JoinSplit(tail, sep);
      JoinCons(s[..i], rest, sep);
      assert Join(Split(s, sep), sep) == s[..i] + [sep] + tail;
      Around(s, i);
    } else {
      assert Split(s, sep) == [s];
    }
  }

  lemma Around(s: string, i: nat)
    requires i < |s|
    ensures s[..i] + [s[i]] + s[i + 1..] == s
  {
  }

  /** Splitting a join of separator-free pieces gives the pieces back. */
  lemma {:induction false} SplitJoin(parts: seq<string>, sep: char)
    requires |parts| >= 1
    requires forall k :: 0 <= k < |parts| ==> sep !in parts[k]
    ensures Split(Join(parts, sep), sep) == parts
    decreases |parts|
  {
    var p := parts[0];
    if |parts| == 1 {
      assert IndexOf(p, sep) == |p|;
    } else {
      var rest := parts[1..];
      JoinCons(p, rest, sep);
      var s := Join(parts, sep);
      assert parts == [p] + rest;
      assert s == p + [sep] + Join(rest, sep);
      assert s[|p|] == sep;
      assert forall j :: 0 <= j < |p| ==> s[j] == p[j];
      assert IndexOf(s, sep) == |p|;
      assert s[..|p|] == p;
      assert s[|p| + 1..] == Join(rest, sep);
      SplitJoin(rest, sep);
    }
  }

  /** The second piece of a split, when there is one, runs from just after
      the first separator up to the next one. */
  lemma SplitSecond(s: string, sep: char)
    requires sep in s
    ensures var i := IndexOf(s, sep);
            var rest := s[i + 1..];
            |Split(s, sep)| >= 2 && Split(s, sep)[1] == rest[..IndexOf(rest, sep)]
  {
  }

  // ---------------------------------------------------------------------
  // Trimming
  // ---------------------------------------------------------------------

  /** The first position at or after `i` that is not white space. */
  function SkipSpace(s: string, i: nat): (n: nat)
    requires i <= |s|
    ensures i <= n <= |s|
    ensures forall k :: i <= k < n ==> IsJsSpace(s[k])
    ensures n < |s| ==> !IsJsSpace(s[n])
    decreases |s| - i
  {
    if i < |s| && IsJsSpace(s[i]) then SkipSpace(s, i + 1) else i
  }

  /** The end of `s[lo..j]` once its trailing white space is cut off. */
  function CutSpace(s: string, lo: nat, j: nat): (n: nat)
    requires lo <= j <= |s|
    ensures lo <= n <= j
    ensures forall k :: n <= k < j ==> IsJsSpace(s[k])
    ensures n > lo ==> !IsJsSpace(s[n - 1])
    decreases j
  {
    if j > lo && IsJsSpace(s[j - 1]) then CutSpace(s, lo, j - 1) else j
  }

  /** `r` sits at position `i` of `s` with only white space before and after it. */
  predicate TrimmedAt(s: string, r: string, i: int) {
    && SliceAt(s, r, i)
    && (forall k :: 0 <= k < i ==> IsJsSpace(s[k]))
    && (forall k :: i + |r| <= k < |s| ==> IsJsSpace(s[k]))
  }

  /** JavaScript `trim()`: white space removed from both ends, the middle
      untouched; only an all-white-space string trims to "". */
  function Trim(s: string): (r: string)
    ensures exists i :: TrimmedAt(s, r, i)
    ensures |r| > 0 ==> !IsJsSpace(r[0]) && !IsJsSpace(r[|r| - 1])
    ensures r == "" <==> forall k :: 0 <= k < |s| ==> IsJsSpace(s[k])
  {
    var a := SkipSpace(s, 0);
    var b := CutSpace(s, a, |s|);
    assert TrimmedAt(s, s[a..b], a);
    s[a..b]
  }

  /** Trimming twice is trimming once. */
  lemma TrimIdempotent(s: string)
    ensures Trim(Trim(s)) == Trim(s)
  {
    var r := Trim(s);
    if |r| > 0 {
      assert SkipSpace(r, 0) == 0;
      assert CutSpace(r, 0, |r|) == |r|;
      assert r[0..|r|] == r;
    }
  }

  /** Python `s.rstrip(c)`: every trailing `c` removed. */
  function RStrip(s: string, c: char): (r: string)
    ensures |r| <= |s| && r == s[..|r|]
    ensures forall k :: |r| <= k < |s| ==> s[k] == c
    ensures |r| > 0 ==> r[|r| - 1] != c
    decreases |s|
  {
    if |s| > 0 && s[|s| - 1] == c then RStrip(s[..|s| - 1], c) else s
  }

  // ---------------------------------------------------------------------
  // Decimal printing of integers (Python `str(n)`, a JavaScript template
  // of an integral number)
  // ---------------------------------------------------------------------

  function DigitChar(d: nat): char
    requires d < 10
  {
    ('0' as int + d) as char
  }

  function NatToString(n: nat): (r: string)
    ensures |r| >= 1
    ensures forall i :: 0 <= i < |r| ==> IsDigit(r[i])
    ensures r[0] == '0' ==> n == 0
    decreases n
  {
    if n < 10 then [DigitChar(n)] else NatToString(n / 10) + [DigitChar(n % 10)]
  }

  function IntToString(n: int): string {
    if n < 0 then "-" + NatToString(-n) else NatToString(n)
  }

  /** The number a string of decimal digits denotes. */
  function DigitsValue(s: string): nat
    requires forall i :: 0 <= i < |s| ==> IsDigit(s[i])
    decreases |s|
  {
    if |s| == 0 then 0
    else
      var d := s[|s| - 1] as int - '0' as int;
      assert IsDigit(s[|s| - 1]);
      DigitsValue(s[..|s| - 1]) * 10 + d
  }

  /** Printing a natural number and reading the digits back gives the number. */
  lemma {:induction false} NatToStringRoundTrip(n: nat)
    ensures DigitsValue(NatToString(n)) == n
    decreases n
  {
    var r := NatToString(n);
    if n >= 10 {
      NatToStringRoundTrip(n / 10);
      assert r[..|r| - 1] == NatToString(n / 10);
    }
  }
}

=== FILE: supabase_rest.dfy ===
/** The hand-rolled database client of the backend (backend/main.py): the
    base-URL normalisation, the query builder's parameter and method
    bookkeeping, what `execute` puts on the wire for each method, and the
    choice of API key at start-up. The HTTP exchange itself and the reply
    handling are not modelled. */
module SupabaseRest {
  import opened Optional
  import opened Strings

  /** A JSON value as far as the payloads need one. */
  datatype Value = VStr(s: string) | VNum(r: real) | VBool(b: bool) | VNull

  /** An insertion-ordered dictionary, as Python's `dict`. */
  type Dict<V> = seq<(string, V)>

  datatype HttpMethod = GET | POST | PATCH | DELETE

  datatype Client = Client(url: string, key: string)

  datatype QueryBuilder = QueryBuilder(
    tableUrl: string,
    params: Dict<string>,
    body: Option<Dict<Value>>,
    verb: HttpMethod)

  // ---------------------------------------------------------------------
  // Ordered dictionaries
  // ---------------------------------------------------------------------

  predicate DistinctKeys<V>(d: Dict<V>) {
    forall i, j :: 0 <= i < j < |d| ==> d[i].0 != d[j].0
  }

  function Keys<V>(d: Dict<V>): (ks: seq<string>)
    ensures |ks| == |d| && forall i :: 0 <= i < |d| ==> ks[i] == d[i].0
  {
    seq(|d|, i requires 0 <= i < |d| => d[i].0)
  }

  /** Position of `k`, or `|d|`. */
  function KeyIndex<V>(d: Dict<V>, k: string): (i: nat)
    ensures i <= |d|
    ensures i < |d| ==> d[i].0 == k
    ensures forall j :: 0 <= j < i ==> d[j].0 != k
    decreases |d|
  {
    if |d| == 0 then 0 else if d[0].0 == k then 0 else 1 + KeyIndex(d[1..], k)
  }

  /** `d.get(k)`. */
  function Get<V>(d: Dict<V>, k: string): (r: Option<V>)
    ensures r.None? <==> forall i :: 0 <= i < |d| ==> d[i].0 != k
    ensures r.Some? ==> (k, r.value) in d
  {
    var i := KeyIndex(d, k);
    if i < |d| then Some(d[i].1) else None
  }

  /** `d[k] = v`: an existing key keeps its position, a new one goes last. */
  function Put<V>(d: Dict<V>, k: string, v: V): (r: Dict<V>)
    requires DistinctKeys(d)
    ensures DistinctKeys(r)
    ensures Get(r, k) == Some(v)
    ensures forall k' :: k' != k ==> Get(r, k') == Get(d, k')
    ensures Get(d, k).Some? ==> |r| == |d| && Keys(r) == Keys(d)
    ensures Get(d, k).None? ==> r == d + [(k, v)]
  {
    var i := KeyIndex(d, k);
    if i < |d| then
      var r := d[i := (k, v)];
      assert forall k' :: k' != k ==> KeyIndex(r, k') == KeyIndex(d, k') by {
        forall k' | k' != k ensures KeyIndex(r, k') == KeyIndex(d, k') {
          KeyIndexSameKeys(r, d, k');
        }
      }
      assert Keys(r) == Keys(d);
      KeyIndexDistinct(r, i);
      r
    else
      var r := d + [(k, v)];
      forall k' | k' != k ensures Get(r, k') == Get(d, k') {
        KeyIndexAppend(d, (k, v), k');
      }
      KeyIndexAppend(d, (k, v), k);
      r
  }

  lemma {:induction false} KeyIndexSameKeys<V>(a: Dict<V>, b: Dict<V>, k: string)
    requires |a| == |b| && forall i :: 0 <= i < |a| ==> a[i].0 == b[i].0
    ensures KeyIndex(a, k) == KeyIndex(b, k)
    decreases |a|
  {
    if |a| > 0 {
      KeyIndexSameKeys(a[1..], b[1..], k);
    }
  }

  lemma KeyIndexDistinct<V>(d: Dict<V>, i: nat)
    requires DistinctKeys(d) && i < |d|
    ensures KeyIndex(d, d[i].0) == i
  {
  }

  lemma {:induction false} KeyIndexAppend<V>(d: Dict<V>, e: (string, V), k: string)
    ensures KeyIndex(d + [e], k) == (if KeyIndex(d, k) < |d| then KeyIndex(d, k) else if e.0 == k then |d| else |d| + 1)
    decreases |d|
  {
    if |d| > 0 {
      assert (d + [e])[1..] == d[1..] + [e];
      KeyIndexAppend(d[1..], e, k);
    }
  }

  // ---------------------------------------------------------------------
  // The client
  // ---------------------------------------------------------------------

  /** `SupabaseClient(url, key)`: every trailing '/' of the URL removed. */
  function NewClient(url: string, key: string): (c: Client)
    ensures c.key == key
    ensures StartsWith(url, c.url)
    ensures forall i :: |c.url| <= i < |url| ==> url[i] == '/'
    ensures |c.url| > 0 ==> c.url[|c.url| - 1] != '/'
  {
    Client(RStrip(url, '/'), key)
  }

  /** Normalising an already normalised URL changes nothing. */
  lemma NormaliseIdempotent(url: string)
    ensures NewClient(NewClient(url, "").url, "").url == NewClient(url, "").url
  {
  }

  /** Trailing slashes do not matter. */
  lemma TrailingSlashesIgnored(url: string, n: nat)
    ensures NewClient(url + seq(n, _ => '/'), "").url == NewClient(url, "").url
    decreases n
  {
    var longer := url + seq(n, _ => '/');
    if n > 0 {
      assert longer[|longer| - 1] == '/';
      assert longer[..|longer| - 1] == url + seq(n - 1, _ => '/');
      TrailingSlashesIgnored(url, n - 1);
    } else {
      assert longer == url;
    }
  }

  /** `client.table(name)`: a fresh GET builder for the table. */
  function Table(c: Client, name: string): (b: QueryBuilder)
    ensures b.tableUrl == c.url + "/rest/v1/" + name
    ensures b.params == [] && b.body.None? && b.verb == GET
  {
    QueryBuilder(c.url + "/rest/v1/" + name, [], None, GET)
  }

  // ---------------------------------------------------------------------
  // The builder
  // ---------------------------------------------------------------------

  predicate WellFormed(b: QueryBuilder) {
    DistinctKeys(b.params)
  }

  function Select(b: QueryBuilder, columns: string): (r: QueryBuilder)
    requires WellFormed(b)
    ensures WellFormed(r) && r.verb == GET && Get(r.params, "select") == Some(columns)
    ensures forall k :: k != "select" ==> Get(r.params, k) == Get(b.params, k)
    ensures r.tableUrl == b.tableUrl && r.body == b.body
  {
    b.(verb := GET, params := Put(b.params, "select", columns))
  }

  /** `eq(column, value)`; `value` is the text Python's formatting gives. */
  function Eq(b: QueryBuilder, column: string, value: string): (r: QueryBuilder)
    requires WellFormed(b)
    ensures WellFormed(r) && Get(r.params, column) == Some("eq." + value)
    ensures forall k :: k != column ==> Get(r.params, k) == Get(b.params, k)
    ensures r.tableUrl == b.tableUrl && r.body == b.body && r.verb == b.verb
  {
    b.(params := Put(b.params, column, "eq." + value))
  }

  function OrderSpec(column: string, desc: bool): string {
    column + "." + (if desc then "desc" else "asc")
  }

  /** `order(column, desc)`: appended to any earlier ordering after a comma. */
  function Order(b: QueryBuilder, column: string, desc: bool): (r: QueryBuilder)
    requires WellFormed(b)
    ensures WellFormed(r)
    ensures Get(b.params, "order").None? ==> Get(r.params, "order") == Some(OrderSpec(column, desc))
    ensures Get(b.params, "order").Some? ==>
              Get(r.params, "order") == Some(Get(b.params, "order").value + "," + OrderSpec(column, desc))
    ensures forall k :: k != "order" ==> Get(r.params, k) == Get(b.params, k)
    ensures r.tableUrl == b.tableUrl && r.body == b.body && r.verb == b.verb
  {
    var spec := OrderSpec(column, desc);
    var prev := Get(b.params, "order");
    b.(params := Put(b.params, "order", if prev.Some? then prev.value + "," + spec else spec))
  }

  /** `insert(data)`: a POST carrying the data; the filters are kept. */
  function Insert(b: QueryBuilder, data: Dict<Value>): (r: QueryBuilder)
    ensures r.verb == POST && r.body == Some(data)
    ensures r.params == b.params && r.tableUrl == b.tableUrl
  {
    b.(verb := POST, body := Some(data))
  }

  /** `update(data)`: a PATCH carrying the data; the filters are kept. */
  function Update(b: QueryBuilder, data: Dict<Value>): (r: QueryBuilder)
    ensures r.verb == PATCH && r.body == Some(data)
    ensures r.params == b.params && r.tableUrl == b.tableUrl
  {
    b.(verb := PATCH, body := Some(data))
  }

  /** `delete()`: only the method changes; filters and any body are kept. */
  function Delete(b: QueryBuilder): (r: QueryBuilder)
    ensures r.verb == DELETE
    ensures r.params == b.params && r.tableUrl == b.tableUrl && r.body == b.body
  {
    b.(verb := DELETE)
  }

  /** One builder call. */
  datatype Call =
    | SelectCall(columns: string)
    | EqCall(column: string, value: string)
    | OrderCall(column: string, desc: bool)
    | InsertCall(data: Dict<Value>)
    | UpdateCall(data: Dict<Value>)
    | DeleteCall

  function Apply(b: QueryBuilder, c: Call): (r: QueryBuilder)
    requires WellFormed(b)
    ensures WellFormed(r) && r.tableUrl == b.tableUrl
  {
    match c
    case SelectCall(cols) => Select(b, cols)
    case EqCall(col, v) => Eq(b, col, v)
    case OrderCall(col, d) => Order(b, col, d)
    case InsertCall(data) => Insert(b, data)
    case UpdateCall(data) => Update(b, data)
    case DeleteCall => Delete(b)
  }

  /** A chain of calls, left to right. */
  function ApplyAll(b: QueryBuilder, calls: seq<Call>): (r: QueryBuilder)
    requires WellFormed(b)
    ensures WellFormed(r) && r.tableUrl == b.tableUrl
    decreases |calls|
  {
    if |calls| == 0 then b else Apply(ApplyAll(b, calls[..|calls| - 1]), calls[|calls| - 1])
  }

  /** The method a call sets, if it sets one. */
  function MethodOf(c: Call): Option<HttpMethod> {
    match c
    case SelectCall(_) => Some(GET)
    case InsertCall(_) => Some(POST)
    case UpdateCall(_) => Some(PATCH)
    case DeleteCall => Some(DELETE)
    case _ => None
  }

  /** The method set by the last select, insert, update or delete of a
      chain, or `initial` when there is none. */
  function LastMethod(calls: seq<Call>, initial: HttpMethod): HttpMethod
    decreases |calls|
  {
    if |calls| == 0 then initial
    else
      var m := MethodOf(calls[|calls| - 1]);
      if m.Some? then m.value else LastMethod(calls[..|calls| - 1], initial)
  }

  /** The method a chain leaves on the builder is the one its last
      method-setting call chose. */
  lemma {:induction false} LastMethodWins(b: QueryBuilder, calls: seq<Call>)
    requires WellFormed(b)
    ensures ApplyAll(b, calls).verb == LastMethod(calls, b.verb)
    decreases |calls|
  {
    if |calls| > 0 {
      LastMethodWins(b, calls[..|calls| - 1]);
    }
  }

  /** The `order` calls for a list of (column, descending) pairs. */
  function OrderCalls(specs: seq<(string, bool)>): (calls: seq<Call>)
    ensures |calls| == |specs|
    decreases |specs|
  {
    if |specs| == 0 then []
    else OrderCalls(specs[..|specs| - 1]) + [OrderCall(specs[|specs| - 1].0, specs[|specs| - 1].1)]
  }

  /** The texts those calls add to the ordering. */
  function OrderTexts(specs: seq<(string, bool)>): (texts: seq<string>)
    ensures |texts| == |specs|
    decreases |specs|
  {
    if |specs| == 0 then []
    else OrderTexts(specs[..|specs| - 1]) + [OrderSpec(specs[|specs| - 1].0, specs[|specs| - 1].1)]
  }

  /** A chain of `order` calls on a builder without an ordering yields the
      comma-joined specifications, in call order. */
  lemma {:induction false} OrdersAccumulate(b: QueryBuilder, specs: seq<(string, bool)>)
    requires WellFormed(b) && Get(b.params, "order").None? && |specs| >= 1
    ensures Get(ApplyAll(b, OrderCalls(specs)).params, "order") == Some(Join(OrderTexts(specs), ','))
    decreases |specs|
  {
    var n := |specs|;
    var calls := OrderCalls(specs);
    var init := specs[..n - 1];
    assert calls[..n - 1] == OrderCalls(init);
    if n > 1 {
      OrdersAccumulate(b, init);
      JoinSnoc(OrderTexts(init), OrderSpec(specs[n - 1].0, specs[n - 1].1), ',');
    } else {
      assert OrderTexts(specs) == [OrderSpec(specs[0].0, specs[0].1)];
    }
  }

  /** Joining with one more piece at the end. */
  lemma {:induction false} JoinSnoc(parts: seq<string>, last: string, sep: char)
    requires |parts| >= 1
    ensures Join(parts + [last], sep) == Join(parts, sep) + [sep] + last
    decreases |parts|
  {
    if |parts| == 1 {
      JoinCons(parts[0], [last], sep);
      assert parts + [last] == [parts[0]] + [last];
    } else {
      JoinSnoc(parts[1..], last, sep);
      JoinCons(parts[0], parts[1..] + [last], sep);
      JoinCons(parts[0], parts[1..], sep);
      assert parts + [last] == [parts[0]] + (parts[1..] + [last]);
      assert parts == [parts[0]] + parts[1..];
    }
  }

  // ---------------------------------------------------------------------
  // What `execute` sends
  // ---------------------------------------------------------------------

  /** One HTTP request: method, URL, query parameters and JSON body. */
  datatype Wire = Wire(verb: HttpMethod, url: string, query: Dict<string>, json: Option<Dict<Value>>)

  /** The dispatch of `execute`: a POST carries the body but no query
      parameters, a PATCH carries both, and a DELETE or GET carries the
      query parameters but no body. */
  function Sent(b: QueryBuilder): (w: Wire)
    ensures w.verb == b.verb && w.url == b.tableUrl
    ensures w.query == (if b.verb == POST then [] else b.params)
    ensures w.json == (if b.verb == POST || b.verb == PATCH then b.body else None)
  {
    match b.verb
    case POST => Wire(POST, b.tableUrl, [], b.body)
    case PATCH => Wire(PATCH, b.tableUrl, b.params, b.body)
    case DELETE => Wire(DELETE, b.tableUrl, b.params, None)
    case GET => Wire(GET, b.tableUrl, b.params, None)
  }

  /** The builder keeps filters and body across method changes, but the
      request drops them: an insert never sends a filter added before it,
      and a delete or select never sends a body, even one an earlier update
      left in the builder. */
  lemma SentDropsWhatTheMethodIgnores(b: QueryBuilder, data: Dict<Value>, column: string, value: string)
    requires WellFormed(b)
    ensures Sent(Insert(Eq(b, column, value), data)).query == []
    ensures Sent(Insert(Eq(b, column, value), data)).json == Some(data)
    ensures Sent(Delete(Update(b, data))).json.None?
    ensures Sent(Delete(Update(b, data))).query == b.params
    ensures Sent(Update(Eq(b, column, value), data)).query == Eq(b, column, value).params
  {
  }

  // ---------------------------------------------------------------------
  // Start-up: which key, and whether there is a client at all
  // ---------------------------------------------------------------------

  const Placeholder := "YOUR_SERVICE_ROLE_KEY"

  /** A service-role key counts when it is not the placeholder text and
      longer than 20 characters. */
  predicate UsableServiceKey(k: Option<string>) {
    k.Some? && k.value != "" && !Contains(k.value, Placeholder) && |k.value| > 20
  }

  predicate UsableAnonKey(k: Option<string>) {
    k.Some? && k.value != "" && |k.value| > 20
  }

  /** The service-role key when usable, else the anon key when usable, else
      none. */
  function SelectKey(service: Option<string>, anon: Option<string>): (key: Option<string>)
    ensures key.Some? ==> |key.value| > 20
    ensures key.Some? ==> key == service || key == anon
    ensures UsableServiceKey(service) ==> key == service
    ensures !UsableServiceKey(service) && UsableAnonKey(anon) ==> key == anon
    ensures key.None? <==> !UsableServiceKey(service) && !UsableAnonKey(anon)
  {
    if UsableServiceKey(service) then service
    else if UsableAnonKey(anon) then anon
    else None
  }

  /** The module-level client: present exactly when the URL is set and
      non-empty and a key was selected. */
  function StartupClient(url: Option<string>, service: Option<string>, anon: Option<string>): (c: Option<Client>)
    ensures c.Some? <==> Truthy(url) && SelectKey(service, anon).Some?
    ensures c.Some? ==> c.value == NewClient(url.value, SelectKey(service, anon).value)
  {
    var key := SelectKey(service, anon);
    if !Truthy(url) || key.None? then None else Some(NewClient(url.value, key.value))
  }

  /** A service key with the placeholder text in it is never usable,
      whatever its length. */
  lemma PlaceholderNeverUsed(prefix: string, suffix: string)
    ensures !UsableServiceKey(Some(prefix + Placeholder + suffix))
  {
    var k := prefix + Placeholder + suffix;
    ContainsSlice(k, |prefix|, |prefix| + |Placeholder|);
    assert k[|prefix|..|prefix| + |Placeholder|] == Placeholder;
  }
}

=== FILE: validate_route.dfy ===
/** The registration pre-check (app/api/auth/validate/route.ts): an email
    and a username are looked up among the profiles, email first. A lookup
    uses `.single()`, which yields a row only when exactly one profile
    matches; the profiles table is an input. */
module ValidateRoute {
  import opened Optional

  datatype Profile = Profile(id: string, email: string, username: string)

  /** The JSON body; a field that is absent or `null` is `None`. */
  datatype Body = Body(email: Option<string>, username: Option<string>)

  datatype Reply = Conflict(error: string) | Valid | CheckFailed(error: string)

  const MsgEmailTaken := "Email already registered. Please login."
  const MsgUsernameTaken := "Username already taken. Choose another."
  const MsgCheckFailed := "Validation check failed"

  function Status(r: Reply): int {
    match r
    case Conflict(_) => 409
    case Valid => 200
    case CheckFailed(_) => 500
  }

  /** How many entries equal `v`. */
  function Count(xs: seq<string>, v: string): (n: nat)
    ensures n <= |xs|
    ensures n == 0 <==> v !in xs
    ensures n == multiset(xs)[v]
    decreases |xs|
  {
    if |xs| == 0 then 0
    else
      assert xs == [xs[0]] + xs[1..];
      (if xs[0] == v then 1 else 0) + Count(xs[1..], v)
  }

  /** `v` sits at exactly one position of `xs`. */
  predicate UniqueAt(xs: seq<string>, v: string, i: int) {
    0 <= i < |xs| && xs[i] == v && forall j :: 0 <= j < |xs| && xs[j] == v ==> j == i
  }

  /** A single match is exactly one position holding the value. */
  lemma {:induction false} SingleMatchIffUnique(xs: seq<string>, v: string)
    ensures Count(xs, v) == 1 <==> exists i :: UniqueAt(xs, v, i)
    decreases |xs|
  {
    if |xs| == 0 {
      return;
    }
    var rest := xs[1..];
    SingleMatchIffUnique(rest, v);
    if Count(xs, v) == 1 {
      if xs[0] == v {
        assert v !in rest;
        assert UniqueAt(xs, v, 0);
      } else {
        var k :| UniqueAt(rest, v, k);
        forall j | 0 <= j < |xs| && xs[j] == v ensures j == k + 1 {
          assert j > 0 && rest[j - 1] == v;
        }
        assert UniqueAt(xs, v, k + 1);
      }
    }
    if i :| UniqueAt(xs, v, i) {
      if i == 0 {
        assert v !in rest;
      } else {
        assert xs[0] != v;
        forall j | 0 <= j < |rest| && rest[j] == v ensures j == i - 1 {
          assert xs[j + 1] == v;
        }
        assert UniqueAt(rest, v, i - 1);
      }
    }
  }

  function Emails(profiles: seq<Profile>): (es: seq<string>)
    ensures |es| == |profiles| && forall i :: 0 <= i < |profiles| ==> es[i] == profiles[i].email
  {
    seq(|profiles|, i requires 0 <= i < |profiles| => profiles[i].email)
  }

  function Usernames(profiles: seq<Profile>): (us: seq<string>)
    ensures |us| == |profiles| && forall i :: 0 <= i < |profiles| ==> us[i] == profiles[i].username
  {
    seq(|profiles|, i requires 0 <= i < |profiles| => profiles[i].username)
  }

  /** `.eq(column, v).single()` returns a row. */
  predicate SingleMatch(column: seq<string>, v: string) {
    Count(column, v) == 1
  }

  predicate EmailTaken(profiles: seq<Profile>, body: Body) {
    Truthy(body.email) && SingleMatch(Emails(profiles), body.email.value)
  }

  predicate UsernameTaken(profiles: seq<Profile>, body: Body) {
    Truthy(body.username) && SingleMatch(Usernames(profiles), body.username.value)
  }

  /** `POST`; a body that cannot be read is `None`. */
  function Validate(body: Option<Body>, profiles: seq<Profile>): (r: Reply)
    ensures body.None? ==> r == CheckFailed(MsgCheckFailed)
    ensures body.Some? && EmailTaken(profiles, body.value) ==> r == Conflict(MsgEmailTaken)
    ensures body.Some? && !EmailTaken(profiles, body.value) && UsernameTaken(profiles, body.value) ==>
              r == Conflict(MsgUsernameTaken)
    ensures r == Valid <==> body.Some? && !EmailTaken(profiles, body.value) && !UsernameTaken(profiles, body.value)
  {
    if body.None? then CheckFailed(MsgCheckFailed)
    else if EmailTaken(profiles, body.value) then Conflict(MsgEmailTaken)
    else if UsernameTaken(profiles, body.value) then Conflict(MsgUsernameTaken)
    else Valid
  }

  /** A taken email is reported whatever the username, and an empty or
      absent field is never reported. */
  lemma EmailCheckedFirst(email: string, u1: Option<string>, u2: Option<string>, profiles: seq<Profile>)
    ensures Validate(Some(Body(Some(email), u1)), profiles) == Conflict(MsgEmailTaken)
            <==> Validate(Some(Body(Some(email), u2)), profiles) == Conflict(MsgEmailTaken)
    ensures Validate(Some(Body(None, None)), profiles) == Valid
    ensures Validate(Some(Body(Some(""), Some(""))), profiles) == Valid
  {
  }

  /** With the uniqueness the profiles table keeps, a field is taken exactly
      when some profile has it. */
  lemma TakenIffPresent(column: seq<string>, v: string)
    requires forall i, j :: 0 <= i < j < |column| ==> column[i] != column[j]
    ensures SingleMatch(column, v) <==> v in column
  {
    AtMostOne(column, v);
  }

  lemma {:induction false} AtMostOne(column: seq<string>, v: string)
    requires forall i, j :: 0 <= i < j < |column| ==> column[i] != column[j]
    ensures Count(column, v) <= 1
    decreases |column|
  {
    if |column| > 0 {
      var rest := column[1..];
      AtMostOne(rest, v);
      if column[0] == v {
        assert v !in rest by {
          forall k | 0 <= k < |rest| ensures rest[k] != v {
            assert rest[k] == column[k + 1];
          }
        }
      }
    }
  }

  /** Without that uniqueness, an email held by two profiles reads as
      free. */
  lemma DuplicateReadsAsFree(p: Profile, q: Profile)
    requires p.email == q.email && p.email != ""
    ensures !EmailTaken([p, q], Body(Some(p.email), None))
  {
    assert Emails([p, q]) == [p.email, q.email];
    assert Emails([p, q])[1..] == [q.email];
  }
}
